=== FILE: README.md ===
# Talent-Flow data layer in Dafny

Talent-Flow is an in-browser applicant tracker. Jobs sit on a drag-and-drop board with a dense
`order` column. Candidates move through hiring stages, and every move is logged on an append-only
timeline. Each job carries an assessment made of sections of questions, some of which are
conditional. Recruiters leave notes with `@`-mentions. This project models the layer beneath the
pages, in the same form the JavaScript has:

- **Tables.** The Dexie tables become classes holding a `map<int, …>` plus an auto-increment
  counter: `Jobs.JobTable` and `Candidates.CandidateStore`. Their methods update these fields in
  place, as the local API functions and the mock handlers do.
- **Reorder.** The `order` shift is specified by the function `Jobs.Reordered`. The range that
  Dexie's `between` selects is made explicit as `Bounds`. `HalfOpen` is Dexie's default, the
  one the code uses. `Closed` includes the upper bound.
- **Mock API.** The handlers are methods over those tables (`JobHandlers`, `CandidateHandlers`).
  Injected failure is a boolean input, and the reply is a `Http.Reply`. The list queries are
  pure functions: filter, stable sort, total, then slice.
- **Jobs board.** Its state (`jobs`, `isUpdating`, `updateError`) is the class `JobsBoard.Board`.
  The drop handler splices an array copy in place (`MoveInPlace`) and then renumbers the rows 1..n.
- **Assessment builder.** The visibility rule and add-question are functions. The initial mock
  responses are filled by a loop.
- **Seed generator.** Every random draw is an explicit parameter. The timeline walk is a loop
  (`SeedWalk.GenerateTimeline`) proved equal to a recursive specification.
- **Notes panel.** The mention split, the suggestion filter and the insertion are string
  functions. The panel's state is the class `Notes.NotesPanel`.

Behaviour of the code that the model keeps, and proves as it is:

- The jobs list reads the `title` parameter, but the board sends `search`. A search text
  without `&` therefore never changes the result (`JobHandlers.PlainSearchIgnored`). The board
  pastes the text into its URL unencoded, so a text such as `x&title=Front` does filter on
  "Front" (`JobHandlers.SearchSmugglesTitle`).
- A status filter of `all` is compared literally, so it matches no job
  (`JobHandlers.StatusAllMatchesNothing`).
- The mention pattern `@[\w\s]+` runs on over the spaces and words that follow a name. So
  `@Ann hi` is one part, and it is not highlighted even when Ann is a member
  (`Notes.MentionTakesFollowingWords`).
- Choosing a suggestion closes the list, but the new draft ends in `@` plus the chosen name and
  a space. The suggestion effect then runs on it, and the query is the chosen name. The list
  therefore opens again at once, offering the chosen member (`Notes.ChooseReopens`).
- In a seeded assessment, the first question of every section is conditional on itself. It is
  shown only in section 1, because only `q-1-1` starts as "Yes" (`Seed.SeededVisibility`).
- A drop sends the dragged job's stored `order` as `fromOrder`, but `destination.index + 1` as
  `toOrder`, and it renumbers the visible rows 1..n. That index counts from the top of the shown
  page. On page 2 and later, or under a status filter, the rows the board shows therefore differ
  from what the store holds after the reorder. `JobsBoard.OptimisticMatchesStore` holds only for
  a view whose rows sit at orders 1..n, and `JobsBoard.Board.OnDragEnd` keeps the code's request
  as written.
- After an archive toggle that must refetch, `isUpdating` stays set; only the refetch clears
  it (`JobsBoard.Board.ArchiveSettled`).

## Model

| member | source | states |
|---|---|---|
| Jobs.StatusNames | src/mocks/seed.js:7 | the two status names are distinct, non-empty and never `all` |
| Jobs.Reordered | src/api/jobs.js:11-25 | keys and every field but `order` are kept; the moved job gets `toOrder`; others move by at most one; nothing else moves when `fromOrder == toOrder` |
| Jobs.ReorderDownShifts | src/api/jobs.js:14-18 | moving down, another job inside `between(fromOrder+1, toOrder)` loses one; a job outside the range is unchanged |
| Jobs.ReorderUpShifts | src/api/jobs.js:19-24 | moving up, another job inside `between(toOrder, fromOrder-1)` gains one; a job outside the range is unchanged |
| Jobs.ShiftedRoundTrip | src/api/jobs.js:14-24 | with the closed range, shifting back from `toOrder` to `fromOrder` restores every other order |
| Jobs.ShiftedInjective | src/api/jobs.js:14-24 | with the closed range, distinct orders stay distinct |
| Jobs.ReorderPreservesDense | src/api/jobs.js:11-25 | with the closed range, orders 1..N stay a permutation of 1..N |
| Jobs.ReorderRoundTrip | src/api/jobs.js:11-25 | with the closed range, reordering back from `toOrder` to `fromOrder` restores the table exactly |
| Jobs.AsWrittenBreaksDensity | src/api/jobs.js:15-23 | with the half-open range, any real move on a dense table leaves two jobs sharing an order |
| Jobs.AsWrittenMoveTwoToFive | src/api/jobs.js:15-18 | half-open, moving order 2 to 5 over 1..5 leaves jobs 2 and 5 both at order 5 |
| Jobs.CorrectedMoveTwoToFive | src/api/jobs.js:15-18 | closed, the same move gives orders 1, 5, 2, 3, 4 |
| Jobs.WithStatus | src/api/jobs.js:32-35 | only the target job's `status` changes; every other job is untouched |
| Jobs.WithStatusPreservesDense | src/api/jobs.js:32-35 | a status update keeps orders 1..N |
| Jobs.ApplyChanges | src/mocks/handlers.js:95 | each field the patch names, `createdAt` and `order` included, is overwritten; each field it leaves out is kept; the key is kept; an empty patch changes nothing |
| Jobs.ApplyChangesIdempotent | src/mocks/handlers.js:95 | merging the same patch twice gives the job merging it once gives |
| Jobs.ChangesPreserveDense | src/mocks/handlers.js:95 | a patch without `order` keeps orders 1..N |
| Jobs.MaxOrder | src/mocks/handlers.js:64-65 | an upper bound of every order that some row reaches, 0 on an empty table |
| Jobs.MaxOrderOfDense | src/mocks/handlers.js:64-65 | on a dense table the maximum order is the number of jobs |
| Jobs.AppendPreservesDense | src/mocks/handlers.js:64-73 | appending a job at order N+1 keeps the table dense |
| Jobs.JobTable.AllRows | src/mocks/handlers.js:35 | the rows in primary-key order, containing every job |
| Jobs.JobTable.ShiftRange | src/api/jobs.js:14-24 | every job except the moved one gets its range-shifted order; keys and other fields are kept |
| Jobs.JobTable.SetOrder | src/api/jobs.js:12 | only the target job's order is set |
| Jobs.JobTable.RunReorder | src/api/jobs.js:11-25 | the table afterwards is `Reordered` of the table before, for the given bounds |
| Jobs.JobTable.Reorder | src/api/jobs.js:7-27 | the reorder with the closed range, equal to `Reordered(…, Closed)` |
| Jobs.JobTable.ReorderAsWritten | src/api/jobs.js:7-27 | the reorder as written, equal to `Reordered(…, HalfOpen)` |
| Jobs.JobTable.UpdateStatus | src/api/jobs.js:32-35 | the table afterwards is `WithStatus` of the table before |
| Jobs.JobTable.Update | src/mocks/handlers.js:95 | applies the patch to an existing job; refuses a slug another job holds; a missing id changes nothing |
| Jobs.JobTable.Replace | src/mocks/seed.js:91-100 | the table becomes the given rows; the counter never goes back |
| Jobs.JobTable.Add | src/mocks/handlers.js:68-74 | a fresh id from the counter and the row stored under it; a taken slug fails and changes nothing |
| Candidates.StageNames | src/mocks/seed.js:8 | the six stage names are distinct and non-empty |
| Candidates.DetailsTextInjective | src/mocks/seed.js:120-142 | distinct timeline details give distinct texts |
| Candidates.WithStage | src/api/candidates.js:11 | the candidate's stage is the new one; every other field and candidate is kept; a missing id is a no-op |
| Candidates.WithStageKeepsEmails | src/api/candidates.js:11 | a stage change keeps emails unique |
| Candidates.ApplyPatch | src/mocks/handlers.js:187 | each field named by the patch is overwritten; the others and the id are kept |
| Candidates.StageOnlyIsWithStage | src/api/candidates.js:11 | a patch naming only the stage is the same as the stage overwrite |
| Candidates.History | src/mocks/handlers.js:208-209 | exactly the entries of one candidate, with multiplicity |
| Candidates.HistoryAppend | src/api/candidates.js:14-19 | appending an entry extends that candidate's history by it and leaves the others' unchanged |
| Candidates.Numbered | src/mocks/seed.js:148 | bulk-added entries get consecutive ids from the counter |
| Candidates.NumberedSnoc | src/mocks/seed.js:148 | numbering one more entry appends it with the next id |
| Candidates.CandidateStore.SetStage | src/api/candidates.js:11 | candidates become `WithStage`; timeline and counters are unchanged |
| Candidates.CandidateStore.Update | src/mocks/handlers.js:187 | applies the patch; refuses an email another candidate holds; a missing id changes nothing |
| Candidates.CandidateStore.Replace | src/mocks/seed.js:91-105 | the table becomes the given rows and the timeline is cleared |
| Candidates.CandidateStore.AddEntry | src/api/candidates.js:14-19 | exactly one entry is appended, with a fresh id larger than every earlier one; earlier entries are kept in order |
| Candidates.CandidateStore.AddEntries | src/mocks/seed.js:148 | the timeline grows by the numbered entries |
| Candidates.CandidateStore.UpdateStageLocal | src/api/candidates.js:7-21 | the stage is overwritten and one `Moved to <stage>` entry with a fresh id is appended, also for a missing candidate |
| Http.Param | src/mocks/handlers.js:27-28 | a missing query parameter reads as the empty string |
| Http.PaginateWindow | src/mocks/handlers.js:45-46 | the total is the count before slicing, and the page is a window of the list |
| Http.PaginatePositive | src/mocks/handlers.js:46 | for page and size of at least 1, the page is the slice `[(page-1)*size, page*size)`, clipped to the list |
| Http.PaginateNothing | src/mocks/handlers.js:45-46 | an empty list gives total 0 and no items |
| Http.PageAtMost | src/mocks/handlers.js:46 | a page holds at most `pageSize` items |
| JobHandlers.ReadStatusFilterExact | src/mocks/handlers.js:40-41 | a job passes the status filter iff the parameter is empty or equals its status name |
| JobHandlers.ReadJobQuery | src/mocks/handlers.js:27-30 | the title and status come from their parameters; page and size default to 1 and 10 and are never 0 |
| JobHandlers.OrderedJobs | src/mocks/handlers.js:32-35 | the rows sorted by order and id, a permutation of the table |
| JobHandlers.OrderedJobsComplete | src/mocks/handlers.js:32-35 | the ordered list holds every job and only jobs of the table |
| JobHandlers.ByTitle | src/mocks/handlers.js:37-39 | keeps exactly the rows whose title contains the term case-insensitively, in order |
| JobHandlers.ByStatus | src/mocks/handlers.js:40-42 | keeps exactly the rows passing the status filter, in order |
| JobHandlers.MatchingJobs | src/mocks/handlers.js:32-42 | the filtered list stays ascending by order, ties by key |
| JobHandlers.MatchingJobsExact | src/mocks/handlers.js:32-42 | the result keeps exactly the selected rows of the ordered list |
| JobHandlers.MatchingJobsMembers | src/mocks/handlers.js:32-42 | a job is in the result iff it matches both filters |
| JobHandlers.JobsPage | src/mocks/handlers.js:44-45 | the total counts the whole filtered list; a page with positive parameters holds at most `pageSize` jobs |
| JobHandlers.JobsPageSelected | src/mocks/handlers.js:24-53 | the page is sorted by order, holds only matching jobs, and is no longer than the total |
| JobHandlers.StatusAllMatchesNothing | src/mocks/handlers.js:40-42 | `status=all` returns total 0 and no jobs |
| Http.ParseQuery | src/mocks/handlers.js:27-30 | a parameter is present iff some `&`-separated pair carries its name, and its value is that of the first such pair |
| Http.SplitPairsAmp | src/pages/JobsBoard.jsx:27 | joining two texts with `&` joins their pieces |
| Http.PairRoundTrip | src/pages/JobsBoard.jsx:27 | `name=value` reads back as that name and value when the name has no `=` |
| Http.LookupAppend | src/mocks/handlers.js:27 | `get` on two runs of pairs answers from the first run when it has the name |
| JobHandlers.BoardParams | src/pages/JobsBoard.jsx:27 | the handler finds the board's page and size, the status up to its first `&`, and a title only from a `title=` pair inside the status or search text |
| JobHandlers.BoardLookups | src/pages/JobsBoard.jsx:27 | the first `page`, `pageSize` and `status` pairs are the board's own; `title` is looked up in what the texts add |
| JobHandlers.BoardQueryRoundTrip | src/pages/JobsBoard.jsx:27 | the handler reads back the board's page and size, the status up to `&`, and the smuggled title; texts without `&` come back as sent with no title |
| JobHandlers.SearchSmugglesTitle | src/pages/JobsBoard.jsx:27 | a search of the form `term&title=T` makes the list filter on the title T |
| JobHandlers.BoardSearchIgnored | src/pages/JobsBoard.jsx:27 | two board requests whose search texts carry the same `title` pair, or none, get the same page |
| JobHandlers.PlainSearchIgnored | src/pages/JobsBoard.jsx:27 | a search text without `&` gives the page an empty search gives |
| JobHandlers.NewJob | src/mocks/handlers.js:64-74 | a created job keeps the body's slug, title and tags, is active, gets the given time and an order above every existing one (1 on an empty table) |
| JobHandlers.NewJobKeepsDense | src/mocks/handlers.js:64-74 | on a dense table the new job's order is N+1 and the table stays dense |
| JobHandlers.PostJob | src/mocks/handlers.js:56-80 | an injected failure writes nothing; a taken slug is a constraint error; otherwise the job is stored under the next key and the 201 reply is `{ id, ...body }`, where an `id` in the body hides the key |
| JobHandlers.PatchJob | src/mocks/handlers.js:83-98 | an injected failure writes nothing; otherwise the patch is merged and the 200 reply is the path's key with the patch |
| JobHandlers.PatchReorderAsWritten | src/mocks/handlers.js:101-135 | an injected failure writes nothing; otherwise the table becomes the half-open `Reordered`, as the handler is written |
| JobHandlers.PatchReorder | src/mocks/handlers.js:101-135 | the corrected handler: an injected failure writes nothing; otherwise the table becomes the closed-range `Reordered` |
| CandidateHandlers.StageNamed | src/mocks/handlers.js:160-161 | finds the stage with the given name, and none when no stage has it |
| CandidateHandlers.ReadStageFilterExact | src/mocks/handlers.js:160-161 | a candidate passes iff the parameter is empty or equals its stage name |
| CandidateHandlers.ReadCandidateQuery | src/mocks/handlers.js:143-145 | the page defaults to 1 and is never 0 |
| CandidateHandlers.ReadCandidateQueryFields | src/mocks/handlers.js:143-145 | the search is the `search` text as sent, the stage filter is the one the `stage` text names, and a non-zero parsed `page` is the page |
| CandidateHandlers.CandidatePageRoundTrip | src/mocks/handlers.js:145 | a page number written in decimal reads back as that page |
| CandidateHandlers.BySearch | src/mocks/handlers.js:151-157 | keeps exactly the candidates whose name or email contains the term case-insensitively |
| CandidateHandlers.ByStage | src/mocks/handlers.js:160-162 | keeps exactly the candidates passing the stage filter |
| CandidateHandlers.MatchingCandidates | src/mocks/handlers.js:148-162 | every listed candidate passes the search and the stage filter |
| CandidateHandlers.MatchingCandidatesMembers | src/mocks/handlers.js:148-162 | a candidate is in the result iff it matches both filters |
| CandidateHandlers.CandidatesPage | src/mocks/handlers.js:164-165 | the total counts the whole filtered list; a page from 1 up holds at most 50 candidates |
| CandidateHandlers.CandidatesPageSelected | src/mocks/handlers.js:140-172 | the total counts the matches before slicing; the page holds only matches, at most 50 |
| CandidateHandlers.PatchCandidate | src/mocks/handlers.js:175-200 | an injected failure writes nothing; otherwise the patch is merged, and a `Moved to` entry is appended iff the patch names a stage |
| CandidateHandlers.CandidateTimeline | src/mocks/handlers.js:208-210 | exactly one candidate's entries, sorted by timestamp |
| CandidateHandlers.TimelineShowsAppended | src/mocks/handlers.js:190-210 | an appended entry shows up in its candidate's timeline and no other timeline changes |
| JobsBoard.RemoveAt | src/pages/JobsBoard.jsx:163 | removing one element shifts the later ones left by one |
| JobsBoard.InsertAt | src/pages/JobsBoard.jsx:164 | inserting puts the element at the index and shifts the later ones right |
| JobsBoard.RemoveInsert | src/pages/JobsBoard.jsx:163-164 | removing what was just inserted restores the list |
| JobsBoard.MoveItem | src/pages/JobsBoard.jsx:161-164 | the dragged row lands at the destination; without it, the list is unchanged |
| JobsBoard.MoveItemAt | src/pages/JobsBoard.jsx:161-164 | each position holds the row from its origin index |
| JobsBoard.MoveItemPermutes | src/pages/JobsBoard.jsx:161-164 | the moved list is a permutation of the old one |
| JobsBoard.MoveInPlace | src/pages/JobsBoard.jsx:163-164 | the two splices on an array give `MoveItem` of its old contents |
| JobsBoard.SpliceCopy | src/pages/JobsBoard.jsx:161-164 | the copied and spliced list equals `MoveItem` |
| JobsBoard.Renumber | src/pages/JobsBoard.jsx:166-169 | the row at position i gets order i+1 and keeps every other field |
| JobsBoard.RenumberOrders | src/pages/JobsBoard.jsx:166-169 | the visible orders are exactly 1..n |
| JobsBoard.FindJob | src/pages/JobsBoard.jsx:155 | finds a row with the id, or none when no row has it |
| JobsBoard.FindJobAt | src/pages/JobsBoard.jsx:155 | with distinct ids, the row found is the one holding the id |
| JobsBoard.OptimisticMatchesStore | src/pages/JobsBoard.jsx:136 | when the board shows the whole dense table, the optimistic rows equal the store after the closed-range reorder |
| JobsBoard.OptimisticDivergesAsWritten | src/pages/JobsBoard.jsx:136 | with the half-open range, moving the second of five rows to the end leaves the store's job 5 at order 5 while the board shows 4 |
| JobsBoard.Toggled | src/pages/JobsBoard.jsx:82-83 | the new status differs from the current one |
| JobsBoard.WithStatusShown | src/pages/JobsBoard.jsx:87-89 | only rows with the target id take the new status |
| JobsBoard.ToggleMatchesStore | src/pages/JobsBoard.jsx:87-89 | the optimistic rows equal the store after the status update |
| JobsBoard.TotalPages | src/pages/JobsBoard.jsx:58-59 | there are no pages exactly when there are no results |
| JobsBoard.TotalPagesBounds | src/pages/JobsBoard.jsx:58-59 | `totalPages` is the ceiling of total over page size |
| JobsBoard.NextEnabledIffMore | src/pages/JobsBoard.jsx:353 | Next is enabled iff later pages hold results |
| JobsBoard.Board.OnDragEnd | src/pages/JobsBoard.jsx:147-178 | no destination, the same index or an unknown id changes nothing and sends nothing; otherwise the rows are moved and renumbered, and the request carries the old order and `destination+1` |
| JobsBoard.Board.ReorderSettled | src/pages/JobsBoard.jsx:66-78 | success keeps the rows and clears the error; failure restores the snapshot and records the error |
| JobsBoard.Board.ArchiveToggle | src/pages/JobsBoard.jsx:81-92 | the status is flipped for the target row only, and the snapshot is the rows before |
| JobsBoard.Board.ArchiveSettled | src/pages/JobsBoard.jsx:106-115 | failure restores the snapshot; success refetches iff the filter hides the new status, otherwise clears the flags |
| Assessments.PreviewStartVisibility | src/pages/AssessmentBuilder.jsx:16-24 | with the preview's initial responses, an unconditional question is shown, and a conditional one iff its target is a question of the assessment and it expects "Yes" of `q-1-1` or the empty string of any other |
| Assessments.NewQuestion | src/pages/AssessmentBuilder.jsx:110-116 | the added question has the given id and type, the text `New <type> Question`, is required, has no condition, options or range, and is shown whatever the responses |
| Assessments.AllQuestionsHas | src/pages/AssessmentBuilder.jsx:79 | every question of every section is in the flattened list |
| Assessments.AddQuestion | src/pages/AssessmentBuilder.jsx:117-119 | the question is appended to each section with the id; other sections are untouched |
| Assessments.AddQuestionTotal | src/pages/AssessmentBuilder.jsx:117-119 | the flattened list grows by one per matching section; no match changes nothing |
| Assessments.AddQuestionOnce | src/pages/AssessmentBuilder.jsx:109-121 | with unique section ids, exactly one question is added, at the end of that section |
| Assessments.Ids | src/pages/AssessmentBuilder.jsx:79 | the set of ids is exactly the ids of the questions |
| Assessments.InitialResponses | src/pages/AssessmentBuilder.jsx:78-83 | every question id gets a key, "Yes" for `q-1-1` and the empty string for the others |
| JsString.Lower | src/mocks/handlers.js:38 | the same length, each character lower-cased |
| JsString.LowerIdempotent | src/mocks/handlers.js:38 | lower-casing twice is lower-casing once |
| JsString.Trim | src/components/NotesSection.jsx:66-69 | no edge whitespace remains; empty iff the input was all whitespace |
| JsString.TrimKeeps | src/components/NotesSection.jsx:69 | trimming keeps a property every character has |
| JsString.TrimNoSpace | src/components/NotesSection.jsx:69 | text without whitespace is its own trim |
| JsString.LastIndexOf | src/components/NotesSection.jsx:29 | -1 iff the character is absent; otherwise its last position |
| JsString.FirstSpace | src/components/NotesSection.jsx:57 | the first whitespace position, or -1 when there is none |
| JsString.Substring | src/components/NotesSection.jsx:53-58 | within bounds, the slice between the two indexes |
| JsString.Slice | src/mocks/handlers.js:46 | within bounds, the slice; from past the end, empty |
| JsString.SliceWindow | src/mocks/handlers.js:46 | every slice is a window of the list |
| JsString.SlicePage | src/mocks/handlers.js:46 | the page slice clipped to the list |
| JsString.DecimalValue | src/mocks/seed.js:41 | the decimal rendering reads back as the number |
| JsString.DecimalInjective | src/mocks/seed.js:41 | distinct numbers render differently |
| JsString.ParseIntDecimal | src/mocks/handlers.js:29 | parsing a rendered number gives it back |
| JsString.IntOr | src/mocks/handlers.js:29-30 | a parsed non-zero number is kept; a failed parse or 0 falls back to the default |
| Tables.KeysInRange | src/mocks/handlers.js:35 | exactly the keys of the table in the range |
| Tables.KeysAscending | src/mocks/handlers.js:148 | the keys come in ascending order |
| Tables.Rows | src/mocks/handlers.js:148 | the rows of the table in key order |
| Tables.RowsComplete | src/mocks/handlers.js:148 | every row of the table is listed, and only rows of the table |
| Tables.BulkAdd | src/mocks/seed.js:99-105 | keys 1..n, each holding the row made from its draw |
| Tables.Filter | src/mocks/handlers.js:38 | keeps exactly the elements satisfying the predicate, with multiplicity |
| Tables.FilterAppend | src/mocks/handlers.js:208-210 | filtering distributes over concatenation |
| Tables.FilterSorted | src/mocks/handlers.js:37-42 | filtering a sorted list keeps it sorted |
| Tables.SortBy | src/mocks/handlers.js:32 | a sorted permutation |
| SeedRandom.Random | src/mocks/seed.js:20 | a number between the two bounds |
| SeedRandom.RandomCovers | src/mocks/seed.js:20 | every number between the bounds can be drawn |
| SeedRandom.RandomItem | src/mocks/seed.js:21 | an element of the list |
| SeedWalk.Forward | src/mocks/seed.js:26-33 | every transition moves to a later stage |
| SeedWalk.KeepAllowed | src/mocks/seed.js:128-130 | a stage is kept iff it is in the list and passes the filter |
| SeedWalk.Possible | src/mocks/seed.js:128-130 | a stage is a next stage iff it is a transition of the current stage that passes the filter |
| SeedWalk.NextStep | src/mocks/seed.js:127-142 | no step iff the target is reached or no option remains; a step is a `Moved to` a permitted transition, 1 to 10 days later |
| SeedWalk.Steps | src/mocks/seed.js:127-144 | the walk terminates after at most as many steps as the stages ahead |
| SeedWalk.StepsMoves | src/mocks/seed.js:128-142 | every step is a `Moved to` a stage the filter permits |
| SeedWalk.StepsChain | src/mocks/seed.js:127-143 | each step follows a transition from the previous stage, strictly later in time |
| SeedWalk.WalkShape | src/mocks/seed.js:117-145 | 1 to 5 entries; the first is `Application submitted`; later ones follow the transitions with increasing timestamps and never pass the candidate's stage |
| SeedWalk.GenerateTimeline | src/mocks/seed.js:117-145 | the loop produces the specified walk |
| SeedWalk.StepsEnd | src/mocks/seed.js:127-133 | the walk stops at the target, or at hired for a rejected candidate under the index filter |
| SeedWalk.WalkEndsAtTarget | src/mocks/seed.js:127-133 | under the reaching filter, or for any stage but rejected, the last entry is the candidate's stage |
| SeedWalk.AsWrittenRejectedEndsHired | src/mocks/seed.js:127-133 | a rejected candidate whose draws take the first option ends at `Moved to hired` after five entries |
| SeedWalk.FirstOptionsReachHired | src/mocks/seed.js:127-134 | always taking the first option walks all the way to hired |
| Seed.Slugify | src/mocks/seed.js:23 | only lower-case letters, digits, `_` and `-` |
| Seed.SlugifyIdempotent | src/mocks/seed.js:23 | a slug is its own slug |
| Seed.CreatedAt | src/mocks/seed.js:45 | 1 to 90 days before now |
| Seed.JobTags | src/mocks/seed.js:43 | 1 to 4 tags, each a known skill |
| Seed.CreateJob | src/mocks/seed.js:36-47 | id and order as given, slug suffixed by the id, 1 to 4 skills, created 1 to 90 days ago |
| Seed.SeededJobs | src/mocks/seed.js:99-100 | ids 1..N, orders equal to ids, dense, slugs distinct |
| Seed.CandidateEmailInjective | src/mocks/seed.js:52 | distinct ids give distinct emails |
| Seed.CreateCandidate | src/mocks/seed.js:49-55 | the id and its email; a job id between 1 and 25 |
| Seed.SeededCandidates | src/mocks/seed.js:104-105 | ids 1..N with distinct emails and valid job ids |
| Seed.StartTime | src/mocks/seed.js:119 | within the last 90 days |
| Seed.SeededHistoryEndsAtStage | src/mocks/seed.js:117-145 | a candidate's history ends at their stage, except a rejected one under the index filter |
| Seed.QuestionIdInjective | src/mocks/seed.js:65 | question ids are equal iff section and question indexes are |
| Seed.QuestionFields | src/mocks/seed.js:64-80 | required; conditional on the section's first question being "Yes" iff the index is a multiple of 3; options for choice types; range 1..10 for numeric |
| Seed.CreateSection | src/mocks/seed.js:59-82 | 8 to 12 questions, each the seeded question of its index |
| Seed.CreateAssessment | src/mocks/seed.js:57-83 | 2 to 4 sections for the given job |
| Seed.SeededQuestionRules | src/mocks/seed.js:62-80 | every seeded question obeys the conditional, options and range rules |
| Seed.SeededQuestionIdsDistinct | src/mocks/seed.js:65 | question ids are distinct across an assessment |
| Seed.SeededVisibility | src/mocks/seed.js:69-72 | with the initial preview responses, a question is shown iff it is not conditional or is in section 1 |
| Seed.SeedAssessments | src/mocks/seed.js:109-110 | one assessment per draw, for jobs 1..n |
| Seed.SeedTimelineShape | src/mocks/seed.js:117-146 | one to five entries per candidate, each naming one of the candidates 1..n |
| Seed.GenerateSeedTimeline | src/mocks/seed.js:117-146 | the loop concatenates every candidate's walk |
| Seed.SeedJobsTable | src/mocks/seed.js:92-100 | the jobs table becomes the seeded rows |
| Seed.SeedCandidatesTable | src/mocks/seed.js:93-105 | the candidates table becomes the seeded rows and the timeline is cleared |
| Seed.SeedDatabase | src/mocks/seed.js:86-156 | jobs, candidates and timeline hold exactly the seeded data, and the assessments are returned |
| Notes.SplitMentions | src/components/NotesSection.jsx:7 | the split has at least one part |
| Notes.SplitConcat | src/components/NotesSection.jsx:7 | joining the parts gives back the text |
| Notes.SplitShape | src/components/NotesSection.jsx:7 | plain parts without a mention alternate with mention parts |
| Notes.AlternatesOdd | src/components/NotesSection.jsx:7 | an alternating split has an odd number of parts |
| Notes.Render | src/components/NotesSection.jsx:9-17 | one piece per part, highlighted iff the part is `@` plus a member name up to case and edge whitespace |
| Notes.RenderMentionText | src/components/NotesSection.jsx:5-19 | nothing iff the text is empty |
| Notes.RenderKeepsText | src/components/NotesSection.jsx:5-19 | the pieces join to the text, and exactly the member mentions are highlighted |
| Notes.MentionTakesFollowingWords | src/components/NotesSection.jsx:7-12 | `@Ann hi` is one part and is not highlighted, while `@Ann` is |
| Notes.WholeMention | src/components/NotesSection.jsx:7 | a text that is one mention splits into empty, itself, empty |
| Notes.MentionQuery | src/components/NotesSection.jsx:29-34 | no query iff the draft has no `@` |
| Notes.MentionQueryAfterLastAt | src/components/NotesSection.jsx:29-34 | the query is the lower-cased, trimmed text after the last `@` |
| Notes.UpdateSuggestions | src/components/NotesSection.jsx:32-50 | no `@` hides the list; an empty query shows every member; otherwise exactly the matching members, shown iff any match |
| Notes.OfferedExactly | src/components/NotesSection.jsx:37-46 | a member is offered iff the query is empty or their lower-cased name contains it |
| Notes.EmptyQueryOffersAll | src/components/NotesSection.jsx:44 | the empty query matches every member |
| Notes.InsertSuggestion | src/components/NotesSection.jsx:52-60 | the new draft starts with the text before the last `@`, then `@`, the member and a space |
| Notes.InsertReplacesWord | src/components/NotesSection.jsx:52-60 | the word after the last `@` is replaced by the member and a space; the text before and the rest after the word are kept |
| Notes.InsertWithoutAt | src/components/NotesSection.jsx:53-58 | without `@` the draft keeps only its text from the first whitespace, after the inserted mention |
| Notes.NotesPanel.Edit | src/components/NotesSection.jsx:32-50 | the draft is replaced and the suggestions follow it; notes are unchanged |
| Notes.NotesPanel.ChooseSuggestion | src/components/NotesSection.jsx:52-63 | the draft takes the inserted mention; the list is closed, then the effect on the changed draft re-opens it with the members matching the chosen name; notes are unchanged |
| Notes.ChosenQuery | src/components/NotesSection.jsx:32-34 | after `@`, a member without whitespace and a space, the query is the member's lower-cased name |
| Notes.ChooseReopens | src/components/NotesSection.jsx:32-63 | choosing a member without whitespace or `@` for the word after the last `@` leaves `@`, the member and a space, and the re-run effect shows the list with that member in it |
| Notes.NotesPanel.AddNote | src/components/NotesSection.jsx:65-76 | a blank draft changes nothing; otherwise the trimmed note is prepended to the earlier ones and the draft is cleared |

## Left out

- React rendering, hooks, effects and state batching. The suggestion effect runs inside `Notes.NotesPanel.Edit` and `ChooseSuggestion`, and the board's state changes run inside the `JobsBoard.Board` methods.
- Network interception, simulated latency and the fetch hook. Injected failure is a boolean input.
- Concurrency: overlapping in-flight reorders are not modelled; every operation runs to completion.
- The local API's `{ success: true }` return value. The methods return nothing.
- Parsing of ids from strings: the `draggableId` split and `parseInt` on route parameters. Ids are integers.
- Query parameters are keys of an enumeration rather than arbitrary strings; parameters the handlers never read are dropped.
- JobHandlers.BoardParams: percent-decoding, `+` as a space and a `#` fragment in the URL are not modelled; a status or search text is taken character for character.
- Jobs.ApplyChanges: a patch body that names `id` is not modelled, nor fields beyond the six a job has; a status other than active/archived is not modelled.
- JobHandlers.PostJob: body fields beyond the seven of `JobDraft` are not modelled, and a body without `title` or `slug` is not modelled; a body status other than active/archived (echoed in the reply) is not modelled.
- JobHandlers.PatchJob: a patch body that names `id` (which would also replace the key in the reply) is not modelled.
- A violated unique index (job `slug`, candidate `email`) is reported as a `ConstraintError` failure reply instead of a thrown exception.
- The board refetch after archiving is a returned `Refetch` choice. The response shape the fetch hook reads is not modelled.
- The initial sort of fetched rows on the board is not modelled.
- Saving the assessment structure (`PUT /assessments/:jobId`) and the assessment handlers are not modelled.
- The seeded assessments are returned as a value instead of being written to an assessments table.
- Seeding's console logging and its try/catch are left out.
- Clearing a table does not reset the auto-increment counter.
- ISO date strings: timestamps are integers in milliseconds, since same-format ISO strings sort like the times they encode.
- `Date.now()`, `toLocaleDateString` and the clock are parameters.
- `randomDate` is a natural-number draw mapped into the last 90 days (`Seed.StartTime`).
- Every `Math.random` draw is a natural-number parameter.
- Question ids from `Date.now()` are a parameter.
- JsString.Lower: lower-cases ASCII letters only; Unicode case mapping is not modelled.
- SeedRandom.Random: maps a natural-number draw into the range by remainder; the floating-point draw is not modelled.
- JsString.ParseIntDecimal: states only the round trip on decimal renderings; `parseInt`'s radix prefixes and its other edge cases are not modelled.
- Candidates.ApplyPatch: a patch that sets `stage` to the empty string (falsy, so no timeline entry) is not modelled; a stage in a patch is always one of the six.

## Findings

| source | as written | input that shows it | evidently intended | confidence | as-written member | corrected member |
|---|---|---|---|---|---|---|
| src/api/jobs.js:14-24 | Dexie's `between` excludes its upper bound, so the job at `toOrder` (moving down) or at `fromOrder-1` (moving up) is not shifted | five jobs at orders 1..5, move job 2 from order 2 to 5: jobs 2 and 5 both end at order 5 | the displaced range includes both ends, so orders stay 1..N | not executed | Jobs.AsWrittenMoveTwoToFive | Jobs.ReorderPreservesDense |
| src/mocks/handlers.js:119-130 | the reorder handler runs the same shifts with the same half-open `between` | five jobs at orders 1..5, PATCH job 2 from order 2 to 5: jobs 2 and 5 both end at order 5 | the displaced range includes both ends, so orders stay 1..N | not executed | JobHandlers.PatchReorderAsWritten | JobHandlers.PatchReorder |
| src/mocks/seed.js:127-133 | the next-stage filter compares stage indexes, and rejected has the largest index, so a rejected candidate's walk can pass through offer to hired | a rejected candidate whose draws always take the first option: the last entry is `Moved to hired` | the walk ends at the candidate's stage | not executed | SeedWalk.AsWrittenRejectedEndsHired | SeedWalk.WalkEndsAtTarget |

=== FILE: assessment.dfy ===
/**
 * The assessment builder: sections of questions, the rule that hides a conditional question
 * until the response it depends on has the expected value, adding a question to a section,
 * and the mock responses the preview starts from.
 */
module Assessments {
  import opened Wrappers

  datatype QuestionType = SingleChoice | MultiChoice | ShortText | LongText | Numeric | FileUploadStub

  /** The type as it is stored. */
  function TypeName(t: QuestionType): string {
    match t
    case SingleChoice => "single-choice"
    case MultiChoice => "multi-choice"
    case ShortText => "short-text"
    case LongText => "long-text"
    case Numeric => "numeric"
    case FileUploadStub => "file-upload-stub"
  }

  /** Show the question only when the response to `targetQuestionId` is `targetValue`. */
  datatype Conditional = Conditional(targetQuestionId: string, targetValue: string)

  datatype Range = Range(min: int, max: int)

  datatype Question = Question(
    id: string, qtype: QuestionType, text: string, required: bool,
    conditional: Option<Conditional>, options: Option<seq<string>>, range: Option<Range>)

  datatype Section = Section(id: string, title: string, questions: seq<Question>)

  /** The assessment of one job. */
  datatype Assessment = Assessment(jobId: int, sections: seq<Section>)

  /** The preview's responses, by question id. */
  type Responses = map<string, string>

  /**
   * The preview's visibility rule: a question without a condition is shown; a conditional
   * one only when its target has a response strictly equal to the expected value.
   */
  predicate Visible(q: Question, responses: Responses) {
    match q.conditional
    case None => true
    case Some(c) => c.targetQuestionId in responses && responses[c.targetQuestionId] == c.targetValue
  }

  /** A response that is missing, or that differs from the expected value, hides a conditional question. */
  lemma HiddenWhenUnanswered(q: Question, responses: Responses)
    requires q.conditional.Some?
    ensures q.conditional.value.targetQuestionId !in responses ==> !Visible(q, responses)
    ensures !Visible(q, responses) <==>
      (q.conditional.value.targetQuestionId !in responses || responses[q.conditional.value.targetQuestionId] != q.conditional.value.targetValue)
  {
  }

  // ---------------------------------------------------------------------------
  // The structure
  // ---------------------------------------------------------------------------

  /** `sections.flatMap(s => s.questions)`. */
  function AllQuestions(sections: seq<Section>): (qs: seq<Question>)
    ensures sections == [] ==> qs == []
  {
    if sections == [] then [] else sections[0].questions + AllQuestions(sections[1..])
  }

  /** Every question of every section is in the flattened list. */
  lemma {:induction false} AllQuestionsHas(sections: seq<Section>, s: nat, q: nat)
    requires s < |sections| && q < |sections[s].questions|
    ensures sections[s].questions[q] in AllQuestions(sections)
  {
    if s > 0 {
      AllQuestionsHas(sections[1..], s - 1, q);
    }
  }

  /**
   * The question `handleAddQuestion` creates: the given id and type, a default text, required,
   * and without condition, options or range, so the preview shows it whatever the responses.
   */
  function NewQuestion(id: string, t: QuestionType): (q: Question)
    ensures q.id == id && q.qtype == t && q.required
    ensures q.text == "New " + TypeName(t) + " Question"
    ensures q.conditional.None? && q.options.None? && q.range.None?
    ensures forall responses :: Visible(q, responses)
  {
    Question(id, t, "New " + TypeName(t) + " Question", true, None, None, None)
  }

  /** Appends `q` to the questions of every section whose id is `sectionId`; other sections are kept. */
  function AddQuestion(sections: seq<Section>, sectionId: string, q: Question): (r: seq<Section>)
    ensures |r| == |sections|
    ensures forall i :: 0 <= i < |r| ==> r[i].id == sections[i].id && r[i].title == sections[i].title
    ensures forall i :: 0 <= i < |r| && sections[i].id != sectionId ==> r[i] == sections[i]
    ensures forall i :: 0 <= i < |r| && sections[i].id == sectionId ==> r[i].questions == sections[i].questions + [q]
  {
    seq(|sections|, i requires 0 <= i < |sections| =>
      if sections[i].id == sectionId then sections[i].(questions := sections[i].questions + [q]) else sections[i])
  }

  /** How many sections carry the id. */
  function CountId(sections: seq<Section>, sectionId: string): nat {
    if sections == [] then 0 else (if sections[0].id == sectionId then 1 else 0) + CountId(sections[1..], sectionId)
  }

  /** Adding a question grows the flattened list by one question per section carrying the id, and leaves it as it was when none does. */
  lemma {:induction false} AddQuestionTotal(sections: seq<Section>, sectionId: string, q: Question)
    ensures |AllQuestions(AddQuestion(sections, sectionId, q))| == |AllQuestions(sections)| + CountId(sections, sectionId)
    ensures CountId(sections, sectionId) == 0 ==> AddQuestion(sections, sectionId, q) == sections
  {
    if sections != [] {
      var r := AddQuestion(sections, sectionId, q);
      AddQuestionTotal(sections[1..], sectionId, q);
      assert r[1..] == AddQuestion(sections[1..], sectionId, q);
    }
  }

  /** With a unique section id, the new question is added exactly once, at the end of that section. */
  lemma AddQuestionOnce(sections: seq<Section>, k: nat, q: Question)
    requires k < |sections|
    requires forall i :: 0 <= i < |sections| && i != k ==> sections[i].id != sections[k].id
    ensures var r := AddQuestion(sections, sections[k].id, q);
      |AllQuestions(r)| == |AllQuestions(sections)| + 1 && r[k].questions[|r[k].questions| - 1] == q
  {
    CountOne(sections, k);
    AddQuestionTotal(sections, sections[k].id, q);
  }

  lemma {:induction false} CountOne(sections: seq<Section>, k: nat)
    requires k < |sections|
    requires forall i :: 0 <= i < |sections| && i != k ==> sections[i].id != sections[k].id
    ensures CountId(sections, sections[k].id) == 1
  {
    var id := sections[k].id;
    if k == 0 {
      CountNone(sections[1..], id);
    } else {
      CountOne(sections[1..], k - 1);
    }
  }

  lemma {:induction false} CountNone(sections: seq<Section>, id: string)
    requires forall i :: 0 <= i < |sections| ==> sections[i].id != id
    ensures CountId(sections, id) == 0
  {
    if sections != [] {
      CountNone(sections[1..], id);
    }
  }

  // ---------------------------------------------------------------------------
  // Initial mock responses
  // ---------------------------------------------------------------------------

  /** The id of the first question of the first section, which the preview answers "Yes". */
  const FirstQuestionId := "q-1-1"

  /** The response the preview starts with for a question. */
  function DefaultResponse(id: string): string {
    if id == FirstQuestionId then "Yes" else ""
  }

  /**
   * What the preview shows before anyone answers: every question without a condition, and a
   * conditional question exactly when its target is a question of the assessment and it
   * expects "Yes" of `q-1-1` or the empty string of any other target.
   */
  lemma PreviewStartVisibility(sections: seq<Section>, responses: Responses, q: Question)
    requires responses.Keys == Ids(AllQuestions(sections))
    requires forall id :: id in responses ==> responses[id] == DefaultResponse(id)
    ensures q.conditional.None? ==> Visible(q, responses)
    ensures q.conditional.Some? ==>
      var c := q.conditional.value;
      (Visible(q, responses) <==>
        c.targetQuestionId in Ids(AllQuestions(sections))
        && (if c.targetQuestionId == FirstQuestionId then c.targetValue == "Yes" else c.targetValue == ""))
  {
  }

  /** The ids of a list of questions. */
  function Ids(qs: seq<Question>): (ids: set<string>)
    ensures forall i :: 0 <= i < |qs| ==> qs[i].id in ids
    ensures forall id :: id in ids ==> exists i :: 0 <= i < |qs| && qs[i].id == id
  {
    set i | 0 <= i < |qs| :: qs[i].id
  }

  /**
   * The responses object built question by question: every question id gets a key, "Yes"
   * for the first question of the first section and the empty string for the others.
   */
  method InitialResponses(sections: seq<Section>) returns (r: Responses)
    ensures r.Keys == Ids(AllQuestions(sections))
    ensures forall id :: id in r ==> r[id] == DefaultResponse(id)
  {
    var qs := AllQuestions(sections);
    r := map[];
    var i := 0;
    while i < |qs|
      invariant 0 <= i <= |qs|
      invariant r.Keys == Ids(qs[..i])
      invariant forall id :: id in r ==> r[id] == DefaultResponse(id)
    {
      var q := qs[i];
      if q.id == FirstQuestionId {
        r := r[q.id := "Yes"];
      } else {
        r := r[q.id := ""];
      }
      IdsSnoc(qs, i);
      i := i + 1;
    }
    assert qs[..i] == qs;
  }

  /** The ids of one more question are the ids so far and that question's id. */
  lemma IdsSnoc(qs: seq<Question>, i: nat)
    requires i < |qs|
    ensures Ids(qs[..i + 1]) == Ids(qs[..i]) + {qs[i].id}
  {
    assert qs[..i + 1] == qs[..i] + [qs[i]];
    var a, b := Ids(qs[..i + 1]), Ids(qs[..i]) + {qs[i].id};
    forall id | id in a ensures id in b {
      var j :| 0 <= j < i + 1 && qs[..i + 1][j].id == id;
      if j < i {
        assert qs[..i][j].id == id;
      }
    }
  }
}

=== FILE: candidate_handlers.dfy ===
/**
 * The mock request handlers for candidates: the list query (search on name or email, stage
 * filter, fixed-size pages), the patch that merges changes and records a stage change, and
 * the per-candidate timeline in timestamp order.
 */
module CandidateHandlers {
  import opened Wrappers
  import opened JsString
  import Tables
  import opened Candidates
  import opened Http

  /** How the `stage` parameter selects: no filter, one stage, or a value no candidate has. */
  datatype StageFilter = AnyStage | OnlyStage(stage: Stage) | NoStage

  /** The stage whose stored name is `p`, if any. */
  function StageNamed(p: string): (r: Option<Stage>)
    ensures r.Some? ==> StageName(r.value) == p
    ensures r.None? ==> forall s: Stage :: StageName(s) != p
  {
    if p == StageName(Applied) then Some(Applied)
    else if p == StageName(Screen) then Some(Screen)
    else if p == StageName(Tech) then Some(Tech)
    else if p == StageName(Offer) then Some(Offer)
    else if p == StageName(Hired) then Some(Hired)
    else if p == StageName(Rejected) then Some(Rejected)
    else None
  }

  /** Reads the `stage` parameter; an absent or empty value applies no filter. */
  function ReadStageFilter(p: string): StageFilter {
    if p == "" then AnyStage
    else match StageNamed(p)
      case Some(s) => OnlyStage(s)
      case None => NoStage
  }

  predicate StagePasses(s: Stage, f: StageFilter) {
    match f
    case AnyStage => true
    case OnlyStage(t) => s == t
    case NoStage => false
  }

  /** The filter read from `p` passes a stage exactly when `p` is empty or `p` is that stage's name. */
  lemma ReadStageFilterExact(s: Stage, p: string)
    ensures StagePasses(s, ReadStageFilter(p)) <==> (p == "" || StageName(s) == p)
  {
    if p != "" {
      var named := StageNamed(p);
      if named.Some? {
        StageNames(s, named.value);
      }
    }
  }

  /** The list query as the handler reads it. */
  datatype CandidateQuery = CandidateQuery(search: string, stage: StageFilter, page: int)

  /** The fixed page size of the candidate list. */
  const CandidatePageSize := 50

  /** Reads `search`, `stage` and `page` (default 1). */
  function ReadCandidateQuery(q: Params): (r: CandidateQuery)
    ensures r.page != 0
    ensures PageKey !in q ==> r.page == 1
  {
    CandidateQuery(Param(q, SearchKey), ReadStageFilter(Param(q, StageKey)), IntOr(ParseInt(Param(q, PageKey)), 1))
  }

  /** The query carries the `search` text as sent, the stage filter the `stage` text names, and a non-zero `page` as parsed. */
  lemma ReadCandidateQueryFields(q: Params)
    ensures var r := ReadCandidateQuery(q);
      && r.search == Param(q, SearchKey)
      && r.stage == ReadStageFilter(Param(q, StageKey))
      && (var n := ParseInt(Param(q, PageKey)); n.Some? && n.value != 0 ==> r.page == n.value)
  {
  }

  /** A page number written in decimal reads back as that page. */
  lemma CandidatePageRoundTrip(q: Params, n: nat)
    requires n >= 1 && Param(q, PageKey) == Decimal(n)
    ensures ReadCandidateQuery(q).page == n
  {
    ParseIntDecimal(n);
  }

  /** The name or the email contains the search term, ignoring case. */
  predicate SearchMatches(c: Candidate, search: string) {
    Includes(Lower(c.name), Lower(search)) || Includes(Lower(c.email), Lower(search))
  }

  /** A candidate passes the filters: the search matches (an empty term passes all), and the stage passes. */
  predicate CandidateSelected(c: Candidate, search: string, stage: StageFilter) {
    (search == "" || SearchMatches(c, search)) && StagePasses(c.stage, stage)
  }

  /** The search filter, applied only when the term is non-empty. */
  function BySearch(rows: seq<Candidate>, search: string): (r: seq<Candidate>)
    ensures forall x :: multiset(r)[x] == if search == "" || SearchMatches(x, search) then multiset(rows)[x] else 0
  {
    if search != "" then Tables.Filter(rows, (c: Candidate) => SearchMatches(c, search)) else rows
  }

  /** The stage filter, applied only when the parameter is non-empty. */
  function ByStage(rows: seq<Candidate>, stage: StageFilter): (r: seq<Candidate>)
    ensures forall x :: multiset(r)[x] == if StagePasses(x.stage, stage) then multiset(rows)[x] else 0
  {
    if stage != AnyStage then Tables.Filter(rows, (c: Candidate) => StagePasses(c.stage, stage)) else rows
  }

  /** Every stored candidate in primary-key order, after the search filter and then the stage filter. */
  function MatchingCandidates(cs: map<int, Candidate>, nextId: int, search: string, stage: StageFilter): (r: seq<Candidate>)
    ensures forall x :: x in r ==> CandidateSelected(x, search, stage)
  {
    ByStage(BySearch(Tables.Rows(cs, 1, nextId), search), stage)
  }

  /** A stored candidate is listed exactly when it passes both filters, and every listed candidate is a stored one. */
  lemma MatchingCandidatesMembers(cs: map<int, Candidate>, nextId: int, search: string, stage: StageFilter)
    requires forall k :: k in cs ==> 1 <= k < nextId
    ensures var r := MatchingCandidates(cs, nextId, search, stage);
      forall k :: k in cs ==> (cs[k] in r <==> CandidateSelected(cs[k], search, stage))
    ensures var r := MatchingCandidates(cs, nextId, search, stage);
      forall x :: x in r ==> CandidateSelected(x, search, stage) && x in cs.Values
  {
    Tables.RowsComplete(cs, 1, nextId);
    var all := Tables.Rows(cs, 1, nextId);
    var r := MatchingCandidates(cs, nextId, search, stage);
    assert forall x :: multiset(r)[x] == if CandidateSelected(x, search, stage) then multiset(all)[x] else 0;
    forall k | k in cs ensures cs[k] in r <==> CandidateSelected(cs[k], search, stage) {
      assert multiset(all)[cs[k]] > 0;
    }
    forall x | x in r ensures CandidateSelected(x, search, stage) && x in cs.Values {
      assert multiset(r)[x] > 0;
      assert x in all;
    }
  }

  /** The answer to a parsed list query: the size of the filtered list and the requested page of 50. */
  function CandidatesPage(cs: map<int, Candidate>, nextId: int, query: CandidateQuery): (p: Page<Candidate>)
    ensures p.total == |MatchingCandidates(cs, nextId, query.search, query.stage)|
    ensures query.page >= 1 ==> |p.items| <= CandidatePageSize
  {
    var all := MatchingCandidates(cs, nextId, query.search, query.stage);
    if query.page >= 1 then
      PageAtMost(all, query.page, CandidatePageSize);
      Paginate(all, query.page, CandidatePageSize)
    else Paginate(all, query.page, CandidatePageSize)
  }

  /** GET /api/candidates. */
  function ListCandidates(cs: map<int, Candidate>, nextId: int, q: Params): Page<Candidate> {
    CandidatesPage(cs, nextId, ReadCandidateQuery(q))
  }

  /** Every listed candidate passes the filters, a page holds at most 50, and the total counts the whole filtered list. */
  lemma CandidatesPageSelected(cs: map<int, Candidate>, nextId: int, query: CandidateQuery)
    requires forall k :: k in cs ==> 1 <= k < nextId
    ensures var r := CandidatesPage(cs, nextId, query);
      && r.total == |MatchingCandidates(cs, nextId, query.search, query.stage)|
      && (forall x :: x in r.items ==> CandidateSelected(x, query.search, query.stage) && x in cs.Values)
      && |r.items| <= r.total
      && (query.page >= 1 ==> |r.items| <= CandidatePageSize)
  {
    var all := MatchingCandidates(cs, nextId, query.search, query.stage);
    var r := CandidatesPage(cs, nextId, query);
    assert r == Paginate(all, query.page, CandidatePageSize);
    MatchingCandidatesMembers(cs, nextId, query.search, query.stage);
    var lo, hi := PaginateWindow(all, query.page, CandidatePageSize);
    Tables.WindowMembers(all, lo, hi);
    forall x | x in r.items ensures CandidateSelected(x, query.search, query.stage) && x in cs.Values {
      assert x in all;
    }
    if query.page >= 1 {
      PageAtMost(all, query.page, CandidatePageSize);
    }
  }

  // ---------------------------------------------------------------------------
  // Patch
  // ---------------------------------------------------------------------------

  /** The body of a successful PATCH reply: the id and the changes that were sent. */
  datatype PatchEcho = PatchEcho(id: int, changes: CandidatePatch)

  /**
   * PATCH /api/candidates/:id: the changes are merged into the candidate (none when the key
   * is absent); a "Moved to" entry is appended only when the changes carry a stage.
   */
  method PatchCandidate(s: CandidateStore, fail: bool, id: int, changes: CandidatePatch, now: int)
    returns (r: Reply<PatchEcho>)
    requires s.Valid()
    modifies s
    ensures s.Valid() && s.nextId == old(s.nextId)
    ensures fail ==> r == Failure(500, Injected(CandidateUpdate))
    ensures r.Failure? ==> s.candidates == old(s.candidates) && s.timeline == old(s.timeline) && s.nextEntryId == old(s.nextEntryId)
    ensures !fail ==> (r.Failure? <==> id in old(s.candidates) && changes.email.Some? && EmailTaken(old(s.candidates), changes.email.value, id))
    ensures !fail && r.Failure? ==> r.error == ConstraintError
    ensures r.Success? ==> r == Success(200, PatchEcho(id, changes))
    ensures r.Success? && id in old(s.candidates) ==> s.candidates == old(s.candidates)[id := ApplyPatch(old(s.candidates)[id], changes)]
    ensures r.Success? && id !in old(s.candidates) ==> s.candidates == old(s.candidates)
    ensures r.Success? && changes.stage.None? ==> s.timeline == old(s.timeline) && s.nextEntryId == old(s.nextEntryId)
    ensures r.Success? && changes.stage.Some? ==>
      && s.nextEntryId == old(s.nextEntryId) + 1
      && s.timeline == old(s.timeline) + [TimelineEntry(old(s.nextEntryId), id, StageChange, MovedTo(changes.stage.value), now)]
  {
    if fail {
      return Failure(500, Injected(CandidateUpdate));
    }
    var ok := s.Update(id, changes);
    if !ok {
      return Failure(500, ConstraintError);
    }
    if changes.stage.Some? {
      var _ := s.AddEntry(id, MovedTo(changes.stage.value), now);
    }
    r := Success(200, PatchEcho(id, changes));
  }

  // ---------------------------------------------------------------------------
  // Timeline
  // ---------------------------------------------------------------------------

  /** The rank of `sortBy('timestamp')`: timestamp, ties kept in primary-key order. */
  function ByTime(e: TimelineEntry): (int, int) {
    (e.timestamp, e.id)
  }

  /** GET /api/candidates/:id/timeline: that candidate's entries, ascending by timestamp. */
  function CandidateTimeline(tl: seq<TimelineEntry>, cid: int): (r: seq<TimelineEntry>)
    ensures Tables.SortedBy(r, ByTime)
    ensures forall i :: 0 <= i < |r| ==> r[i].candidateId == cid
    ensures forall e :: multiset(r)[e] == if e.candidateId == cid then multiset(tl)[e] else 0
  {
    var r := Tables.SortBy(History(tl, cid), ByTime);
    assert forall i :: 0 <= i < |r| ==> r[i] in multiset(History(tl, cid));
    r
  }

  /** After a stage change is recorded, the candidate's timeline shows it, and the other candidates' timelines are as before. */
  lemma TimelineShowsAppended(tl: seq<TimelineEntry>, e: TimelineEntry, cid: int)
    ensures e.candidateId == cid ==> e in CandidateTimeline(tl + [e], cid)
    ensures e.candidateId != cid ==> CandidateTimeline(tl + [e], cid) == CandidateTimeline(tl, cid)
  {
    HistoryAppend(tl, e, cid);
    if e.candidateId == cid {
      var r := CandidateTimeline(tl + [e], cid);
      assert multiset(tl + [e])[e] > 0;
      assert multiset(r)[e] > 0;
    } else {
      assert History(tl + [e], cid) == History(tl, cid);
    }
  }
}

=== FILE: candidates.dfy ===
/**
 * The candidate store: the `candidates` table, whose rows are updated in place, and the
 * append-only `timeline` of stage changes, whose entries take their ids from an
 * auto-increment counter.
 */
module Candidates {
  import opened Wrappers
  import Tables

  /** The hiring stages, in the order of the pipeline. */
  datatype Stage = Applied | Screen | Tech | Offer | Hired | Rejected

  /** The stage as it is stored and sent. */
  function StageName(s: Stage): string {
    match s
    case Applied => "applied"
    case Screen => "screen"
    case Tech => "tech"
    case Offer => "offer"
    case Hired => "hired"
    case Rejected => "rejected"
  }

  /** Distinct stages are stored as distinct, non-empty strings. */
  lemma StageNames(a: Stage, b: Stage)
    ensures StageName(a) == StageName(b) <==> a == b
    ensures StageName(a) != ""
  {
  }

  /** A candidate record. */
  datatype Candidate = Candidate(id: int, name: string, email: string, stage: Stage, jobId: int)

  /** The `type` of a timeline entry; every entry the data layer writes is a stage change. */
  datatype EntryKind = StageChange

  /** What a timeline entry says: the opening entry of a seeded history, or a move to a stage. */
  datatype Details = Submitted(stage: Stage) | MovedTo(stage: Stage)

  /** The `details` text of an entry. */
  function DetailsText(d: Details): string {
    match d
    case Submitted(s) => "Application submitted. Stage: " + StageName(s)
    case MovedTo(s) => "Moved to " + StageName(s)
  }

  /** Distinct details are written as distinct texts, so the text determines the entry's meaning. */
  lemma DetailsTextInjective(a: Details, b: Details)
    ensures DetailsText(a) == DetailsText(b) <==> a == b
  {
    StageNames(a.stage, b.stage);
    if DetailsText(a) == DetailsText(b) {
      if a.Submitted? && b.Submitted? {
        var n := |"Application submitted. Stage: "|;
        assert DetailsText(a)[n..] == StageName(a.stage);
        assert DetailsText(b)[n..] == StageName(b.stage);
      } else if a.MovedTo? && b.MovedTo? {
        var n := |"Moved to "|;
        assert DetailsText(a)[n..] == StageName(a.stage);
        assert DetailsText(b)[n..] == StageName(b.stage);
      }
    }
  }

  /** A timeline entry; `timestamp` is in milliseconds. */
  datatype TimelineEntry = TimelineEntry(id: int, candidateId: int, kind: EntryKind, details: Details, timestamp: int)

  // ---------------------------------------------------------------------------
  // Candidate rows
  // ---------------------------------------------------------------------------

  /** The unique `&email` index: no two candidates share an email. */
  predicate EmailsUnique(cs: map<int, Candidate>) {
    forall k1, k2 :: k1 in cs && k2 in cs && k1 != k2 ==> cs[k1].email != cs[k2].email
  }

  /** Whether some candidate other than `except` already holds `email`. */
  predicate EmailTaken(cs: map<int, Candidate>, email: string, except: int) {
    exists k :: k in cs && k != except && cs[k].email == email
  }

  /** The table after `update(id, { stage })`: that candidate's stage is replaced, nothing else changes. */
  function WithStage(cs: map<int, Candidate>, id: int, stage: Stage): (r: map<int, Candidate>)
    ensures r.Keys == cs.Keys
    ensures id in cs ==> r[id].stage == stage
    ensures forall k :: k in cs ==> r[k] == cs[k].(stage := r[k].stage)
    ensures forall k :: k in cs && k != id ==> r[k] == cs[k]
  {
    if id in cs then cs[id := cs[id].(stage := stage)] else cs
  }

  /** Changing a stage never touches an email, so the unique index still holds. */
  lemma WithStageKeepsEmails(cs: map<int, Candidate>, id: int, stage: Stage)
    requires EmailsUnique(cs)
    ensures EmailsUnique(WithStage(cs, id, stage))
  {
    var r := WithStage(cs, id, stage);
    forall k1, k2 | k1 in r && k2 in r && k1 != k2 ensures r[k1].email != r[k2].email {
      assert r[k1].email == cs[k1].email && r[k2].email == cs[k2].email;
    }
  }

  /** The fields of a PATCH /api/candidates/:id body; an absent field is left as it is. */
  datatype CandidatePatch = CandidatePatch(name: Option<string>, email: Option<string>, stage: Option<Stage>, jobId: Option<int>)

  /** The patch that carries only a stage. */
  function StageOnly(stage: Stage): CandidatePatch {
    CandidatePatch(None, None, Some(stage), None)
  }

  /** Merges a patch into a candidate: each present field replaces the old value. */
  function ApplyPatch(c: Candidate, p: CandidatePatch): (r: Candidate)
    ensures r.id == c.id
    ensures r.name == p.name.GetOr(c.name) && r.email == p.email.GetOr(c.email)
    ensures r.stage == p.stage.GetOr(c.stage) && r.jobId == p.jobId.GetOr(c.jobId)
  {
    Candidate(c.id, p.name.GetOr(c.name), p.email.GetOr(c.email), p.stage.GetOr(c.stage), p.jobId.GetOr(c.jobId))
  }

  /** The local stage update and a stage-only patch have the same effect on a row. */
  lemma StageOnlyIsWithStage(cs: map<int, Candidate>, id: int, stage: Stage)
    requires id in cs
    ensures WithStage(cs, id, stage) == cs[id := ApplyPatch(cs[id], StageOnly(stage))]
  {
    assert ApplyPatch(cs[id], StageOnly(stage)) == cs[id].(stage := stage);
  }

  // ---------------------------------------------------------------------------
  // Timeline
  // ---------------------------------------------------------------------------

  /** Entries are held in ascending id order, the order in which they were added. */
  predicate IdsAscending(tl: seq<TimelineEntry>) {
    forall i, j :: 0 <= i < j < |tl| ==> tl[i].id < tl[j].id
  }

  /** `where('candidateId').equals(cid)`: one candidate's entries, in the order they were added. */
  function History(tl: seq<TimelineEntry>, cid: int): (r: seq<TimelineEntry>)
    ensures forall i :: 0 <= i < |r| ==> r[i].candidateId == cid
    ensures forall e :: multiset(r)[e] == if e.candidateId == cid then multiset(tl)[e] else 0
  {
    Tables.Filter(tl, (e: TimelineEntry) => e.candidateId == cid)
  }

  /** Appending an entry adds it to its own candidate's history, at the end, and to no other. */
  lemma HistoryAppend(tl: seq<TimelineEntry>, e: TimelineEntry, cid: int)
    ensures History(tl + [e], cid) == History(tl, cid) + (if e.candidateId == cid then [e] else [])
  {
    var p := (x: TimelineEntry) => x.candidateId == cid;
    Tables.FilterAppend(tl, [e], p);
    assert Tables.Filter([e], p) == if p(e) then [e] else [] by {
      assert [e][1..] == [];
    }
  }

  /** An entry as the seed writes it, before the table gives it an id. */
  datatype NewEntry = NewEntry(candidateId: int, details: Details, timestamp: int)

  /** The entries with ids `first`, `first + 1`, ... in order. */
  function Numbered(es: seq<NewEntry>, first: int): (r: seq<TimelineEntry>)
    ensures |r| == |es|
    ensures forall i :: 0 <= i < |r| ==>
      r[i] == TimelineEntry(first + i, es[i].candidateId, StageChange, es[i].details, es[i].timestamp)
  {
    seq(|es|, i requires 0 <= i < |es| =>
      TimelineEntry(first + i, es[i].candidateId, StageChange, es[i].details, es[i].timestamp))
  }

  lemma NumberedSnoc(es: seq<NewEntry>, e: NewEntry, first: int)
    ensures Numbered(es + [e], first)
         == Numbered(es, first) + [TimelineEntry(first + |es|, e.candidateId, StageChange, e.details, e.timestamp)]
  {
    var a := Numbered(es + [e], first);
    var b := Numbered(es, first) + [TimelineEntry(first + |es|, e.candidateId, StageChange, e.details, e.timestamp)];
    assert forall i :: 0 <= i < |a| ==> a[i] == b[i];
  }

  /** The store: candidates by primary key, the timeline and the two auto-increment counters. */
  class CandidateStore {
    var candidates: map<int, Candidate>
    var nextId: int
    var timeline: seq<TimelineEntry>
    var nextEntryId: int

    ghost predicate Valid()
      reads this
    {
      && nextId >= 1
      && (forall k :: k in candidates ==> 1 <= k < nextId && candidates[k].id == k)
      && EmailsUnique(candidates)
      && nextEntryId >= 1
      && (forall i :: 0 <= i < |timeline| ==> 1 <= timeline[i].id < nextEntryId)
      && IdsAscending(timeline)
    }

    constructor ()
      ensures Valid()
      ensures candidates == map[] && nextId == 1 && timeline == [] && nextEntryId == 1
    {
      candidates := map[];
      nextId := 1;
      timeline := [];
      nextEntryId := 1;
    }

    /** `candidates.update(id, { stage })`: a missing key is not an error and changes nothing. */
    method SetStage(id: int, stage: Stage)
      requires Valid()
      modifies this
      ensures Valid()
      ensures candidates == WithStage(old(candidates), id, stage)
      ensures nextId == old(nextId) && timeline == old(timeline) && nextEntryId == old(nextEntryId)
    {
      WithStageKeepsEmails(candidates, id, stage);
      if id in candidates {
        candidates := candidates[id := candidates[id].(stage := stage)];
      }
    }

    /**
     * `candidates.update(id, patch)`: merges the patch into the row with that key (none when
     * absent); fails, changing nothing, when the new email is held by another candidate.
     */
    method Update(id: int, p: CandidatePatch) returns (ok: bool)
      requires Valid()
      modifies this
      ensures Valid()
      ensures nextId == old(nextId) && timeline == old(timeline) && nextEntryId == old(nextEntryId)
      ensures ok <==> !(id in old(candidates) && p.email.Some? && EmailTaken(old(candidates), p.email.value, id))
      ensures ok && id in old(candidates) ==> candidates == old(candidates)[id := ApplyPatch(old(candidates)[id], p)]
      ensures !ok || id !in old(candidates) ==> candidates == old(candidates)
    {
      if id !in candidates {
        return true;
      }
      if p.email.Some? && EmailTaken(candidates, p.email.value, id) {
        return false;
      }
      candidates := candidates[id := ApplyPatch(candidates[id], p)];
      ok := true;
    }

    /**
     * `clear()` on both tables followed by `bulkPut(rows)` on the candidates with explicit
     * keys below `bound`; the key generators, which `clear()` does not reset, move past the
     * largest key written.
     */
    method Replace(rows: map<int, Candidate>, bound: int)
      requires Valid()
      requires forall k :: k in rows ==> 1 <= k < bound && rows[k].id == k
      requires EmailsUnique(rows)
      modifies this
      ensures Valid() && candidates == rows && timeline == [] && nextEntryId == old(nextEntryId)
      ensures nextId == if old(nextId) >= bound then old(nextId) else bound
    {
      candidates := rows;
      timeline := [];
      if nextId < bound {
        nextId := bound;
      }
    }

    /** `timeline.add(entry)`: the entry is appended under a fresh auto-incremented id. */
    method AddEntry(candidateId: int, details: Details, timestamp: int) returns (entryId: int)
      requires Valid()
      modifies this
      ensures Valid()
      ensures entryId == old(nextEntryId) && nextEntryId == old(nextEntryId) + 1
      ensures forall i :: 0 <= i < |old(timeline)| ==> old(timeline)[i].id < entryId
      ensures timeline == old(timeline) + [TimelineEntry(entryId, candidateId, StageChange, details, timestamp)]
      ensures candidates == old(candidates) && nextId == old(nextId)
    {
      entryId := nextEntryId;
      timeline := timeline + [TimelineEntry(entryId, candidateId, StageChange, details, timestamp)];
      nextEntryId := nextEntryId + 1;
    }

    /** `timeline.bulkPut(entries)` without keys: each entry is appended under the next generated id. */
    method AddEntries(entries: seq<NewEntry>)
      requires Valid()
      modifies this
      ensures Valid()
      ensures timeline == old(timeline) + Numbered(entries, old(nextEntryId))
      ensures nextEntryId == old(nextEntryId) + |entries|
      ensures candidates == old(candidates) && nextId == old(nextId)
    {
      var i := 0;
      while i < |entries|
        invariant 0 <= i <= |entries| && Valid()
        invariant timeline == old(timeline) + Numbered(entries[..i], old(nextEntryId))
        invariant nextEntryId == old(nextEntryId) + i
        invariant candidates == old(candidates) && nextId == old(nextId)
      {
        var e := entries[i];
        var _ := AddEntry(e.candidateId, e.details, e.timestamp);
        NumberedSnoc(entries[..i], e, old(nextEntryId));
        assert entries[..i + 1] == entries[..i] + [e];
        i := i + 1;
      }
      assert entries[..i] == entries;
    }

    /**
     * The local stage update: the candidate's stage is overwritten (no effect when there is no
     * such candidate), then a "Moved to" entry for that id is appended in every case.
     */
    method UpdateStageLocal(id: int, newStage: Stage, now: int)
      requires Valid()
      modifies this
      ensures Valid()
      ensures candidates == WithStage(old(candidates), id, newStage) && nextId == old(nextId)
      ensures nextEntryId == old(nextEntryId) + 1
      ensures timeline == old(timeline) + [TimelineEntry(old(nextEntryId), id, StageChange, MovedTo(newStage), now)]
      ensures forall i :: 0 <= i < |old(timeline)| ==> old(timeline)[i].id < old(nextEntryId)
    {
      SetStage(id, newStage);
      var _ := AddEntry(id, MovedTo(newStage), now);
    }
  }
}

=== FILE: http.dfy ===
/**
 * The request and response shapes of the mock API: the query string as the handlers read
 * it, one page of a list, and a reply that is a success with its status code and body or a
 * failure with its status code and the reason.
 */
module Http {
  import JsString
  import opened Wrappers

  /** The writes that consult the injected failure before touching the database. */
  datatype Operation = JobCreation | JobUpdate | JobReorder | CandidateUpdate

  /** Why a request did not succeed. */
  datatype ApiError =
    | Injected(op: Operation)   // the simulated network failure, answered with status 500
    | ConstraintError           // a unique index refused the write, so the request rejects

  /** The query-string parameters the handlers and pages exchange, by name. */
  datatype QueryKey = TitleKey | StatusKey | PageKey | PageSizeKey | SearchKey | StageKey

  /** The parameter name as it appears in the URL. */
  function KeyName(k: QueryKey): string {
    match k
    case TitleKey => "title"
    case StatusKey => "status"
    case PageKey => "page"
    case PageSizeKey => "pageSize"
    case SearchKey => "search"
    case StageKey => "stage"
  }

  /** A query string: the value sent under each parameter name. */
  type Params = map<QueryKey, string>

  /** `searchParams.get(key) || ''`: an absent parameter reads as the empty string. */
  function Param(q: Params, key: QueryKey): (v: string)
    ensures key !in q ==> v == ""
    ensures key in q ==> v == q[key]
  {
    if key in q then q[key] else ""
  }

  // ---------------------------------------------------------------------------
  // Query strings
  // ---------------------------------------------------------------------------

  /** `a + '&' + b`: two parts of a query string joined by the pair separator. */
  function Amp(a: string, b: string): string {
    a + "&" + b
  }

  /** `name + '=' + value`: one pair of a query string. */
  function Pair(name: string, value: string): string {
    name + "=" + value
  }

  /** The query string cut at every `&`, as `URLSearchParams` cuts it into pairs; there is always at least one piece. */
  function SplitPairs(s: string): (pieces: seq<string>)
    ensures |pieces| >= 1
  {
    if s == [] then [""]
    else
      var rest := SplitPairs(s[1..]);
      if s[0] == '&' then [""] + rest else [[s[0]] + rest[0]] + rest[1..]
  }

  /** The name of a pair: everything before its first `=`, or all of it when there is none. */
  function PairName(p: string): (name: string)
    ensures |name| <= |p| && name == p[..|name|]
  {
    if p == [] || p[0] == '=' then [] else [p[0]] + PairName(p[1..])
  }

  /** The value of a pair: everything after its first `=`, or nothing when there is none. */
  function PairValue(p: string): (value: string)
    ensures |value| <= |p|
  {
    if p == [] then [] else if p[0] == '=' then p[1..] else PairValue(p[1..])
  }

  /** `get(name)`: the value of the first pair with that name, if there is one. */
  function Lookup(pairs: seq<string>, name: string): (v: Option<string>)
    ensures v.None? <==> forall i :: 0 <= i < |pairs| ==> PairName(pairs[i]) != name
    ensures v.Some? ==> exists i :: 0 <= i < |pairs| && PairName(pairs[i]) == name && PairValue(pairs[i]) == v.value
  {
    if pairs == [] then None
    else if PairName(pairs[0]) == name then Some(PairValue(pairs[0]))
    else Lookup(pairs[1..], name)
  }

  /** Every parameter name the handlers read. */
  const AllKeys: set<QueryKey> := {TitleKey, StatusKey, PageKey, PageSizeKey, SearchKey, StageKey}

  lemma AllKeysComplete()
    ensures forall k: QueryKey :: k in AllKeys
  {
    forall k: QueryKey ensures k in AllKeys {
      match k
      case TitleKey =>
      case StatusKey =>
      case PageKey =>
      case PageSizeKey =>
      case SearchKey =>
      case StageKey =>
    }
  }

  /** `new URL(url).searchParams`, as far as the handlers read it: each parameter's first value. */
  function ParseQuery(s: string): (q: Params)
    ensures forall k :: k in q <==> Lookup(SplitPairs(s), KeyName(k)).Some?
    ensures forall k :: k in q ==> q[k] == Lookup(SplitPairs(s), KeyName(k)).value
  {
    AllKeysComplete();
    var pairs := SplitPairs(s);
    map k | k in AllKeys && Lookup(pairs, KeyName(k)).Some? :: Lookup(pairs, KeyName(k)).value
  }

  /** Joining two parts with `&` joins their pieces. */
  lemma {:induction false} SplitPairsAmp(x: string, y: string)
    ensures SplitPairs(Amp(x, y)) == SplitPairs(x) + SplitPairs(y)
  {
    if x == [] {
      assert Amp(x, y) == ['&'] + y;
      assert Amp(x, y)[1..] == y;
    } else {
      assert Amp(x, y)[0] == x[0];
      assert Amp(x, y)[1..] == Amp(x[1..], y);
      SplitPairsAmp(x[1..], y);
    }
  }

  /** Text without `&` in front of a part merges into the part's first piece. */
  lemma {:induction false} SplitPairsPrefix(x: string, y: string)
    requires '&' !in x
    ensures SplitPairs(x + y) == [x + SplitPairs(y)[0]] + SplitPairs(y)[1..]
  {
    if x != [] {
      assert (x + y)[0] == x[0];
      assert (x + y)[1..] == x[1..] + y;
      SplitPairsPrefix(x[1..], y);
      assert [x[0]] + (x[1..] + SplitPairs(y)[0]) == x + SplitPairs(y)[0];
    } else {
      var p := SplitPairs(y);
      assert x + y == y && x + p[0] == p[0];
      assert p == [p[0]] + p[1..];
    }
  }

  /** Text without `&` is a single piece. */
  lemma NoAmpOnePiece(s: string)
    requires '&' !in s
    ensures SplitPairs(s) == [s]
  {
    SplitPairsPrefix(s, "");
    assert s + "" == s;
  }

  /** A pair whose name has no `&` is cut where its value is. */
  lemma PairPieces(name: string, value: string)
    requires '&' !in name
    ensures SplitPairs(Pair(name, value)) == [Pair(name, SplitPairs(value)[0])] + SplitPairs(value)[1..]
  {
    assert '&' !in name + "=";
    SplitPairsPrefix(name + "=", value);
  }

  /** `get` stops at the first pair with the name. */
  lemma LookupFirst(p: string, rest: seq<string>, name: string)
    requires PairName(p) == name
    ensures Lookup([p] + rest, name) == Some(PairValue(p))
  {
    assert ([p] + rest)[0] == p;
  }

  /** `get` passes over a pair with another name. */
  lemma LookupSkip(p: string, rest: seq<string>, name: string)
    requires PairName(p) != name
    ensures Lookup([p] + rest, name) == Lookup(rest, name)
  {
    assert ([p] + rest)[0] == p && ([p] + rest)[1..] == rest;
  }

  /** A pair whose name has no `=` reads back as that name and that value. */
  lemma {:induction false} PairRoundTrip(name: string, value: string)
    requires '=' !in name
    ensures PairName(Pair(name, value)) == name && PairValue(Pair(name, value)) == value
  {
    if name != [] {
      assert Pair(name, value)[0] == name[0];
      assert Pair(name, value)[1..] == Pair(name[1..], value);
      PairRoundTrip(name[1..], value);
    } else {
      assert Pair(name, value) == ['='] + value;
    }
  }

  /** `get` on two lists of pairs one after the other: the first list wins. */
  lemma {:induction false} LookupAppend(a: seq<string>, b: seq<string>, name: string)
    ensures Lookup(a + b, name) == if Lookup(a, name).Some? then Lookup(a, name) else Lookup(b, name)
  {
    if a != [] {
      assert (a + b)[0] == a[0];
      assert (a + b)[1..] == a[1..] + b;
      LookupAppend(a[1..], b, name);
    } else {
      assert a + b == b;
    }
  }

  /** One page of a list and the size of the whole list (the `X-Total-Count` header). */
  datatype Page<T> = Page(total: int, items: seq<T>)

  /** `all.slice((page - 1) * pageSize, page * pageSize)` with the total count. */
  function Paginate<T>(all: seq<T>, page: int, pageSize: int): Page<T> {
    Page(|all|, JsString.Slice(all, (page - 1) * pageSize, page * pageSize))
  }

  /** Whatever the page parameters, a page is a contiguous window of the list. */
  lemma PaginateWindow<T>(all: seq<T>, page: int, pageSize: int) returns (lo: nat, hi: nat)
    ensures lo <= hi <= |all| && Paginate(all, page, pageSize) == Page(|all|, all[lo..hi])
  {
    lo, hi := JsString.SliceWindow(all, (page - 1) * pageSize, page * pageSize);
  }

  /** Page `p` of size `s` (both positive) holds entries `(p - 1) * s` up to `p * s`, cut short at the end. */
  lemma PaginatePositive<T>(all: seq<T>, p: int, s: int)
    requires p >= 1 && s >= 1
    ensures var first := (p - 1) * s;
      var r := Paginate(all, p, s);
      && r.total == |all| && first >= 0
      && (first + s <= |all| ==> r.items == all[first..first + s])
      && (first <= |all| < first + s ==> r.items == all[first..])
      && (|all| <= first ==> r.items == [])
  {
    JsString.SlicePage(all, p, s);
  }

  /** Any page of an empty list is empty and counts nothing. */
  lemma PaginateNothing<T>(page: int, pageSize: int)
    ensures Paginate<T>([], page, pageSize) == Page(0, [])
  {
    var lo, hi := PaginateWindow<T>([], page, pageSize);
  }

  /** A page with positive parameters holds at most `s` entries. */
  lemma PageAtMost<T>(all: seq<T>, p: int, s: int)
    requires p >= 1 && s >= 1
    ensures |Paginate(all, p, s).items| <= s
  {
    PaginatePositive(all, p, s);
  }

  datatype Reply<+T> = Success(status: int, value: T) | Failure(status: int, error: ApiError)

  /** The `error` text of the JSON body of an injected failure. */
  function InjectedMessage(op: Operation): string
  {
    match op
    case JobCreation => "Simulated network error during job creation."
    case JobUpdate => "Simulated network error during job update."
    case JobReorder => "Simulated reorder conflict error."
    case CandidateUpdate => "Simulated network error during candidate update."
  }
}

=== FILE: job_handlers.dfy ===
/**
 * The mock request handlers for jobs: the list query (order, filters, pagination) and the
 * create, patch and reorder writes, each of which first consults the injected failure
 * (a boolean input here) and returns before touching the table when it fires.
 */
module JobHandlers {
  import opened Wrappers
  import opened JsString
  import Tables
  import opened Jobs
  import opened Http

  /** How the `status` parameter selects: no filter, one status, or a value no job has. */
  datatype StatusFilter = AnyStatus | OnlyStatus(status: Status) | NoStatus

  /** Reads the `status` parameter; an empty value applies no filter. */
  function ReadStatusFilter(p: string): StatusFilter {
    if p == "" then AnyStatus
    else if p == StatusName(Active) then OnlyStatus(Active)
    else if p == StatusName(Archived) then OnlyStatus(Archived)
    else NoStatus
  }

  predicate StatusPasses(s: Status, f: StatusFilter) {
    match f
    case AnyStatus => true
    case OnlyStatus(t) => s == t
    case NoStatus => false
  }

  /** The filter read from `p` passes a status exactly when `p` is empty or `p` is that status's name. */
  lemma ReadStatusFilterExact(s: Status, p: string)
    ensures StatusPasses(s, ReadStatusFilter(p)) <==> (p == "" || StatusName(s) == p)
  {
    StatusNames(s, Active);
    StatusNames(s, Archived);
  }

  /** The list query as the handler reads it. */
  datatype JobQuery = JobQuery(title: string, status: StatusFilter, page: int, pageSize: int)

  /** Reads `title`, `status`, `page` (default 1) and `pageSize` (default 10). */
  function ReadJobQuery(q: Params): (r: JobQuery)
    ensures r.title == Param(q, TitleKey) && r.status == ReadStatusFilter(Param(q, StatusKey))
    ensures r.page != 0 && r.pageSize != 0
    ensures PageKey !in q ==> r.page == 1
    ensures PageSizeKey !in q ==> r.pageSize == 10
  {
    JobQuery(Param(q, TitleKey), ReadStatusFilter(Param(q, StatusKey)),
             IntOr(ParseInt(Param(q, PageKey)), 1), IntOr(ParseInt(Param(q, PageSizeKey)), 10))
  }

  predicate TitleMatches(j: Job, title: string) {
    Includes(Lower(j.title), Lower(title))
  }

  /** A job passes the filters: its title contains the search term ignoring case (an empty term passes all), and its status passes. */
  predicate JobSelected(j: Job, title: string, status: StatusFilter) {
    (title == "" || TitleMatches(j, title)) && StatusPasses(j.status, status)
  }

  /** The rank of the `order` index: order, then primary key. */
  function ByOrder(j: Job): (int, int) {
    (j.order, j.id)
  }

  /** `orderBy('order').toArray()`: every stored job, ascending by order, ties by primary key. */
  function OrderedJobs(jobs: map<int, Job>, nextId: int): (r: seq<Job>)
    ensures Tables.SortedBy(r, ByOrder)
    ensures multiset(r) == multiset(Tables.Rows(jobs, 1, nextId))
  {
    Tables.SortBy(Tables.Rows(jobs, 1, nextId), ByOrder)
  }

  /** The ordered list holds exactly the stored jobs. */
  lemma OrderedJobsComplete(jobs: map<int, Job>, nextId: int)
    requires forall k :: k in jobs ==> 1 <= k < nextId
    ensures forall k :: k in jobs ==> jobs[k] in OrderedJobs(jobs, nextId)
    ensures forall x :: x in OrderedJobs(jobs, nextId) ==> x in jobs.Values
  {
    Tables.RowsComplete(jobs, 1, nextId);
    Tables.SameMembers(OrderedJobs(jobs, nextId), Tables.Rows(jobs, 1, nextId));
  }

  /** The title filter, applied only when the term is non-empty. */
  function ByTitle(rows: seq<Job>, title: string): (r: seq<Job>)
    requires Tables.SortedBy(rows, ByOrder)
    ensures forall x :: multiset(r)[x] == if title == "" || TitleMatches(x, title) then multiset(rows)[x] else 0
    ensures Tables.SortedBy(r, ByOrder)
  {
    if title != "" then
      Tables.FilterSorted(rows, (j: Job) => TitleMatches(j, title), ByOrder);
      Tables.Filter(rows, (j: Job) => TitleMatches(j, title))
    else rows
  }

  /** The status filter, applied only when the parameter is non-empty. */
  function ByStatus(rows: seq<Job>, status: StatusFilter): (r: seq<Job>)
    requires Tables.SortedBy(rows, ByOrder)
    ensures forall x :: multiset(r)[x] == if StatusPasses(x.status, status) then multiset(rows)[x] else 0
    ensures Tables.SortedBy(r, ByOrder)
  {
    if status != AnyStatus then
      Tables.FilterSorted(rows, (j: Job) => StatusPasses(j.status, status), ByOrder);
      Tables.Filter(rows, (j: Job) => StatusPasses(j.status, status))
    else rows
  }

  /** The ordered list after the title filter and then the status filter. */
  function MatchingJobs(jobs: map<int, Job>, nextId: int, title: string, status: StatusFilter): (r: seq<Job>)
    ensures Tables.SortedBy(r, ByOrder)
  {
    ByStatus(ByTitle(OrderedJobs(jobs, nextId), title), status)
  }

  /** The filtered list holds exactly the stored jobs that pass both filters, each once per occurrence. */
  lemma MatchingJobsExact(jobs: map<int, Job>, nextId: int, title: string, status: StatusFilter)
    ensures var r := MatchingJobs(jobs, nextId, title, status);
      forall x :: multiset(r)[x] == if JobSelected(x, title, status) then multiset(OrderedJobs(jobs, nextId))[x] else 0
  {
  }

  /** A stored job is listed exactly when it passes both filters, and every listed job is a stored one. */
  lemma MatchingJobsMembers(jobs: map<int, Job>, nextId: int, title: string, status: StatusFilter)
    requires forall k :: k in jobs ==> 1 <= k < nextId
    ensures var r := MatchingJobs(jobs, nextId, title, status);
      forall k :: k in jobs ==> (jobs[k] in r <==> JobSelected(jobs[k], title, status))
    ensures var r := MatchingJobs(jobs, nextId, title, status);
      forall x :: x in r ==> JobSelected(x, title, status) && x in jobs.Values
  {
    OrderedJobsComplete(jobs, nextId);
    MatchingJobsExact(jobs, nextId, title, status);
    var r := MatchingJobs(jobs, nextId, title, status);
    var all := OrderedJobs(jobs, nextId);
    forall k | k in jobs ensures jobs[k] in r <==> JobSelected(jobs[k], title, status) {
      assert multiset(all)[jobs[k]] > 0;
    }
    forall x | x in r ensures JobSelected(x, title, status) && x in jobs.Values {
      assert multiset(r)[x] > 0;
      assert x in all;
    }
  }

  /** The answer to a parsed list query: the size of the filtered list and the requested page of it. */
  function JobsPage(jobs: map<int, Job>, nextId: int, query: JobQuery): (p: Page<Job>)
    ensures p.total == |MatchingJobs(jobs, nextId, query.title, query.status)|
    ensures query.page >= 1 && query.pageSize >= 1 ==> |p.items| <= query.pageSize
  {
    var all := MatchingJobs(jobs, nextId, query.title, query.status);
    if query.page >= 1 && query.pageSize >= 1 then
      PageAtMost(all, query.page, query.pageSize);
      Paginate(all, query.page, query.pageSize)
    else Paginate(all, query.page, query.pageSize)
  }

  /** GET /api/jobs. */
  function ListJobs(jobs: map<int, Job>, nextId: int, q: Params): Page<Job> {
    JobsPage(jobs, nextId, ReadJobQuery(q))
  }

  /** Every listed job passes the filters, and the page comes back in ascending order. */
  lemma JobsPageSelected(jobs: map<int, Job>, nextId: int, query: JobQuery)
    requires forall k :: k in jobs ==> 1 <= k < nextId
    ensures var r := JobsPage(jobs, nextId, query);
      && Tables.SortedBy(r.items, ByOrder)
      && (forall x :: x in r.items ==> JobSelected(x, query.title, query.status))
      && |r.items| <= r.total
  {
    var all := MatchingJobs(jobs, nextId, query.title, query.status);
    MatchingJobsMembers(jobs, nextId, query.title, query.status);
    var lo, hi := PaginateWindow(all, query.page, query.pageSize);
    Tables.SortedWindow(all, lo, hi, ByOrder);
    Tables.WindowMembers(all, lo, hi);
  }

  /** A status parameter of `all` is compared literally, and no job's status is `all`: the list comes back empty. */
  lemma StatusAllMatchesNothing(jobs: map<int, Job>, nextId: int, q: Params)
    requires Param(q, StatusKey) == "all"
    ensures ListJobs(jobs, nextId, q) == Page(0, [])
  {
    StatusNames(Active, Archived);
    var query := ReadJobQuery(q);
    assert query.status == NoStatus;
    NoStatusKeepsNothing(ByTitle(OrderedJobs(jobs, nextId), query.title));
    PaginateNothing<Job>(query.page, query.pageSize);
  }

  /** The filter that no status passes leaves nothing. */
  lemma NoStatusKeepsNothing(rows: seq<Job>)
    requires Tables.SortedBy(rows, ByOrder)
    ensures ByStatus(rows, NoStatus) == []
  {
    Tables.FilterNone(rows, (j: Job) => StatusPasses(j.status, NoStatus));
  }

  /**
   * The query string the jobs board builds by plain concatenation,
   * `page=<page>&pageSize=<pageSize>&status=<status>&search=<search>`, with neither text encoded.
   */
  function BoardQuery(page: nat, pageSize: nat, status: string, search: string): string {
    Amp(Amp(Amp(Pair("page", Decimal(page)), Pair("pageSize", Decimal(pageSize))), Pair("status", status)), Pair("search", search))
  }

  /** The pairs the status and search texts add to the query string: whatever follows a `&` in either. */
  function SmuggledPairs(status: string, search: string): seq<string> {
    SplitPairs(status)[1..] + SplitPairs(search)[1..]
  }

  /** The `title` such an added pair carries, or the empty string when none does. */
  function SmuggledTitle(status: string, search: string): string {
    Lookup(SmuggledPairs(status, search), "title").GetOr("")
  }

  /** The handler's view of the board's query string. */
  function BoardParams(page: nat, pageSize: nat, status: string, search: string): (q: Params)
    ensures Param(q, PageKey) == Decimal(page) && Param(q, PageSizeKey) == Decimal(pageSize)
    ensures Param(q, StatusKey) == SplitPairs(status)[0]
    ensures Param(q, TitleKey) == SmuggledTitle(status, search)
  {
    BoardLookups(page, pageSize, status, search);
    ParseQuery(BoardQuery(page, pageSize, status, search))
  }

  /** The board's query string cut into pairs: the page and page size, then the pieces of the status and search pairs. */
  lemma BoardPieces(page: nat, pageSize: nat, status: string, search: string)
    ensures SplitPairs(BoardQuery(page, pageSize, status, search))
         == [Pair("page", Decimal(page))] + ([Pair("pageSize", Decimal(pageSize))]
            + (SplitPairs(Pair("status", status)) + SplitPairs(Pair("search", search))))
  {
    NumberPair("page", page);
    NumberPair("pageSize", pageSize);
    FourPieces(Pair("page", Decimal(page)), Pair("pageSize", Decimal(pageSize)), Pair("status", status), Pair("search", search));
  }

  lemma FourPieces(p1: string, p2: string, p3: string, p4: string)
    requires SplitPairs(p1) == [p1] && SplitPairs(p2) == [p2]
    ensures SplitPairs(Amp(Amp(Amp(p1, p2), p3), p4)) == [p1] + ([p2] + (SplitPairs(p3) + SplitPairs(p4)))
  {
    var a, b := SplitPairs(p3), SplitPairs(p4);
    SplitPairsAmp(p1, p2);
    SplitPairsAmp(Amp(p1, p2), p3);
    SplitPairsAmp(Amp(Amp(p1, p2), p3), p4);
    Regroup([p1], [p2], a, b);
  }

  lemma Regroup(w: seq<string>, x: seq<string>, y: seq<string>, z: seq<string>)
    ensures w + x + y + z == w + (x + (y + z))
  {
  }

  /** A pair whose value is a number is one piece. */
  lemma NumberPair(name: string, n: nat)
    requires '&' !in name
    ensures SplitPairs(Pair(name, Decimal(n))) == [Pair(name, Decimal(n))]
  {
    var d := Decimal(n);
    assert forall i :: 0 <= i < |d| ==> IsDigit(d[i]);
    assert '&' !in d;
    NoAmpOnePiece(d);
    PairPieces(name, d);
  }

  /** The first `page`, `pageSize` and `status` pairs are the board's own; a `title` can only come from the two texts. */
  lemma BoardLookups(page: nat, pageSize: nat, status: string, search: string)
    ensures var pairs := SplitPairs(BoardQuery(page, pageSize, status, search));
      && Lookup(pairs, "page") == Some(Decimal(page))
      && Lookup(pairs, "pageSize") == Some(Decimal(pageSize))
      && Lookup(pairs, "status") == Some(SplitPairs(status)[0])
      && Lookup(pairs, "title") == Lookup(SmuggledPairs(status, search), "title")
  {
    var st, se := SplitPairs(status), SplitPairs(search);
    BoardPieces(page, pageSize, status, search);
    PairPieces("status", status);
    PairPieces("search", search);
    var d1, d2 := Decimal(page), Decimal(pageSize);
    FourLookups("page", d1, "pageSize", d2, "status", st[0], "search", se[0], st[1..], se[1..], "page");
    FourLookups("page", d1, "pageSize", d2, "status", st[0], "search", se[0], st[1..], se[1..], "pageSize");
    FourLookups("page", d1, "pageSize", d2, "status", st[0], "search", se[0], st[1..], se[1..], "status");
    FourLookups("page", d1, "pageSize", d2, "status", st[0], "search", se[0], st[1..], se[1..], "title");
  }

  /** `get` on four named pairs, each of the last two followed by more pairs. */
  lemma FourLookups(n1: string, v1: string, n2: string, v2: string, n3: string, v3: string, n4: string, v4: string,
                    x: seq<string>, y: seq<string>, name: string)
    requires '=' !in n1 && '=' !in n2 && '=' !in n3 && '=' !in n4
    ensures var pairs := [Pair(n1, v1)] + ([Pair(n2, v2)] + (([Pair(n3, v3)] + x) + ([Pair(n4, v4)] + y)));
      && (name == n1 ==> Lookup(pairs, name) == Some(v1))
      && (name != n1 && name == n2 ==> Lookup(pairs, name) == Some(v2))
      && (name != n1 && name != n2 && name == n3 ==> Lookup(pairs, name) == Some(v3))
      && (name != n1 && name != n2 && name != n3 && name != n4 ==> Lookup(pairs, name) == Lookup(x + y, name))
  {
    var p1, p2, p3, p4 := Pair(n1, v1), Pair(n2, v2), Pair(n3, v3), Pair(n4, v4);
    PairRoundTrip(n1, v1);
    PairRoundTrip(n2, v2);
    PairRoundTrip(n3, v3);
    PairRoundTrip(n4, v4);
    var rest := ([p3] + x) + ([p4] + y);
    assert rest == [p3] + (x + ([p4] + y));
    if name == n1 {
      LookupFirst(p1, [p2] + rest, name);
    } else {
      LookupSkip(p1, [p2] + rest, name);
      if name == n2 {
        LookupFirst(p2, rest, name);
      } else {
        LookupSkip(p2, rest, name);
        if name == n3 {
          LookupFirst(p3, x + ([p4] + y), name);
        } else if name != n4 {
          LookupSkip(p3, x + ([p4] + y), name);
          LookupAppend(x, [p4] + y, name);
          LookupSkip(p4, y, name);
          LookupAppend(x, y, name);
        }
      }
    }
  }

  /**
   * The handler reads back the page and page size the board sends, the status up to its first
   * `&`, and a title only when one of the texts carries a `title=` pair; texts without `&`
   * come back as sent, with no title.
   */
  lemma BoardQueryRoundTrip(page: nat, pageSize: nat, status: string, search: string)
    requires page >= 1 && pageSize >= 1
    ensures ReadJobQuery(BoardParams(page, pageSize, status, search))
         == JobQuery(SmuggledTitle(status, search), ReadStatusFilter(SplitPairs(status)[0]), page, pageSize)
    ensures '&' !in status && '&' !in search ==>
      ReadJobQuery(BoardParams(page, pageSize, status, search)) == JobQuery("", ReadStatusFilter(status), page, pageSize)
  {
    ParseIntDecimal(page);
    ParseIntDecimal(pageSize);
    var r := ReadJobQuery(BoardParams(page, pageSize, status, search));
    assert r.page == page;
    assert r.pageSize == pageSize;
    if '&' !in status && '&' !in search {
      NoAmpOnePiece(status);
      NoAmpOnePiece(search);
    }
  }

  /** A search text can carry a title: with `term&title=<title>` the list is filtered on that title. */
  lemma SearchSmugglesTitle(page: nat, pageSize: nat, status: string, term: string, title: string)
    requires '&' !in status && '&' !in term && '&' !in title
    ensures ReadJobQuery(BoardParams(page, pageSize, status, Amp(term, Pair("title", title)))).title == title
  {
    SplitPairsAmp(term, Pair("title", title));
    NoAmpOnePiece(status);
    NoAmpOnePiece(term);
    NoAmpOnePiece(title);
    PairPieces("title", title);
    PairRoundTrip("title", title);
    assert SmuggledPairs(status, Amp(term, Pair("title", title))) == [Pair("title", title)];
    LookupFirst(Pair("title", title), [], "title");
  }

  /**
   * The board sends its search term as `search`, but the handler filters on `title`: two terms
   * that carry the same `title` pair, or none, give the same list.
   */
  lemma BoardSearchIgnored(jobs: map<int, Job>, nextId: int, page: nat, pageSize: nat, status: string, s1: string, s2: string)
    requires SmuggledTitle(status, s1) == SmuggledTitle(status, s2)
    ensures ListJobs(jobs, nextId, BoardParams(page, pageSize, status, s1))
         == ListJobs(jobs, nextId, BoardParams(page, pageSize, status, s2))
  {
    var q1 := BoardParams(page, pageSize, status, s1);
    var q2 := BoardParams(page, pageSize, status, s2);
    assert ReadJobQuery(q1) == ReadJobQuery(q2);
  }

  /** In particular a term without `&` changes nothing: the list is the one an empty term gives. */
  lemma PlainSearchIgnored(jobs: map<int, Job>, nextId: int, page: nat, pageSize: nat, status: string, search: string)
    requires '&' !in search
    ensures ListJobs(jobs, nextId, BoardParams(page, pageSize, status, search))
         == ListJobs(jobs, nextId, BoardParams(page, pageSize, status, ""))
  {
    NoAmpOnePiece(search);
    NoAmpOnePiece("");
    assert SmuggledPairs(status, search) == SmuggledPairs(status, "");
    BoardSearchIgnored(jobs, nextId, page, pageSize, status, search, "");
  }

  // ---------------------------------------------------------------------------
  // Writes
  // ---------------------------------------------------------------------------

  /**
   * A POST /api/jobs body: the fields that reach the stored job, and the ones the handler
   * overrides (`id`, `status`, `order`, `createdAt`) but echoes back.
   */
  datatype JobDraft = JobDraft(
    id: Option<int>, title: string, slug: string, tags: seq<string>,
    status: Option<Status>, order: Option<int>, createdAt: Option<int>)

  /** `{ id, ...newJob }`: the key the table gave the job, unless the body names its own `id`, and the body as sent. */
  datatype JobCreated = JobCreated(id: int, body: JobDraft)

  /** `{ id: numId, ...updates }`: the key from the path and the body as sent. */
  datatype JobPatched = JobPatched(id: int, changes: JobChanges)

  /** The job POST /api/jobs stores: active, at the end of the order, stamped `now`. */
  function NewJob(id: int, body: JobDraft, rows: seq<Job>, now: int): (j: Job)
    ensures j.id == id && j.status == Active && j.createdAt == now
    ensures j.slug == body.slug && j.title == body.title && j.tags == body.tags
    ensures j.order == MaxOrder(rows) + 1
    ensures rows == [] ==> j.order == 1
    ensures forall i :: 0 <= i < |rows| ==> rows[i].order < j.order
  {
    Job(id, body.slug, body.title, Active, body.tags, MaxOrder(rows) + 1, now)
  }

  /** On a dense table, a created job takes order N + 1 and the table stays dense. */
  lemma NewJobKeepsDense(jobs: map<int, Job>, nextId: int, body: JobDraft, now: int)
    requires Dense(jobs) && forall k :: k in jobs ==> 1 <= k < nextId
    ensures var job := NewJob(nextId, body, Tables.Rows(jobs, 1, nextId), now);
      job.order == |jobs| + 1 && Dense(jobs[nextId := job])
  {
    MaxOrderOfDense(jobs, nextId);
    AppendPreservesDense(jobs, NewJob(nextId, body, Tables.Rows(jobs, 1, nextId), now));
  }

  /**
   * POST /api/jobs: stores the job under the next key and answers 201 with that key and the
   * body; an `id` in the body hides the key in the answer, but not in the table.
   */
  method PostJob(t: JobTable, fail: bool, body: JobDraft, now: int) returns (r: Reply<JobCreated>)
    requires t.Valid()
    modifies t
    ensures t.Valid()
    ensures fail ==> r == Failure(500, Injected(JobCreation))
    ensures r.Failure? ==> t.jobs == old(t.jobs) && t.nextId == old(t.nextId)
    ensures !fail ==> (r.Failure? <==> SlugTaken(old(t.jobs), body.slug, old(t.nextId)))
    ensures !fail && r.Failure? ==> r.error == ConstraintError
    ensures r.Success? ==> old(t.nextId) !in old(t.jobs) && t.nextId == old(t.nextId) + 1
    ensures r.Success? ==> r == Success(201, JobCreated(body.id.GetOr(old(t.nextId)), body))
    ensures r.Success? ==> t.jobs == old(t.jobs)[old(t.nextId) := NewJob(old(t.nextId), body, old(t.AllRows()), now)]
  {
    if fail {
      return Failure(500, Injected(JobCreation));
    }
    var rows := t.AllRows();
    var job := NewJob(t.nextId, body, rows, now);
    var added := t.Add(job.slug, job.title, job.status, job.tags, job.order, job.createdAt);
    if added.None? {
      return Failure(500, ConstraintError);
    }
    assert t.jobs == old(t.jobs)[added.value := job];
    r := Success(201, JobCreated(body.id.GetOr(added.value), body));
  }

  /** PATCH /api/jobs/:id: the changes are merged into the job (none when the key is absent); the reply echoes the key and the changes. */
  method PatchJob(t: JobTable, fail: bool, jobId: int, changes: JobChanges) returns (r: Reply<JobPatched>)
    requires t.Valid()
    modifies t
    ensures t.Valid() && t.nextId == old(t.nextId)
    ensures fail ==> r == Failure(500, Injected(JobUpdate))
    ensures r.Failure? ==> t.jobs == old(t.jobs)
    ensures !fail ==> (r.Failure? <==> jobId in old(t.jobs) && changes.slug.Some? && SlugTaken(old(t.jobs), changes.slug.value, jobId))
    ensures !fail && r.Failure? ==> r.error == ConstraintError
    ensures r.Success? ==> r == Success(200, JobPatched(jobId, changes))
    ensures r.Success? && jobId in old(t.jobs) ==> t.jobs == old(t.jobs)[jobId := ApplyChanges(old(t.jobs)[jobId], changes)]
    ensures r.Success? && jobId !in old(t.jobs) ==> t.jobs == old(t.jobs)
  {
    if fail {
      return Failure(500, Injected(JobUpdate));
    }
    var ok := t.Update(jobId, changes);
    if !ok {
      return Failure(500, ConstraintError);
    }
    r := Success(200, JobPatched(jobId, changes));
  }

  /**
   * PATCH /api/jobs/:id/reorder as the handler is written: the same transaction as the
   * client-side reorder, with `between` excluding its upper bound, so it shares that
   * reorder's defect (see `Jobs.AsWrittenMoveTwoToFive`).
   */
  method PatchReorderAsWritten(t: JobTable, fail: bool, jobId: int, fromOrder: int, toOrder: int) returns (r: Reply<()>)
    requires t.Valid()
    modifies t
    ensures t.Valid() && t.nextId == old(t.nextId)
    ensures fail ==> r == Failure(500, Injected(JobReorder)) && t.jobs == old(t.jobs)
    ensures !fail ==> r == Success(200, ()) && t.jobs == Reordered(old(t.jobs), jobId, fromOrder, toOrder, HalfOpen)
  {
    if fail {
      return Failure(500, Injected(JobReorder));
    }
    t.ReorderAsWritten(jobId, fromOrder, toOrder);
    r := Success(200, ());
  }

  /** PATCH /api/jobs/:id/reorder corrected: the same transaction with inclusive ranges, which keeps the orders dense. */
  method PatchReorder(t: JobTable, fail: bool, jobId: int, fromOrder: int, toOrder: int) returns (r: Reply<()>)
    requires t.Valid()
    modifies t
    ensures t.Valid() && t.nextId == old(t.nextId)
    ensures fail ==> r == Failure(500, Injected(JobReorder)) && t.jobs == old(t.jobs)
    ensures !fail ==> r == Success(200, ()) && t.jobs == Reordered(old(t.jobs), jobId, fromOrder, toOrder, Closed)
  {
    if fail {
      return Failure(500, Injected(JobReorder));
    }
    t.Reorder(jobId, fromOrder, toOrder);
    r := Success(200, ());
  }
}

=== FILE: jobs.dfy ===
/**
 * The job ordering store: the `jobs` table (primary key `id`, auto-incremented; unique
 * index `slug`; index `order`) and the writes the data layer performs on it — the
 * transactional reorder that moves one job and shifts a range of the others, and the
 * status overwrite.
 *
 * The reorder selects the range to shift with Dexie's `between(lo, hi)`, whose default
 * includes `lo` and excludes `hi`. `Bounds` makes that choice explicit: the code as
 * written uses `HalfOpen`, which leaves one job of the displaced range unshifted and two
 * jobs sharing an order (`AsWrittenBreaksDensity`); with `Closed` the reorder keeps the
 * orders a permutation of 1..N (`ReorderPreservesDense`). The table's `Reorder` uses the
 * closed range; `ReorderAsWritten` keeps the code's half-open one.
 */
module Jobs {
  import opened Wrappers
  import Tables

  datatype Status = Active | Archived

  /** The string a job's status is stored and compared as. */
  function StatusName(s: Status): string {
    match s
    case Active => "active"
    case Archived => "archived"
  }

  /** Distinct statuses are stored as distinct strings, and neither is the board's `all`. */
  lemma StatusNames(a: Status, b: Status)
    ensures StatusName(a) == StatusName(b) <==> a == b
    ensures StatusName(a) != "all" && StatusName(a) != ""
  {
  }

  /** A job record; `createdAt` is a timestamp in milliseconds. */
  datatype Job = Job(id: int, slug: string, title: string, status: Status, tags: seq<string>, order: int, createdAt: int)

  // ---------------------------------------------------------------------------
  // Dense ordering
  // ---------------------------------------------------------------------------

  /** The orders of the jobs are pairwise distinct and lie in 1..N. */
  ghost predicate Dense(jobs: map<int, Job>) {
    && (forall k :: k in jobs ==> 1 <= jobs[k].order <= |jobs|)
    && (forall k1, k2 :: k1 in jobs && k2 in jobs && k1 != k2 ==> jobs[k1].order != jobs[k2].order)
  }

  ghost function Orders(jobs: map<int, Job>): set<int> {
    set k | k in jobs :: jobs[k].order
  }

  /** The set {1, ..., n}. */
  function OneTo(n: int): (s: set<int>)
    ensures forall i :: i in s <==> 1 <= i <= n
    ensures n >= 0 ==> |s| == n
  {
    if n <= 0 then {} else OneTo(n - 1) + {n}
  }

  lemma {:induction false} ImageSize(jobs: map<int, Job>, ks: set<int>)
    requires ks <= jobs.Keys
    requires forall k1, k2 :: k1 in ks && k2 in ks && k1 != k2 ==> jobs[k1].order != jobs[k2].order
    ensures |set k | k in ks :: jobs[k].order| == |ks|
    decreases ks
  {
    if ks != {} {
      var k :| k in ks;
      ImageSize(jobs, ks - {k});
      var smaller := set j | j in ks - {k} :: jobs[j].order;
      assert (set j | j in ks :: jobs[j].order) == smaller + {jobs[k].order};
      assert jobs[k].order !in smaller;
    }
  }

  /** `Dense` is exactly the permutation property: the set of orders is {1, ..., N}. */
  lemma DenseOrders(jobs: map<int, Job>)
    requires Dense(jobs)
    ensures Orders(jobs) == OneTo(|jobs|)
  {
    var os := Orders(jobs);
    ImageSize(jobs, jobs.Keys);
    assert |os| == |jobs.Keys| == |jobs|;
    SubsetOfSameSize(os, OneTo(|jobs|));
  }

  lemma SubsetOfSameSize(a: set<int>, b: set<int>)
    requires a <= b && |a| == |b|
    ensures a == b
  {
    assert b == a + (b - a);
    assert |b - a| == 0;
  }

  /** In a dense table, every order of 1..N is held by some job. */
  lemma DenseHasOrder(jobs: map<int, Job>, o: int) returns (k: int)
    requires Dense(jobs)
    requires 1 <= o <= |jobs|
    ensures k in jobs && jobs[k].order == o
  {
    DenseOrders(jobs);
    assert o in OneTo(|jobs|);
    assert o in Orders(jobs);
    k :| k in jobs && jobs[k].order == o;
  }

  // ---------------------------------------------------------------------------
  // Reordering
  // ---------------------------------------------------------------------------

  /** Whether Dexie's `between(lo, hi)` range excludes (`HalfOpen`, the default) or includes its upper bound. */
  datatype Bounds = HalfOpen | Closed

  predicate Between(o: int, lo: int, hi: int, b: Bounds) {
    lo <= o && (o < hi || (b == Closed && o == hi))
  }

  /**
   * The order a job other than the moved one ends with: decremented when the move goes
   * down and it lies in `between(fromOrder + 1, toOrder)`, incremented when the move goes
   * up and it lies in `between(toOrder, fromOrder - 1)`, otherwise kept.
   */
  function Shifted(o: int, fromOrder: int, toOrder: int, b: Bounds): int {
    if fromOrder < toOrder && Between(o, fromOrder + 1, toOrder, b) then o - 1
    else if fromOrder > toOrder && Between(o, toOrder, fromOrder - 1, b) then o + 1
    else o
  }

  /** The table after the reorder transaction: the target's order set, then the range shifted. */
  function Reordered(jobs: map<int, Job>, jobId: int, fromOrder: int, toOrder: int, b: Bounds): (r: map<int, Job>)
    ensures r.Keys == jobs.Keys && |r| == |jobs|
    ensures forall k :: k in jobs ==> r[k] == jobs[k].(order := r[k].order)
    ensures jobId in jobs ==> r[jobId].order == toOrder
    ensures fromOrder == toOrder ==> forall k :: k in jobs && k != jobId ==> r[k] == jobs[k]
    ensures forall k :: k in jobs && k != jobId ==> r[k].order - jobs[k].order in {-1, 0, 1}
  {
    var r := map k | k in jobs ::
      if k == jobId then jobs[k].(order := toOrder)
      else jobs[k].(order := Shifted(jobs[k].order, fromOrder, toOrder, b));
    assert r.Keys == jobs.Keys;
    r
  }

  /** The entry `Reordered` gives one key. */
  lemma ReorderedAt(jobs: map<int, Job>, jobId: int, fromOrder: int, toOrder: int, b: Bounds, k: int)
    requires k in jobs
    ensures Reordered(jobs, jobId, fromOrder, toOrder, b)[k]
         == jobs[k].(order := if k == jobId then toOrder else Shifted(jobs[k].order, fromOrder, toOrder, b))
  {
  }

  /** A table that agrees with the reorder transaction key by key is `Reordered`. */
  lemma ReorderedIs(jobs: map<int, Job>, jobId: int, fromOrder: int, toOrder: int, b: Bounds, r: map<int, Job>)
    requires r.Keys == jobs.Keys
    requires forall k :: k in jobs && k == jobId ==> r[k] == jobs[k].(order := toOrder)
    requires forall k :: k in jobs && k != jobId ==> r[k] == jobs[k].(order := Shifted(jobs[k].order, fromOrder, toOrder, b))
    ensures r == Reordered(jobs, jobId, fromOrder, toOrder, b)
  {
    var e := Reordered(jobs, jobId, fromOrder, toOrder, b);
    assert forall k :: k in r ==> r[k] == e[k];
  }

  /** Moving down, the jobs of the selected range move up one place; all other jobs keep their order. */
  lemma ReorderDownShifts(jobs: map<int, Job>, jobId: int, fromOrder: int, toOrder: int, b: Bounds, k: int)
    requires fromOrder < toOrder
    requires k in jobs && k != jobId
    ensures Between(jobs[k].order, fromOrder + 1, toOrder, b) ==> Reordered(jobs, jobId, fromOrder, toOrder, b)[k].order == jobs[k].order - 1
    ensures !Between(jobs[k].order, fromOrder + 1, toOrder, b) ==> Reordered(jobs, jobId, fromOrder, toOrder, b)[k] == jobs[k]
  {
  }

  /** Moving up, the jobs of the selected range move down one place; all other jobs keep their order. */
  lemma ReorderUpShifts(jobs: map<int, Job>, jobId: int, fromOrder: int, toOrder: int, b: Bounds, k: int)
    requires fromOrder > toOrder
    requires k in jobs && k != jobId
    ensures Between(jobs[k].order, toOrder, fromOrder - 1, b) ==> Reordered(jobs, jobId, fromOrder, toOrder, b)[k].order == jobs[k].order + 1
    ensures !Between(jobs[k].order, toOrder, fromOrder - 1, b) ==> Reordered(jobs, jobId, fromOrder, toOrder, b)[k] == jobs[k]
  {
  }

  /** With the closed range, a job that is not moved ends at `Shifted(o)`; the moved job ends at `to`; all in 1..N and distinct. */
  lemma ShiftedInRange(n: int, o: int, fromOrder: int, toOrder: int)
    requires 1 <= o <= n && 1 <= fromOrder <= n && 1 <= toOrder <= n && o != fromOrder
    ensures 1 <= Shifted(o, fromOrder, toOrder, Closed) <= n
    ensures Shifted(o, fromOrder, toOrder, Closed) != toOrder
  {
  }

  /** Shifting for a move and then for the reverse move gives back any order other than the moved one's. */
  lemma ShiftedRoundTrip(o: int, fromOrder: int, toOrder: int)
    requires o != fromOrder
    ensures Shifted(Shifted(o, fromOrder, toOrder, Closed), toOrder, fromOrder, Closed) == o
  {
  }

  lemma ShiftedInjective(o1: int, o2: int, fromOrder: int, toOrder: int)
    requires o1 != o2 && o1 != fromOrder && o2 != fromOrder
    ensures Shifted(o1, fromOrder, toOrder, Closed) != Shifted(o2, fromOrder, toOrder, Closed)
  {
  }

  /**
   * The reorder with an inclusive upper bound keeps the orders a permutation of 1..N,
   * when `fromOrder` is the moved job's current order and `toOrder` lies in 1..N.
   */
  lemma ReorderPreservesDense(jobs: map<int, Job>, jobId: int, fromOrder: int, toOrder: int)
    requires Dense(jobs)
    requires jobId in jobs && jobs[jobId].order == fromOrder
    requires 1 <= toOrder <= |jobs|
    ensures Dense(Reordered(jobs, jobId, fromOrder, toOrder, Closed))
  {
    var r := Reordered(jobs, jobId, fromOrder, toOrder, Closed);
    var n := |jobs|;
    forall k | k in r ensures 1 <= r[k].order <= n {
      if k != jobId {
        ShiftedInRange(n, jobs[k].order, fromOrder, toOrder);
      }
    }
    forall k1, k2 | k1 in r && k2 in r && k1 != k2 ensures r[k1].order != r[k2].order {
      if k1 == jobId {
        ShiftedInRange(n, jobs[k2].order, fromOrder, toOrder);
      } else if k2 == jobId {
        ShiftedInRange(n, jobs[k1].order, fromOrder, toOrder);
      } else {
        ShiftedInjective(jobs[k1].order, jobs[k2].order, fromOrder, toOrder);
      }
    }
  }

  /** Moving a job back where it came from restores every job's order. */
  lemma ReorderRoundTrip(jobs: map<int, Job>, jobId: int, fromOrder: int, toOrder: int)
    requires jobId in jobs && jobs[jobId].order == fromOrder
    requires forall k :: k in jobs && k != jobId ==> jobs[k].order != fromOrder
    ensures Reordered(Reordered(jobs, jobId, fromOrder, toOrder, Closed), jobId, toOrder, fromOrder, Closed) == jobs
  {
    var once := Reordered(jobs, jobId, fromOrder, toOrder, Closed);
    var twice := Reordered(once, jobId, toOrder, fromOrder, Closed);
    forall k | k in jobs ensures twice[k] == jobs[k] {
      ReorderedAt(jobs, jobId, fromOrder, toOrder, Closed, k);
      ReorderedAt(once, jobId, toOrder, fromOrder, Closed, k);
      if k != jobId {
        ShiftedRoundTrip(jobs[k].order, fromOrder, toOrder);
      }
    }
    assert twice.Keys == jobs.Keys;
  }

  /**
   * As written (half-open range), any real move over a dense table leaves two jobs
   * sharing an order: moving down, the job at `toOrder` is not shifted; moving up, the
   * job at `fromOrder - 1` is not shifted.
   */
  lemma AsWrittenBreaksDensity(jobs: map<int, Job>, jobId: int, fromOrder: int, toOrder: int)
    requires Dense(jobs)
    requires jobId in jobs && jobs[jobId].order == fromOrder
    requires 1 <= toOrder <= |jobs| && fromOrder != toOrder
    ensures !Dense(Reordered(jobs, jobId, fromOrder, toOrder, HalfOpen))
  {
    var r := Reordered(jobs, jobId, fromOrder, toOrder, HalfOpen);
    ReorderedAt(jobs, jobId, fromOrder, toOrder, HalfOpen, jobId);
    if fromOrder < toOrder || fromOrder - 1 == toOrder {
      var k := DenseHasOrder(jobs, toOrder);
      assert k != jobId;
      ReorderedAt(jobs, jobId, fromOrder, toOrder, HalfOpen, k);
      assert r[k].order == r[jobId].order;
    } else {
      var k1 := DenseHasOrder(jobs, fromOrder - 1);
      var k2 := DenseHasOrder(jobs, fromOrder - 2);
      assert k1 != k2 && k1 != jobId && k2 != jobId;
      ReorderedAt(jobs, jobId, fromOrder, toOrder, HalfOpen, k1);
      ReorderedAt(jobs, jobId, fromOrder, toOrder, HalfOpen, k2);
      assert r[k1].order == r[k2].order;
    }
  }

  function SampleJob(i: int): Job {
    Job(i, "job", "Job", Active, [], i, 0)
  }

  /** Five jobs with ids 1..5 at orders 1..5. */
  function FiveJobs(): (jobs: map<int, Job>)
    ensures jobs.Keys == {1, 2, 3, 4, 5}
  {
    map[1 := SampleJob(1), 2 := SampleJob(2), 3 := SampleJob(3), 4 := SampleJob(4), 5 := SampleJob(5)]
  }

  lemma FiveJobsDense()
    ensures Dense(FiveJobs()) && |FiveJobs()| == 5
  {
    var jobs := FiveJobs();
    assert |jobs| == |jobs.Keys| == 5;
    assert forall k :: k in jobs ==> jobs[k].order == k;
  }

  /** The concrete duplicate: moving the job at order 2 to order 5 leaves it and job 5 both at order 5. */
  lemma AsWrittenMoveTwoToFive()
    ensures var r := Reordered(FiveJobs(), 2, 2, 5, HalfOpen);
      r[2].order == 5 && r[5].order == 5 && r[3].order == 2 && r[4].order == 3 && r[1].order == 1
  {
  }

  /** The same move with the inclusive range: orders 1, 5, 2, 3, 4 for jobs 1..5. */
  lemma CorrectedMoveTwoToFive()
    ensures var r := Reordered(FiveJobs(), 2, 2, 5, Closed);
      r[2].order == 5 && r[5].order == 4 && r[3].order == 2 && r[4].order == 3 && r[1].order == 1
  {
  }

  // ---------------------------------------------------------------------------
  // Field updates
  // ---------------------------------------------------------------------------

  /** `update(id, { status })`: the status of the job with that id, if there is one, is overwritten. */
  function WithStatus(jobs: map<int, Job>, jobId: int, s: Status): (r: map<int, Job>)
    ensures r.Keys == jobs.Keys
    ensures jobId in jobs ==> r[jobId] == jobs[jobId].(status := s)
    ensures forall k :: k in jobs && k != jobId ==> r[k] == jobs[k]
  {
    if jobId in jobs then jobs[jobId := jobs[jobId].(status := s)] else jobs
  }

  /** Changing a status never disturbs the ordering. */
  lemma WithStatusPreservesDense(jobs: map<int, Job>, jobId: int, s: Status)
    requires Dense(jobs)
    ensures Dense(WithStatus(jobs, jobId, s))
  {
    var r := WithStatus(jobs, jobId, s);
    assert |r| == |r.Keys| == |jobs.Keys| == |jobs|;
  }

  /** The body of a PATCH: the fields present overwrite the job's; the others are kept. */
  datatype JobChanges = JobChanges(
    title: Option<string>, slug: Option<string>, status: Option<Status>,
    tags: Option<seq<string>>, order: Option<int>, createdAt: Option<int>)

  /** The body with no fields. */
  const NoChanges := JobChanges(None, None, None, None, None, None)

  /** `{ ...job, ...changes }`: each field the body names is overwritten, every other field and the primary key are kept. */
  function ApplyChanges(j: Job, c: JobChanges): (r: Job)
    ensures r.id == j.id
    ensures (c.title.Some? ==> r.title == c.title.value) && (c.title.None? ==> r.title == j.title)
    ensures (c.slug.Some? ==> r.slug == c.slug.value) && (c.slug.None? ==> r.slug == j.slug)
    ensures (c.status.Some? ==> r.status == c.status.value) && (c.status.None? ==> r.status == j.status)
    ensures (c.tags.Some? ==> r.tags == c.tags.value) && (c.tags.None? ==> r.tags == j.tags)
    ensures (c.order.Some? ==> r.order == c.order.value) && (c.order.None? ==> r.order == j.order)
    ensures (c.createdAt.Some? ==> r.createdAt == c.createdAt.value) && (c.createdAt.None? ==> r.createdAt == j.createdAt)
    ensures c == NoChanges ==> r == j
  {
    j.(title := c.title.GetOr(j.title), slug := c.slug.GetOr(j.slug),
       status := c.status.GetOr(j.status), tags := c.tags.GetOr(j.tags),
       order := c.order.GetOr(j.order), createdAt := c.createdAt.GetOr(j.createdAt))
  }

  /** Merging the same body twice is merging it once. */
  lemma ApplyChangesIdempotent(j: Job, c: JobChanges)
    ensures ApplyChanges(ApplyChanges(j, c), c) == ApplyChanges(j, c)
  {
  }

  /** A patch that does not touch `order` keeps the ordering dense. */
  lemma ChangesPreserveDense(jobs: map<int, Job>, jobId: int, c: JobChanges)
    requires Dense(jobs) && c.order.None?
    ensures jobId in jobs ==> Dense(jobs[jobId := ApplyChanges(jobs[jobId], c)])
  {
    if jobId in jobs {
      var r := jobs[jobId := ApplyChanges(jobs[jobId], c)];
      assert r.Keys == jobs.Keys;
      assert |r| == |r.Keys| == |jobs.Keys| == |jobs|;
    }
  }

  // ---------------------------------------------------------------------------
  // Creation
  // ---------------------------------------------------------------------------

  /** `Math.max(...orders)`, or 0 for an empty list. */
  function MaxOrder(rows: seq<Job>): (m: int)
    ensures forall i :: 0 <= i < |rows| ==> rows[i].order <= m
    ensures rows != [] ==> exists i :: 0 <= i < |rows| && rows[i].order == m
    ensures rows == [] ==> m == 0
  {
    if rows == [] then 0
    else if |rows| == 1 then rows[0].order
    else
      var m := MaxOrder(rows[1..]);
      assert forall i :: 1 <= i < |rows| ==> rows[i] == rows[1..][i - 1];
      if rows[0].order >= m then rows[0].order
      else
        var i :| 0 <= i < |rows[1..]| && rows[1..][i].order == m;
        assert rows[i + 1].order == m;
        m
  }

  /** Over a dense table listed in full, the maximum order is the number of jobs. */
  lemma MaxOrderOfDense(jobs: map<int, Job>, hi: int)
    requires Dense(jobs)
    requires forall k :: k in jobs ==> 1 <= k < hi
    ensures MaxOrder(Tables.Rows(jobs, 1, hi)) == |jobs|
  {
    var rows := Tables.Rows(jobs, 1, hi);
    var ks := Tables.KeysInRange(jobs, 1, hi);
    var m := MaxOrder(rows);
    if jobs != map[] {
      var kmax := DenseHasOrder(jobs, |jobs|);
      var i :| 0 <= i < |ks| && ks[i] == kmax;
      assert rows[i] == jobs[kmax];
      assert m >= |jobs|;
      var j :| 0 <= j < |rows| && rows[j].order == m;
      assert rows[j] == jobs[ks[j]];
      assert m <= |jobs|;
    }
  }

  /** Appending a job at order N + 1 keeps the ordering dense. */
  lemma AppendPreservesDense(jobs: map<int, Job>, job: Job)
    requires Dense(jobs)
    requires job.id !in jobs && job.order == |jobs| + 1
    ensures Dense(jobs[job.id := job])
  {
    var r := jobs[job.id := job];
    assert r.Keys == jobs.Keys + {job.id};
    assert |r| == |r.Keys| == |jobs.Keys| + 1;
  }

  // ---------------------------------------------------------------------------
  // The table
  // ---------------------------------------------------------------------------

  predicate SlugsUnique(jobs: map<int, Job>) {
    forall k1, k2 :: k1 in jobs && k2 in jobs && k1 != k2 ==> jobs[k1].slug != jobs[k2].slug
  }

  /** Whether some job other than `except` already holds `slug` (the unique `&slug` index). */
  predicate SlugTaken(jobs: map<int, Job>, slug: string, except: int) {
    exists k :: k in jobs && k != except && jobs[k].slug == slug
  }

  /** The `jobs` table: its rows by primary key and the auto-increment counter. */
  class JobTable {
    var jobs: map<int, Job>
    var nextId: int

    ghost predicate Valid()
      reads this
    {
      && nextId >= 1
      && (forall k :: k in jobs ==> 1 <= k < nextId && jobs[k].id == k)
      && SlugsUnique(jobs)
    }

    constructor ()
      ensures Valid() && jobs == map[] && nextId == 1
    {
      jobs := map[];
      nextId := 1;
    }

    /** `toArray()`: every job, in primary-key order. */
    function AllRows(): (rows: seq<Job>)
      reads this
      requires Valid()
      ensures rows == Tables.Rows(jobs, 1, nextId)
      ensures forall k :: k in jobs ==> jobs[k] in rows
    {
      Tables.RowsComplete(jobs, 1, nextId);
      Tables.Rows(jobs, 1, nextId)
    }

    /**
     * `modify` over `where('order').between(...).and(job => job.id !== jobId)`: the rows
     * are visited one at a time, and every job other than `jobId` whose order lies in the
     * range is shifted. The visiting order does not affect the outcome.
     */
    method ShiftRange(jobId: int, fromOrder: int, toOrder: int, b: Bounds)
      requires Valid()
      modifies this
      ensures Valid() && nextId == old(nextId)
      ensures jobs.Keys == old(jobs).Keys
      ensures jobId in jobs ==> jobs[jobId] == old(jobs)[jobId]
      ensures forall k :: k in jobs && k != jobId ==>
        jobs[k] == old(jobs)[k].(order := Shifted(old(jobs)[k].order, fromOrder, toOrder, b))
    {
      var key := 1;
      while key < nextId
        invariant 1 <= key <= nextId && nextId == old(nextId)
        invariant jobs.Keys == old(jobs).Keys
        invariant forall k :: k in jobs ==> jobs[k] == old(jobs)[k].(order :=
          if key <= k || k == jobId then old(jobs)[k].order
          else Shifted(old(jobs)[k].order, fromOrder, toOrder, b))
      {
        ShiftOne(key, jobId, fromOrder, toOrder, b);
        key := key + 1;
      }
    }

    /** The `modify` callback on one visited row: shifts it when it is not `jobId` and its order lies in the range. */
    method ShiftOne(key: int, jobId: int, fromOrder: int, toOrder: int, b: Bounds)
      requires Valid()
      modifies this
      ensures Valid() && nextId == old(nextId)
      ensures jobs.Keys == old(jobs).Keys
      ensures forall k :: k in jobs && k != key ==> jobs[k] == old(jobs)[k]
      ensures key in jobs ==> jobs[key] == old(jobs)[key].(order :=
        if key == jobId then old(jobs)[key].order else Shifted(old(jobs)[key].order, fromOrder, toOrder, b))
    {
      if key in jobs && key != jobId {
        var o := jobs[key].order;
        if fromOrder < toOrder && Between(o, fromOrder + 1, toOrder, b) {
          jobs := jobs[key := jobs[key].(order := o - 1)];
        } else if fromOrder > toOrder && Between(o, toOrder, fromOrder - 1, b) {
          jobs := jobs[key := jobs[key].(order := o + 1)];
        }
      }
    }

    /** `update(jobId, { order })`: sets one job's order, when the key exists. */
    method SetOrder(jobId: int, order: int)
      requires Valid()
      modifies this
      ensures Valid() && nextId == old(nextId) && jobs.Keys == old(jobs).Keys
      ensures forall k :: k in jobs ==> jobs[k] == if k == jobId then old(jobs)[k].(order := order) else old(jobs)[k]
    {
      if jobId in jobs {
        jobs := jobs[jobId := jobs[jobId].(order := order)];
      }
    }

    /** The reorder transaction: the target's order is set, then the displaced range is shifted. */
    method RunReorder(jobId: int, fromOrder: int, toOrder: int, b: Bounds)
      requires Valid()
      modifies this
      ensures Valid() && nextId == old(nextId)
      ensures jobs == Reordered(old(jobs), jobId, fromOrder, toOrder, b)
    {
      ghost var before := jobs;
      SetOrder(jobId, toOrder);
      ShiftRange(jobId, fromOrder, toOrder, b);
      ReorderedIs(before, jobId, fromOrder, toOrder, b, jobs);
    }

    /** The reorder with the displaced range closed at its upper bound. */
    method Reorder(jobId: int, fromOrder: int, toOrder: int)
      requires Valid()
      modifies this
      ensures Valid() && nextId == old(nextId)
      ensures jobs == Reordered(old(jobs), jobId, fromOrder, toOrder, Closed)
    {
      RunReorder(jobId, fromOrder, toOrder, Closed);
    }

    /** The reorder as the code writes it: Dexie's default half-open range. */
    method ReorderAsWritten(jobId: int, fromOrder: int, toOrder: int)
      requires Valid()
      modifies this
      ensures Valid() && nextId == old(nextId)
      ensures jobs == Reordered(old(jobs), jobId, fromOrder, toOrder, HalfOpen)
    {
      RunReorder(jobId, fromOrder, toOrder, HalfOpen);
    }

    /** Overwrites one job's status; a missing id leaves the table as it is. */
    method UpdateStatus(jobId: int, newStatus: Status)
      requires Valid()
      modifies this
      ensures Valid() && nextId == old(nextId)
      ensures jobs == WithStatus(old(jobs), jobId, newStatus)
    {
      if jobId in jobs {
        jobs := jobs[jobId := jobs[jobId].(status := newStatus)];
      }
    }

    /**
     * `update(id, changes)`: merges the changes into the job with that id (no effect when
     * there is none); fails, changing nothing, when the new slug is held by another job.
     */
    method Update(jobId: int, c: JobChanges) returns (ok: bool)
      requires Valid()
      modifies this
      ensures Valid() && nextId == old(nextId)
      ensures ok <==> !(jobId in old(jobs) && c.slug.Some? && SlugTaken(old(jobs), c.slug.value, jobId))
      ensures ok && jobId in old(jobs) ==> jobs == old(jobs)[jobId := ApplyChanges(old(jobs)[jobId], c)]
      ensures !ok || jobId !in old(jobs) ==> jobs == old(jobs)
    {
      if jobId !in jobs {
        return true;
      }
      if c.slug.Some? && SlugTaken(jobs, c.slug.value, jobId) {
        return false;
      }
      jobs := jobs[jobId := ApplyChanges(jobs[jobId], c)];
      ok := true;
    }

    /**
     * `clear()` followed by `bulkPut(rows)` with explicit keys below `bound`: the table
     * holds exactly `rows`, and the key generator, which `clear()` does not reset, moves
     * past the largest key written.
     */
    method Replace(rows: map<int, Job>, bound: int)
      requires Valid()
      requires forall k :: k in rows ==> 1 <= k < bound && rows[k].id == k
      requires SlugsUnique(rows)
      modifies this
      ensures Valid() && jobs == rows
      ensures nextId == if old(nextId) >= bound then old(nextId) else bound
    {
      jobs := rows;
      if nextId < bound {
        nextId := bound;
      }
    }

    /** `add(job)` with an auto-incremented key; fails, changing nothing, on a duplicate slug. */
    method Add(slug: string, title: string, status: Status, tags: seq<string>, order: int, createdAt: int)
      returns (r: Option<int>)
      requires Valid()
      modifies this
      ensures Valid()
      ensures r.None? <==> SlugTaken(old(jobs), slug, old(nextId))
      ensures r.None? ==> jobs == old(jobs) && nextId == old(nextId)
      ensures r.Some? ==> r.value == old(nextId) && r.value !in old(jobs) && nextId == old(nextId) + 1
      ensures r.Some? ==> jobs == old(jobs)[r.value := Job(r.value, slug, title, status, tags, order, createdAt)]
    {
      if SlugTaken(jobs, slug, nextId) {
        return None;
      }
      var id := nextId;
      jobs := jobs[id := Job(id, slug, title, status, tags, order, createdAt)];
      nextId := nextId + 1;
      r := Some(id);
    }
  }
}

=== FILE: jobs_board.dfy ===
/**
 * The jobs board's client-side state: the visible jobs, the in-flight flag and the last
 * error. A drag moves one row and renumbers the list before the server answers; a failed
 * request restores the snapshot taken before the change.
 */
module JobsBoard {
  import opened Wrappers
  import opened Jobs
  import opened Http

  // ---------------------------------------------------------------------------
  // Moving one row
  // ---------------------------------------------------------------------------

  /** `splice(i, 1)`: the sequence without its element at `i`. */
  function RemoveAt<T>(s: seq<T>, i: nat): (r: seq<T>)
    requires i < |s|
    ensures |r| == |s| - 1
    ensures forall k :: 0 <= k < |r| ==> r[k] == if k < i then s[k] else s[k + 1]
  {
    s[..i] + s[i + 1..]
  }

  /** `splice(i, 0, x)`: `x` placed at `i`, the elements from `i` on moved one place right. */
  function InsertAt<T>(s: seq<T>, i: nat, x: T): (r: seq<T>)
    requires i <= |s|
    ensures |r| == |s| + 1 && r[i] == x
    ensures forall k :: 0 <= k < |r| && k != i ==> r[k] == if k < i then s[k] else s[k - 1]
  {
    s[..i] + [x] + s[i..]
  }

  /** Removing what was just inserted gives back the original sequence. */
  lemma RemoveInsert<T>(s: seq<T>, i: nat, x: T)
    requires i <= |s|
    ensures RemoveAt(InsertAt(s, i, x), i) == s
  {
    var r := RemoveAt(InsertAt(s, i, x), i);
    assert forall k :: 0 <= k < |s| ==> r[k] == s[k];
  }

  /** Where the element that ends at position `i` came from, when one element moves from `from` to `to`. */
  function Origin(from: nat, to: nat, i: nat): nat {
    if i == to then from
    else if from < to && from <= i < to then i + 1
    else if to < from && to < i <= from then i - 1
    else i
  }

  /** The dragged row taken out at `from` and put back at `to`; the other rows keep their relative order. */
  function MoveItem<T>(s: seq<T>, from: nat, to: nat): (r: seq<T>)
    requires from < |s| && to < |s|
    ensures |r| == |s| && r[to] == s[from]
    ensures RemoveAt(r, to) == RemoveAt(s, from)
  {
    RemoveInsert(RemoveAt(s, from), to, s[from]);
    InsertAt(RemoveAt(s, from), to, s[from])
  }

  /** Each position of the moved list holds the element from its origin. */
  lemma MoveItemAt<T>(s: seq<T>, from: nat, to: nat, i: nat)
    requires from < |s| && to < |s| && i < |s|
    ensures Origin(from, to, i) < |s| && MoveItem(s, from, to)[i] == s[Origin(from, to, i)]
  {
    var rest := RemoveAt(s, from);
    assert MoveItem(s, from, to) == InsertAt(rest, to, s[from]);
    if i != to {
      var k := if i < to then i else i - 1;
      assert MoveItem(s, from, to)[i] == rest[k];
    }
  }

  lemma RemoveAtMultiset<T>(s: seq<T>, i: nat)
    requires i < |s|
    ensures multiset(RemoveAt(s, i)) + multiset{s[i]} == multiset(s)
  {
    assert s == s[..i] + [s[i]] + s[i + 1..];
  }

  lemma InsertAtMultiset<T>(s: seq<T>, i: nat, x: T)
    requires i <= |s|
    ensures multiset(InsertAt(s, i, x)) == multiset(s) + multiset{x}
  {
    assert s == s[..i] + s[i..];
  }

  /** A move only rearranges: the moved list holds the same elements, as often as before. */
  lemma MoveItemPermutes<T>(s: seq<T>, from: nat, to: nat)
    requires from < |s| && to < |s|
    ensures multiset(MoveItem(s, from, to)) == multiset(s)
  {
    RemoveAtMultiset(s, from);
    InsertAtMultiset(RemoveAt(s, from), to, s[from]);
  }

  /** The elements in `[from, to)` move one place left; the rest stay. */
  method SlideLeft(a: array<Job>, from: nat, to: nat)
    requires from <= to < a.Length
    modifies a
    ensures forall k :: 0 <= k < a.Length ==> a[k] == if from <= k < to then old(a[k + 1]) else old(a[k])
  {
    var i := from;
    while i < to
      invariant from <= i <= to
      invariant forall k :: 0 <= k < a.Length ==> a[k] == if from <= k < i then old(a[k + 1]) else old(a[k])
    {
      a[i] := a[i + 1];
      i := i + 1;
    }
  }

  /** The elements in `(to, from]` move one place right; the rest stay. */
  method SlideRight(a: array<Job>, from: nat, to: nat)
    requires to <= from < a.Length
    modifies a
    ensures forall k :: 0 <= k < a.Length ==> a[k] == if to < k <= from then old(a[k - 1]) else old(a[k])
  {
    var i := from;
    while i > to
      invariant to <= i <= from
      invariant forall k :: 0 <= k < a.Length ==> a[k] == if i < k <= from then old(a[k - 1]) else old(a[k])
    {
      a[i] := a[i - 1];
      i := i - 1;
    }
  }

  /**
   * The in-place splice on the board's copy of the list: the elements between the two
   * positions slide one place towards `from`, and the dragged one lands at `to`.
   */
  method MoveInPlace(a: array<Job>, from: nat, to: nat)
    requires from < a.Length && to < a.Length
    modifies a
    ensures a[..] == MoveItem(old(a[..]), from, to)
  {
    var x := a[from];
    if from < to {
      SlideLeft(a, from, to);
    } else {
      SlideRight(a, from, to);
    }
    a[to] := x;
    forall k | 0 <= k < a.Length ensures a[k] == MoveItem(old(a[..]), from, to)[k] {
      MoveItemAt(old(a[..]), from, to, k);
    }
  }

  /** `Array.from(jobs)` followed by the two splices. */
  method SpliceCopy(s: seq<Job>, from: nat, to: nat) returns (r: seq<Job>)
    requires from < |s| && to < |s|
    ensures r == MoveItem(s, from, to)
  {
    var copy := new Job[|s|](i requires 0 <= i < |s| => s[i]);
    assert copy[..] == s;
    MoveInPlace(copy, from, to);
    r := copy[..];
  }

  /** Every row gets `order = index + 1`; nothing else about it changes. */
  function Renumber(s: seq<Job>): (r: seq<Job>)
    ensures |r| == |s|
    ensures forall i :: 0 <= i < |r| ==> r[i].order == i + 1 && r[i] == s[i].(order := r[i].order)
  {
    seq(|s|, i requires 0 <= i < |s| => s[i].(order := i + 1))
  }

  /** After renumbering, the visible orders are exactly 1..n. */
  lemma RenumberOrders(s: seq<Job>)
    ensures (set i | 0 <= i < |s| :: Renumber(s)[i].order) == OneTo(|s|)
  {
    var r := Renumber(s);
    var os := set i | 0 <= i < |s| :: r[i].order;
    forall o | o in OneTo(|s|) ensures o in os {
      assert r[o - 1].order == o;
    }
  }

  /** `jobs.find(j => j.id === id)`. */
  function FindJob(view: seq<Job>, id: int): (r: Option<Job>)
    ensures r.Some? ==> r.value in view && r.value.id == id
    ensures r.None? ==> forall i :: 0 <= i < |view| ==> view[i].id != id
  {
    if view == [] then None
    else if view[0].id == id then Some(view[0])
    else FindJob(view[1..], id)
  }

  /** Ids are pairwise distinct along the list. */
  predicate DistinctIds(view: seq<Job>) {
    forall i, j :: 0 <= i < j < |view| ==> view[i].id != view[j].id
  }

  /** With distinct ids, the job found for the id at some position is the one at that position. */
  lemma FindJobAt(view: seq<Job>, i: nat)
    requires DistinctIds(view) && i < |view|
    ensures FindJob(view, view[i].id) == Some(view[i])
  {
    var r := FindJob(view, view[i].id);
    var j :| 0 <= j < |view| && view[j] == r.value;
    assert view[j].id == view[i].id;
  }

  // ---------------------------------------------------------------------------
  // The optimistic order against the store
  // ---------------------------------------------------------------------------

  /** The order the reorder gives the job at `Origin(src, dst, i)` is its new position plus one. */
  lemma ShiftedOrigin(src: nat, dst: nat, i: nat)
    requires Origin(src, dst, i) != src
    ensures Shifted(Origin(src, dst, i) + 1, src + 1, dst + 1, Closed) == i + 1
  {
  }

  /** One job of the drag: the store gives it the order of the position the drag moved it to. */
  lemma OptimisticAt(jobs: map<int, Job>, id: int, src: nat, dst: nat, i: nat, job: Job)
    requires job.id in jobs && jobs[job.id] == job
    requires job.order == Origin(src, dst, i) + 1
    requires job.id == id <==> Origin(src, dst, i) == src
    ensures Reordered(jobs, id, src + 1, dst + 1, Closed)[job.id] == job.(order := i + 1)
  {
    ReorderedAt(jobs, id, src + 1, dst + 1, Closed, job.id);
    if job.id != id {
      ShiftedOrigin(src, dst, i);
    }
  }

  /**
   * When the board shows the whole table at positions matching the orders 1..n, the
   * renumbered list after a drag from `src` to `dst` is exactly the table after the reorder
   * request it sends, with the displaced range closed at its upper bound.
   */
  lemma OptimisticMatchesStore(view: seq<Job>, jobs: map<int, Job>, src: nat, dst: nat)
    requires src < |view| && dst < |view| && DistinctIds(view)
    requires forall i :: 0 <= i < |view| ==> view[i].order == i + 1 && view[i].id in jobs && jobs[view[i].id] == view[i]
    ensures var r := Renumber(MoveItem(view, src, dst));
      var after := Reordered(jobs, view[src].id, view[src].order, dst + 1, Closed);
      forall i :: 0 <= i < |r| ==> r[i].id in after && after[r[i].id] == r[i]
  {
    var r := Renumber(MoveItem(view, src, dst));
    var id := view[src].id;
    var after := Reordered(jobs, id, src + 1, dst + 1, Closed);
    forall i | 0 <= i < |r| ensures r[i].id in after && after[r[i].id] == r[i] {
      var j := Origin(src, dst, i);
      MoveItemAt(view, src, dst, i);
      assert r[i] == view[j].(order := i + 1);
      assert view[j].id == id <==> j == src;
      OptimisticAt(jobs, id, src, dst, i, view[j]);
    }
  }

  /** Five visible jobs at positions matching orders 1..5. */
  function FiveRows(): (v: seq<Job>)
    ensures |v| == 5
  {
    [SampleJob(1), SampleJob(2), SampleJob(3), SampleJob(4), SampleJob(5)]
  }

  /**
   * With the range as the code writes it, the board and the store disagree: after dragging
   * the second row to the bottom, the board shows job 5 at order 4 while the store keeps it at 5.
   */
  lemma OptimisticDivergesAsWritten()
    ensures var r := Renumber(MoveItem(FiveRows(), 1, 4));
      var after := Reordered(FiveJobs(), 2, 2, 5, HalfOpen);
      r[3].id == 5 && r[3].order == 4 && after[5].order == 5 && after[r[3].id] != r[3]
  {
    var r := Renumber(MoveItem(FiveRows(), 1, 4));
    MoveItemAt(FiveRows(), 1, 4, 3);
    assert r[3] == SampleJob(5).(order := 4);
    AsWrittenMoveTwoToFive();
  }

  // ---------------------------------------------------------------------------
  // Archive toggle
  // ---------------------------------------------------------------------------

  /** The status the toggle switches to. */
  function Toggled(s: Status): (r: Status)
    ensures r != s
  {
    if s == Archived then Active else Archived
  }

  /** `jobs.map(j => j.id === jobId ? { ...j, status } : j)`. */
  function WithStatusShown(view: seq<Job>, jobId: int, s: Status): (r: seq<Job>)
    ensures |r| == |view|
    ensures forall i :: 0 <= i < |r| ==> r[i] == if view[i].id == jobId then view[i].(status := s) else view[i]
  {
    seq(|view|, i requires 0 <= i < |view| => if view[i].id == jobId then view[i].(status := s) else view[i])
  }

  /** The optimistic toggle shows each listed job exactly as the store holds it after the status update. */
  lemma ToggleMatchesStore(view: seq<Job>, jobs: map<int, Job>, jobId: int, s: Status)
    requires forall i :: 0 <= i < |view| ==> view[i].id in jobs && jobs[view[i].id] == view[i]
    ensures var r := WithStatusShown(view, jobId, s);
      forall i :: 0 <= i < |r| ==> r[i].id in WithStatus(jobs, jobId, s) && WithStatus(jobs, jobId, s)[r[i].id] == r[i]
  {
    var r := WithStatusShown(view, jobId, s);
    forall i | 0 <= i < |r| ensures r[i].id in WithStatus(jobs, jobId, s) && WithStatus(jobs, jobId, s)[r[i].id] == r[i] {
      assert r[i].id == view[i].id;
    }
  }

  // ---------------------------------------------------------------------------
  // Pagination controls
  // ---------------------------------------------------------------------------

  /** `Math.ceil(total / pageSize)`. */
  function TotalPages(total: nat, pageSize: nat): (n: nat)
    requires pageSize > 0
    ensures n == 0 <==> total == 0
  {
    QuotientZero(total + pageSize - 1, pageSize);
    (total + pageSize - 1) / pageSize
  }

  lemma QuotientZero(m: nat, d: nat)
    requires d > 0
    ensures m / d == 0 <==> m < d
  {
    assert m == d * (m / d) + m % d;
    if m / d != 0 {
      MulMonotone(1, m / d, d);
    }
  }

  /** `n` pages of `pageSize` hold `total` items, and one page fewer would not. */
  lemma TotalPagesBounds(total: nat, pageSize: nat)
    requires pageSize > 0
    ensures var n := TotalPages(total, pageSize);
      total <= n * pageSize && (n == 0 || (n - 1) * pageSize < total)
  {
    var n := TotalPages(total, pageSize);
    var m := total + pageSize - 1;
    assert m == n * pageSize + m % pageSize;
    assert m % pageSize < pageSize;
  }

  /** Previous is disabled on the first page. */
  predicate PreviousDisabled(page: int) {
    page == 1
  }

  /** Next is disabled once the page reaches the page count. */
  predicate NextDisabled(page: int, totalPages: int) {
    page >= totalPages
  }

  /** Next is enabled exactly when there are items beyond the current page. */
  lemma NextEnabledIffMore(page: nat, total: nat, pageSize: nat)
    requires page >= 1 && pageSize > 0
    ensures !NextDisabled(page, TotalPages(total, pageSize)) <==> page * pageSize < total
  {
    var n := TotalPages(total, pageSize);
    TotalPagesBounds(total, pageSize);
    if page < n {
      MulMonotone(page, n - 1, pageSize);
    } else {
      MulMonotone(n, page, pageSize);
    }
  }

  lemma MulMonotone(a: nat, b: nat, c: nat)
    requires a <= b
    ensures a * c <= b * c
  {
  }

  // ---------------------------------------------------------------------------
  // Component state
  // ---------------------------------------------------------------------------

  /** The request body of a reorder. */
  datatype ReorderRequest = ReorderRequest(jobId: int, fromOrder: int, toOrder: int)

  /** What the board does after a status change succeeds. */
  datatype AfterArchive = Refetch | ClearUpdating

  class Board {
    var jobs: seq<Job>
    var isUpdating: bool
    var updateError: Option<ApiError>

    constructor ()
      ensures jobs == [] && !isUpdating && updateError.None?
    {
      jobs := [];
      isUpdating := false;
      updateError := None;
    }

    /**
     * A drop: nothing happens without a destination, on the same index or for an unknown
     * id; otherwise the copied list is spliced and renumbered, and the reorder request
     * carries the dragged job's old order and the destination's new one.
     */
    method OnDragEnd(destination: Option<nat>, source: nat, draggedId: int) returns (request: Option<ReorderRequest>, snapshot: seq<Job>)
      requires source < |jobs| && (destination.Some? ==> destination.value < |jobs|)
      modifies this
      ensures snapshot == old(jobs)
      ensures request.None? <==> destination.None? || destination.value == source || FindJob(old(jobs), draggedId).None?
      ensures request.None? ==> jobs == old(jobs) && isUpdating == old(isUpdating) && updateError == old(updateError)
      ensures request.Some? ==> jobs == Renumber(MoveItem(old(jobs), source, destination.value))
      ensures request.Some? ==> request.value == ReorderRequest(draggedId, FindJob(old(jobs), draggedId).value.order, destination.value + 1)
      ensures request.Some? ==> isUpdating && updateError.None?
    {
      snapshot := jobs;
      if destination.None? || destination.value == source {
        return None, snapshot;
      }
      var found := FindJob(jobs, draggedId);
      if found.None? {
        return None, snapshot;
      }
      var moved := SpliceCopy(jobs, source, destination.value);
      var updated := Renumber(moved);
      jobs := updated;
      request := Some(ReorderRequest(draggedId, found.value.order, updated[destination.value].order));
      isUpdating := true;
      updateError := None;
    }

    /** The reorder answer: success only clears the flags; a failure restores the snapshot and keeps the error. */
    method ReorderSettled(reply: Reply<()>, snapshot: seq<Job>)
      modifies this
      ensures !isUpdating
      ensures reply.Success? ==> jobs == old(jobs) && updateError.None?
      ensures reply.Failure? ==> jobs == snapshot && updateError == Some(reply.error)
    {
      isUpdating := false;
      if reply.Failure? {
        jobs := snapshot;
        updateError := Some(reply.error);
      } else {
        updateError := None;
      }
    }

    /** The archive toggle: the job with that id flips between active and archived on the board at once. */
    method ArchiveToggle(jobId: int, currentStatus: Status) returns (newStatus: Status, snapshot: seq<Job>)
      modifies this
      ensures newStatus == Toggled(currentStatus) && snapshot == old(jobs)
      ensures jobs == WithStatusShown(old(jobs), jobId, newStatus)
      ensures isUpdating && updateError.None?
    {
      newStatus := Toggled(currentStatus);
      snapshot := jobs;
      jobs := WithStatusShown(jobs, jobId, newStatus);
      isUpdating := true;
      updateError := None;
    }

    /**
     * The status-change answer: a failure restores the snapshot; a success refetches when
     * the status filter (`all`, or a status name) now hides the job, and otherwise clears
     * the flags. The refetch path leaves the in-flight flag set.
     */
    method ArchiveSettled<T>(reply: Reply<T>, snapshot: seq<Job>, statusFilter: string, newStatus: Status)
      returns (next: Option<AfterArchive>)
      modifies this
      ensures reply.Failure? ==> next.None? && jobs == snapshot && !isUpdating && updateError == Some(reply.error)
      ensures reply.Success? ==> jobs == old(jobs) && next.Some?
      ensures reply.Success? ==> (next == Some(Refetch) <==> statusFilter != "all" && StatusName(newStatus) != statusFilter)
      ensures next == Some(Refetch) ==> isUpdating == old(isUpdating) && updateError == old(updateError)
      ensures next == Some(ClearUpdating) ==> !isUpdating && updateError.None?
    {
      if reply.Failure? {
        isUpdating := false;
        jobs := snapshot;
        updateError := Some(reply.error);
        return None;
      }
      if statusFilter != "all" && StatusName(newStatus) != statusFilter {
        return Some(Refetch);
      }
      isUpdating := false;
      updateError := None;
      next := Some(ClearUpdating);
    }
  }
}

=== FILE: js_string.dfy ===
/**
 * The JavaScript string primitives the data layer relies on, stated over `seq<char>`:
 * `toLowerCase` (on ASCII letters), the `\s` and `\w` character classes, `trim`,
 * `includes`, `lastIndexOf`, `search(/\s/)`, `substring`, `slice`, `parseInt` and
 * the decimal rendering used by template literals.
 */
module JsString {
  import opened Wrappers

  // ---------------------------------------------------------------------------
  // Character classes
  // ---------------------------------------------------------------------------

  /** The `\s` class: ECMAScript WhiteSpace and LineTerminator code points. */
  predicate IsSpace(c: char) {
    || c == '\t' || c == '\n' || c == '\U{000B}' || c == '\U{000C}' || c == '\r'
    || c == ' ' || c == '\U{00A0}' || c == '\U{1680}'
    || ('\U{2000}' <= c <= '\U{200A}')
    || c == '\U{2028}' || c == '\U{2029}' || c == '\U{202F}' || c == '\U{205F}'
    || c == '\U{3000}' || c == '\U{FEFF}'
  }

  predicate IsDigit(c: char) { '0' <= c <= '9' }

  predicate IsLowerAscii(c: char) { 'a' <= c <= 'z' }

  predicate IsUpperAscii(c: char) { 'A' <= c <= 'Z' }

  /** The `\w` class: ASCII letters, digits and `_`. */
  predicate IsWordChar(c: char) {
    IsLowerAscii(c) || IsUpperAscii(c) || IsDigit(c) || c == '_'
  }

  // ---------------------------------------------------------------------------
  // Case mapping
  // ---------------------------------------------------------------------------

  function LowerChar(c: char): (r: char)
    ensures !IsUpperAscii(r)
    ensures IsWordChar(c) <==> IsWordChar(r)
    ensures IsSpace(c) <==> IsSpace(r)
  {
    if IsUpperAscii(c) then (c as int + 32) as char else c
  }

  /** `s.toLowerCase()`, restricted to ASCII letters. */
  function Lower(s: string): (r: string)
    ensures |r| == |s|
    ensures forall i :: 0 <= i < |s| ==> r[i] == LowerChar(s[i])
  {
    seq(|s|, i requires 0 <= i < |s| => LowerChar(s[i]))
  }

  lemma LowerIdempotent(s: string)
    ensures Lower(Lower(s)) == Lower(s)
  {
    assert forall i :: 0 <= i < |s| ==> LowerChar(LowerChar(s[i])) == LowerChar(s[i]);
  }

  // ---------------------------------------------------------------------------
  // Trimming
  // ---------------------------------------------------------------------------

  predicate AllSpace(s: string) {
    forall k :: 0 <= k < |s| ==> IsSpace(s[k])
  }

  /** The number of whitespace characters `s` starts with. */
  function LeadingSpaces(s: string): (n: nat)
    ensures n <= |s|
    ensures forall k :: 0 <= k < n ==> IsSpace(s[k])
    ensures n < |s| ==> !IsSpace(s[n])
  {
    if |s| > 0 && IsSpace(s[0]) then
      var n := LeadingSpaces(s[1..]);
      assert forall k :: 1 <= k < n + 1 ==> s[k] == s[1..][k - 1];
      n + 1
    else 0
  }

  /** The number of whitespace characters `s` ends with. */
  function TrailingSpaces(s: string): (n: nat)
    ensures n <= |s|
    ensures forall k :: |s| - n <= k < |s| ==> IsSpace(s[k])
    ensures n < |s| ==> !IsSpace(s[|s| - n - 1])
  {
    if |s| > 0 && IsSpace(s[|s| - 1]) then
      var n := TrailingSpaces(s[..|s| - 1]);
      assert forall k :: |s| - 1 - n <= k < |s| - 1 ==> s[k] == s[..|s| - 1][k];
      n + 1
    else 0
  }

  /** `s.trimStart()`: drops the leading whitespace. */
  function TrimStart(s: string): (r: string)
    ensures |r| <= |s| && r == s[|s| - |r|..]
    ensures forall k :: 0 <= k < |s| - |r| ==> IsSpace(s[k])
    ensures r == [] || !IsSpace(r[0])
  {
    s[LeadingSpaces(s)..]
  }

  /** `s.trim()`: the text between the leading and the trailing whitespace. */
  function Trim(s: string): (r: string)
    ensures |r| <= |s|
    ensures r == [] || (!IsSpace(r[0]) && !IsSpace(r[|r| - 1]))
    ensures r == [] <==> AllSpace(s)
  {
    var a := LeadingSpaces(s);
    if a == |s| then
      []
    else
      var b := |s| - TrailingSpaces(s);
      assert a < b;
      assert s[a..b][b - a - 1] == s[b - 1];
      s[a..b]
  }

  /** Trimming only removes characters, so what holds of every character still holds. */
  lemma TrimKeeps(s: string, p: char -> bool)
    requires forall k :: 0 <= k < |s| ==> p(s[k])
    ensures forall k :: 0 <= k < |Trim(s)| ==> p(Trim(s)[k])
  {
    var a := LeadingSpaces(s);
    if a < |s| {
      assert forall k :: 0 <= k < |Trim(s)| ==> Trim(s)[k] == s[a + k];
    }
  }

  /** Text without whitespace is left as it is. */
  lemma TrimNoSpace(s: string)
    requires forall k :: 0 <= k < |s| ==> !IsSpace(s[k])
    ensures Trim(s) == s
  {
    if s != [] {
      assert LeadingSpaces(s) == 0 && TrailingSpaces(s) == 0;
    }
  }

  /** A text without whitespace followed by one space trims back to the text. */
  lemma TrimTrailingSpace(s: string)
    requires forall k :: 0 <= k < |s| ==> !IsSpace(s[k])
    ensures Trim(s + " ") == s
  {
    var t := s + " ";
    if s != [] {
      assert t[0] == s[0];
      assert LeadingSpaces(t) == 0;
      assert t[..|t| - 1] == s;
      assert TrailingSpaces(s) == 0;
      assert TrailingSpaces(t) == 1;
      assert t[0..|s|] == s;
    } else {
      assert AllSpace(t);
    }
  }

  // ---------------------------------------------------------------------------
  // Searching
  // ---------------------------------------------------------------------------

  predicate IsPrefix(p: string, s: string) {
    |p| <= |s| && s[..|p|] == p
  }

  /** `s.includes(sub)`: `sub` occurs at some position of `s`. */
  predicate Includes(s: string, sub: string) {
    exists i | 0 <= i <= |s| :: IsPrefix(sub, s[i..])
  }

  lemma IncludesEmpty(s: string)
    ensures Includes(s, [])
  {
    assert IsPrefix([], s[0..]);
  }

  lemma IncludesSelf(s: string)
    ensures Includes(s, s)
  {
    assert IsPrefix(s, s[0..]);
  }

  /** The last position below `n` holding `c`, or -1. */
  function LastIndexBelow(s: string, c: char, n: nat): (r: int)
    requires n <= |s|
    ensures -1 <= r < n
    ensures r >= 0 ==> s[r] == c
    ensures forall k :: r < k < n ==> s[k] != c
  {
    if n == 0 then -1
    else if s[n - 1] == c then n - 1
    else LastIndexBelow(s, c, n - 1)
  }

  /** `s.lastIndexOf(c)` for a one-character needle: -1 when `c` does not occur. */
  function LastIndexOf(s: string, c: char): (r: int)
    ensures -1 <= r < |s|
    ensures r == -1 <==> c !in s
    ensures r >= 0 ==> s[r] == c && forall k :: r < k < |s| ==> s[k] != c
  {
    LastIndexBelow(s, c, |s|)
  }

  /** `s.search(/\s/)`: the index of the first whitespace character, or -1. */
  function FirstSpace(s: string): (r: int)
    ensures -1 <= r < |s|
    ensures r == -1 <==> forall k :: 0 <= k < |s| ==> !IsSpace(s[k])
    ensures r >= 0 ==> IsSpace(s[r]) && forall k :: 0 <= k < r ==> !IsSpace(s[k])
  {
    if |s| == 0 then -1
    else if IsSpace(s[0]) then 0
    else
      var r := FirstSpace(s[1..]);
      if r == -1 then -1 else r + 1
  }

  // ---------------------------------------------------------------------------
  // Substrings
  // ---------------------------------------------------------------------------

  function Clamp(i: int, n: nat): (r: nat)
    ensures r <= n
  {
    if i < 0 then 0 else if i > n then n else i
  }

  /** `s.substring(start, end)`: both bounds clamped to `[0, |s|]`, swapped when reversed. */
  function Substring(s: string, start: int, end: int): (r: string)
    ensures 0 <= start <= end <= |s| ==> r == s[start..end]
    ensures |r| <= |s|
  {
    var a := Clamp(start, |s|);
    var b := Clamp(end, |s|);
    if a <= b then s[a..b] else s[b..a]
  }

  /** `Array.prototype.slice(start, end)` / `String.prototype.slice`: negative bounds count from the end. */
  function Slice<T>(s: seq<T>, start: int, end: int): (r: seq<T>)
    ensures 0 <= start <= end <= |s| ==> r == s[start..end]
    ensures 0 <= start && |s| <= start ==> r == []
    ensures |r| <= |s|
  {
    var a := if start < 0 then Clamp(|s| + start, |s|) else Clamp(start, |s|);
    var b := if end < 0 then Clamp(|s| + end, |s|) else Clamp(end, |s|);
    if a < b then s[a..b] else []
  }

  /** Whatever its bounds, a slice is a contiguous window of the sequence. */
  lemma SliceWindow<T>(s: seq<T>, start: int, end: int) returns (lo: nat, hi: nat)
    ensures lo <= hi <= |s| && Slice(s, start, end) == s[lo..hi]
  {
    lo := if start < 0 then Clamp(|s| + start, |s|) else Clamp(start, |s|);
    hi := if end < 0 then Clamp(|s| + end, |s|) else Clamp(end, |s|);
    if hi <= lo {
      hi := lo;
    }
  }

  /** `all.slice((p - 1) * s, p * s)` for a positive page `p` and page size `s`: the `p`-th run of `s` entries, cut short at the end. */
  lemma SlicePage<T>(all: seq<T>, p: int, s: int)
    requires p >= 1 && s >= 1
    ensures var first := (p - 1) * s;
      var r := Slice(all, (p - 1) * s, p * s);
      && first >= 0
      && (first + s <= |all| ==> r == all[first..first + s])
      && (first <= |all| < first + s ==> r == all[first..])
      && (|all| <= first ==> r == [])
  {
    var first := (p - 1) * s;
    assert p * s == first + s;
    assert first >= 0;
  }

  // ---------------------------------------------------------------------------
  // Decimal numbers
  // ---------------------------------------------------------------------------

  function DigitChar(d: nat): (c: char)
    requires d < 10
    ensures IsDigit(c)
  {
    ('0' as int + d) as char
  }

  function DigitValue(c: char): (d: nat)
    requires IsDigit(c)
    ensures d < 10
  {
    c as int - '0' as int
  }

  predicate AllDigits(s: string) {
    forall k :: 0 <= k < |s| ==> IsDigit(s[k])
  }

  /** The decimal rendering of a natural number, as a template literal `${n}` writes it. */
  function Decimal(n: nat): (r: string)
    ensures |r| >= 1 && AllDigits(r)
  {
    if n < 10 then [DigitChar(n)] else Decimal(n / 10) + [DigitChar(n % 10)]
  }

  /** The value of a string of decimal digits. */
  function DigitsValue(s: string): nat
    requires AllDigits(s)
  {
    if s == [] then 0 else DigitsValue(s[..|s| - 1]) * 10 + DigitValue(s[|s| - 1])
  }

  lemma {:induction false} DecimalValue(n: nat)
    ensures DigitsValue(Decimal(n)) == n
  {
    if n >= 10 {
      var d := Decimal(n);
      assert d[..|d| - 1] == Decimal(n / 10);
      DecimalValue(n / 10);
    }
  }

  /** Distinct numbers have distinct renderings. */
  lemma DecimalInjective(a: nat, b: nat)
    requires a != b
    ensures Decimal(a) != Decimal(b)
  {
    DecimalValue(a);
    DecimalValue(b);
  }

  /** The length of the longest prefix of `s` made of decimal digits. */
  function DigitRun(s: string): (n: nat)
    ensures n <= |s| && AllDigits(s[..n])
    ensures n < |s| ==> !IsDigit(s[n])
  {
    if |s| > 0 && IsDigit(s[0]) then
      var n := DigitRun(s[1..]);
      assert s[..n + 1] == [s[0]] + s[1..][..n];
      n + 1
    else 0
  }

  lemma {:induction false} DigitRunOfDigits(s: string)
    requires AllDigits(s)
    ensures DigitRun(s) == |s|
  {
    if |s| > 0 {
      DigitRunOfDigits(s[1..]);
    }
  }

  /**
   * `parseInt(s)` without a radix: leading whitespace skipped, an optional sign, then
   * the longest run of decimal digits; `None` stands for NaN (no digit at all).
   */
  function ParseInt(s: string): Option<int> {
    var t := TrimStart(s);
    var negative := |t| > 0 && t[0] == '-';
    var body := if |t| > 0 && (t[0] == '-' || t[0] == '+') then t[1..] else t;
    var n := DigitRun(body);
    if n == 0 then None
    else
      var v: int := DigitsValue(body[..n]);
      Some(if negative then -v else v)
  }

  lemma ParseIntDecimal(n: nat)
    ensures ParseInt(Decimal(n)) == Some(n)
  {
    var d := Decimal(n);
    assert IsDigit(d[0]);
    assert !IsSpace(d[0]);
    assert TrimStart(d) == d;
    DigitRunOfDigits(d);
    assert d[..|d|] == d;
    DecimalValue(n);
  }

  /** `parseInt(s) || fallback`: NaN and 0 both fall back. */
  function IntOr(p: Option<int>, fallback: int): (r: int)
    ensures p.Some? && p.value != 0 ==> r == p.value
    ensures p.None? || p.value == 0 ==> r == fallback
  {
    if p.Some? && p.value != 0 then p.value else fallback
  }
}

=== FILE: notes.dfy ===
/**
 * The notes panel of a candidate's profile: the split of a note's text into plain text
 * and `@` mentions and the rule that highlights a mention of a team member, the
 * suggestion list that follows the last `@` of the draft, the insertion of a chosen
 * member, and adding a note.
 */
module Notes {
  import opened Wrappers
  import opened JsString
  import Tables

  // ---------------------------------------------------------------------------
  // Splitting a note into text and mentions
  // ---------------------------------------------------------------------------

  /** The characters a mention runs over: `[\w\s]`. */
  predicate MentionChar(c: char) {
    IsWordChar(c) || IsSpace(c)
  }

  /** A match of `@[\w\s]+` can start at `i`: an `@` followed by a mention character. */
  predicate MentionAt(s: string, i: int) {
    0 <= i && i + 1 < |s| && s[i] == '@' && MentionChar(s[i + 1])
  }

  /** The length of the run of mention characters that starts at `i`. */
  function MentionRun(s: string, i: nat): (n: nat)
    requires i <= |s|
    ensures i + n <= |s|
    ensures forall k :: i <= k < i + n ==> MentionChar(s[k])
    ensures i + n < |s| ==> !MentionChar(s[i + n])
    decreases |s| - i
  {
    if i < |s| && MentionChar(s[i]) then 1 + MentionRun(s, i + 1) else 0
  }

  /** The first position from `i` on where a match starts, or `|s|` when there is none. */
  function NextMention(s: string, i: nat): (j: nat)
    requires i <= |s|
    ensures i <= j <= |s|
    ensures j < |s| ==> MentionAt(s, j)
    ensures forall k :: i <= k < j ==> !MentionAt(s, k)
    decreases |s| - i
  {
    if i == |s| then |s|
    else if MentionAt(s, i) then i
    else NextMention(s, i + 1)
  }

  /**
   * `text.split(/(@[\w\s]+)/g)`: the text before the first match, the match (the capture
   * group), the text up to the next match, and so on, ending with the text after the last
   * match. Each match runs as far as the mention characters go.
   */
  function SplitMentions(s: string): (parts: seq<string>)
    ensures |parts| >= 1
    decreases |s|
  {
    var j := NextMention(s, 0);
    if j == |s| then [s]
    else
      var n := MentionRun(s, j + 1);
      [s[..j], s[j..j + 1 + n]] + SplitMentions(s[j + 1 + n..])
  }

  /** The parts joined back together. */
  function Concat(parts: seq<string>): string {
    if parts == [] then [] else parts[0] + Concat(parts[1..])
  }

  /** Joining the parts of the split gives back the text. */
  lemma {:induction false} SplitConcat(s: string)
    ensures Concat(SplitMentions(s)) == s
    decreases |s|
  {
    var j := NextMention(s, 0);
    if j < |s| {
      var n := MentionRun(s, j + 1);
      var rest := s[j + 1 + n..];
      SplitConcat(rest);
      JoinStep(s, s[..j], s[j..j + 1 + n], rest, SplitMentions(rest));
    } else {
      assert [s][1..] == [];
    }
  }

  /** Joining a text, a match and the parts of the rest gives back the whole. */
  lemma JoinStep(s: string, before: string, found: string, rest: string, tail: seq<string>)
    requires s == before + found + rest
    requires Concat(tail) == rest
    ensures Concat([before, found] + tail) == s
  {
    var parts := [before, found] + tail;
    assert parts[1..][1..] == tail;
  }

  /** A part that is a whole match: `@` followed by one or more mention characters. */
  predicate IsMention(p: string) {
    |p| >= 2 && p[0] == '@' && forall k :: 1 <= k < |p| ==> MentionChar(p[k])
  }

  /** A text in which no match starts. */
  ghost predicate NoMention(p: string) {
    forall k :: !MentionAt(p, k)
  }

  /**
   * The shape of a split: text without a match, then as often as there are matches, a
   * match followed by text without a match that does not begin with a mention character
   * (the match took all of them).
   */
  ghost predicate Alternates(parts: seq<string>)
    decreases |parts|
  {
    && |parts| >= 1
    && NoMention(parts[0])
    && (|parts| == 1 || (
      && |parts| >= 3
      && IsMention(parts[1])
      && (|parts[2]| > 0 ==> !MentionChar(parts[2][0]))
      && Alternates(parts[2..])))
  }

  /** Text and matches alternate, so there is one more text than there are matches. */
  lemma {:induction false} AlternatesOdd(parts: seq<string>)
    requires Alternates(parts)
    ensures |parts| % 2 == 1
    decreases |parts|
  {
    if |parts| > 1 {
      AlternatesOdd(parts[2..]);
    }
  }

  lemma {:induction false} SplitShape(s: string)
    ensures Alternates(SplitMentions(s))
    decreases |s|
  {
    var parts := SplitMentions(s);
    var j := NextMention(s, 0);
    if j == |s| {
      assert parts == [s];
      assert forall k :: !MentionAt(s, k);
    } else {
      var n := MentionRun(s, j + 1);
      var rest := s[j + 1 + n..];
      SplitShape(rest);
      var tail := SplitMentions(rest);
      assert parts == [s[..j], s[j..j + 1 + n]] + tail;
      assert parts[2..] == tail;
      assert forall k :: MentionAt(s[..j], k) ==> MentionAt(s, k);
      assert IsMention(s[j..j + 1 + n]);
      assert tail[0] == parts[2];
      assert |tail[0]| > 0 ==> tail[0][0] == s[j + 1 + n] by {
        SplitStartsWith(rest);
      }
    }
  }

  /** The first part of a split is a prefix of the text. */
  lemma SplitStartsWith(s: string)
    ensures IsPrefix(SplitMentions(s)[0], s)
  {
  }

  // ---------------------------------------------------------------------------
  // Highlighting
  // ---------------------------------------------------------------------------

  /** `members.map(m => m.toLowerCase())`. */
  function LowerAll(names: seq<string>): (r: seq<string>)
    ensures |r| == |names| && forall i :: 0 <= i < |names| ==> r[i] == Lower(names[i])
  {
    seq(|names|, i requires 0 <= i < |names| => Lower(names[i]))
  }

  /** A part is highlighted when it starts with `@` and its trimmed rest is a member's name, ignoring case. */
  predicate Highlighted(part: string, members: seq<string>) {
    |part| > 0 && part[0] == '@' && Lower(Trim(part[1..])) in LowerAll(members)
  }

  /** A rendered piece of a note. */
  datatype Piece = Plain(text: string) | Mention(text: string)

  function Render(parts: seq<string>, members: seq<string>): (r: seq<Piece>)
    ensures |r| == |parts|
    ensures forall i :: 0 <= i < |r| ==> r[i].text == parts[i] && (r[i].Mention? <==> Highlighted(parts[i], members))
  {
    seq(|parts|, i requires 0 <= i < |parts| =>
      if Highlighted(parts[i], members) then Mention(parts[i]) else Plain(parts[i]))
  }

  function Texts(pieces: seq<Piece>): (r: seq<string>)
    ensures |r| == |pieces| && forall i :: 0 <= i < |r| ==> r[i] == pieces[i].text
  {
    seq(|pieces|, i requires 0 <= i < |pieces| => pieces[i].text)
  }

  /** `renderMentionText(text, members)`: nothing for an empty note, otherwise the split parts, the mentions of members highlighted. */
  function RenderMentionText(text: string, members: seq<string>): (r: Option<seq<Piece>>)
    ensures r.None? <==> text == []
  {
    if text == [] then None else Some(Render(SplitMentions(text), members))
  }

  /**
   * Rendering loses no text: the pieces spell the note, and a piece is highlighted exactly
   * when it starts with `@` and names a member.
   */
  lemma RenderKeepsText(text: string, members: seq<string>)
    requires text != []
    ensures var pieces := RenderMentionText(text, members).value;
      && Concat(Texts(pieces)) == text
      && forall i :: 0 <= i < |pieces| ==> (pieces[i].Mention? <==> Highlighted(pieces[i].text, members))
  {
    var parts := SplitMentions(text);
    var pieces := Render(parts, members);
    assert Texts(pieces) == parts;
    SplitConcat(text);
  }

  /**
   * A mention takes in the words that follow it: "@Ann hi" is one match, and that match
   * names no member called "Ann", while "@Ann" alone does.
   */
  lemma MentionTakesFollowingWords()
    ensures SplitMentions("@Ann hi") == ["", "@Ann hi", ""]
    ensures !Highlighted("@Ann hi", ["Ann"])
    ensures Highlighted("@Ann", ["Ann"])
  {
    SplitOfAnnHi();
    AnnHiNotHighlighted();
    AnnHighlighted();
  }

  lemma SplitOfAnnHi()
    ensures SplitMentions("@Ann hi") == ["", "@Ann hi", ""]
  {
    var s := "@Ann hi";
    assert MentionChar(s[1]) && MentionChar(s[2]) && MentionChar(s[3]) && MentionChar(s[4]);
    assert MentionChar(s[5]) && MentionChar(s[6]);
    WholeMention(s);
  }

  /** A text that is one whole match splits into that match between two empty texts. */
  lemma WholeMention(s: string)
    requires IsMention(s)
    ensures SplitMentions(s) == ["", s, ""]
  {
    assert MentionAt(s, 0);
    assert NextMention(s, 0) == 0;
    RunToEnd(s, 1);
    assert s[1 + |s| - 1..] == "";
    assert s[..0] == "";
    assert s[0..|s|] == s;
  }

  /** From a position where only mention characters follow, the run reaches the end. */
  lemma {:induction false} RunToEnd(s: string, i: nat)
    requires i <= |s|
    requires forall k :: i <= k < |s| ==> MentionChar(s[k])
    ensures MentionRun(s, i) == |s| - i
    decreases |s| - i
  {
    if i < |s| {
      RunToEnd(s, i + 1);
    }
  }

  lemma AnnHiNotHighlighted()
    ensures !Highlighted("@Ann hi", ["Ann"])
  {
    var name := "@Ann hi"[1..];
    assert name == "Ann hi";
    TrimNoEdgeSpace(name);
    assert |Lower(Trim(name))| == 6;
    assert LowerAll(["Ann"]) == [Lower("Ann")];
  }

  lemma AnnHighlighted()
    ensures Highlighted("@Ann", ["Ann"])
  {
    var name := "@Ann"[1..];
    assert name == "Ann";
    TrimNoEdgeSpace(name);
    assert LowerAll(["Ann"]) == [Lower("Ann")];
  }

  /** Trimming leaves a text that neither starts nor ends with whitespace as it is. */
  lemma TrimNoEdgeSpace(s: string)
    requires s != [] && !IsSpace(s[0]) && !IsSpace(s[|s| - 1])
    ensures Trim(s) == s
  {
    assert LeadingSpaces(s) == 0;
    assert TrailingSpaces(s) == 0;
  }

  // ---------------------------------------------------------------------------
  // Suggestions
  // ---------------------------------------------------------------------------

  /** What the suggestion list shows: whether it is open, and the members offered. */
  datatype Suggestions = Suggestions(show: bool, members: seq<string>)

  /** The query after the last `@` of the draft, lower-cased and then trimmed; none without an `@`. */
  function MentionQuery(draft: string): (q: Option<string>)
    ensures q.None? <==> '@' !in draft
  {
    var start := LastIndexOf(draft, '@');
    if start > -1 then Some(Trim(Lower(draft[start + 1..]))) else None
  }

  /** In `pre + "@" + post` with no `@` in `post`, the last `@` is the one after `pre`. */
  lemma LastAt(pre: string, post: string)
    requires '@' !in post
    ensures LastIndexOf(pre + "@" + post, '@') == |pre|
  {
    var s := pre + "@" + post;
    assert s[|pre|] == '@';
    assert forall k :: |pre| < k < |s| ==> s[k] == post[k - |pre| - 1];
  }

  /** The query is what follows the last `@`, whatever comes before it. */
  lemma MentionQueryAfterLastAt(pre: string, post: string)
    requires '@' !in post
    ensures MentionQuery(pre + "@" + post) == Some(Trim(Lower(post)))
  {
    var s := pre + "@" + post;
    LastAt(pre, post);
    assert s[|pre| + 1..] == post;
  }

  /** A member is offered when its lower-cased name contains the query. */
  predicate Offered(member: string, query: string) {
    Includes(Lower(member), query)
  }

  /**
   * The effect that runs when the draft changes: without an `@` the list closes and keeps
   * its members; an empty query offers every member; otherwise the members whose name
   * contains the query are offered, and the list is open when there is one.
   */
  function UpdateSuggestions(draft: string, team: seq<string>, current: Suggestions): (r: Suggestions)
    ensures MentionQuery(draft).None? ==> r == current.(show := false)
    ensures MentionQuery(draft) == Some([]) ==> r == Suggestions(true, team)
    ensures MentionQuery(draft).Some? && MentionQuery(draft).value != [] ==>
      && (forall m :: multiset(r.members)[m] == if Offered(m, MentionQuery(draft).value) then multiset(team)[m] else 0)
      && (r.show <==> r.members != [])
  {
    match MentionQuery(draft)
    case None => current.(show := false)
    case Some(query) =>
      if |query| > 0 then
        var filtered := Tables.Filter(team, m => Offered(m, query));
        Suggestions(|filtered| > 0, filtered)
      else Suggestions(true, team)
  }

  /** With an `@` in the draft, every member the list offers contains the query, and every member containing it is offered. */
  lemma OfferedExactly(draft: string, team: seq<string>, current: Suggestions, m: string)
    requires '@' in draft
    ensures var q := MentionQuery(draft).value;
      m in UpdateSuggestions(draft, team, current).members <==> m in team && (q == [] || Offered(m, q))
  {
    var r := UpdateSuggestions(draft, team, current);
    if MentionQuery(draft).value != [] {
      assert m in r.members <==> multiset(r.members)[m] > 0;
      assert m in team <==> multiset(team)[m] > 0;
    }
  }

  /** The empty query is contained in every name, so an empty query offers the same members a filter would. */
  lemma EmptyQueryOffersAll(member: string)
    ensures Offered(member, [])
  {
    IncludesEmpty(Lower(member));
  }

  // ---------------------------------------------------------------------------
  // Choosing a suggestion
  // ---------------------------------------------------------------------------

  /**
   * `handleSuggestionClick(member)`: the draft up to the last `@`, then `@`, the member and
   * a space, then what followed the `@` from its first whitespace on (nothing when the
   * text after the `@` has none).
   */
  function InsertSuggestion(draft: string, member: string): (r: string)
    ensures |r| >= |member| + 2
    ensures IsPrefix(Substring(draft, 0, LastIndexOf(draft, '@')) + "@" + member + " ", r)
  {
    var start := LastIndexOf(draft, '@');
    var before := Substring(draft, 0, start);
    var after := Substring(draft, start, |draft|);
    var wordEnd := FirstSpace(after);
    var remaining := if wordEnd > 0 then after[wordEnd..] else "";
    before + "@" + member + " " + remaining
  }

  /**
   * Choosing a member replaces the word typed after the last `@` by the member's name and a
   * space, and keeps the text before the `@` and the text from the whitespace after the word.
   */
  lemma InsertReplacesWord(pre: string, word: string, rest: string, member: string)
    requires '@' !in word && '@' !in rest
    requires forall k :: 0 <= k < |word| ==> !IsSpace(word[k])
    requires rest == [] || IsSpace(rest[0])
    ensures InsertSuggestion(pre + "@" + word + rest, member) == pre + "@" + member + " " + rest
  {
    var s := pre + "@" + word + rest;
    assert s == pre + "@" + (word + rest);
    assert '@' !in word + rest;
    LastAt(pre, word + rest);
    assert Substring(s, 0, |pre|) == pre;
    assert Substring(s, |pre|, |s|) == "@" + word + rest;
    WordEnd(word, rest);
  }

  /** After `@` and a word without whitespace, the first whitespace is where `rest` begins, if `rest` does. */
  lemma WordEnd(word: string, rest: string)
    requires forall k :: 0 <= k < |word| ==> !IsSpace(word[k])
    requires rest == [] || IsSpace(rest[0])
    ensures var after := "@" + word + rest;
      (if FirstSpace(after) > 0 then after[FirstSpace(after)..] else "") == rest
  {
    var after := "@" + word + rest;
    assert forall k :: 1 <= k < 1 + |word| ==> after[k] == word[k - 1];
    if rest == [] {
      assert after == "@" + word;
      assert forall k :: 0 <= k < |after| ==> !IsSpace(after[k]);
    } else {
      assert after[1 + |word|] == rest[0];
      assert FirstSpace(after) == 1 + |word|;
      assert after[1 + |word|..] == rest;
    }
  }

  /** Without an `@`, the member is put in front of whatever followed the draft's first whitespace. */
  lemma InsertWithoutAt(draft: string, member: string, j: nat)
    requires '@' !in draft
    requires 0 < j < |draft| && IsSpace(draft[j]) && forall k :: 0 <= k < j ==> !IsSpace(draft[k])
    ensures InsertSuggestion(draft, member) == "@" + member + " " + draft[j..]
  {
    assert LastIndexOf(draft, '@') == -1;
    assert Substring(draft, 0, -1) == "";
    assert Substring(draft, -1, |draft|) == draft;
    assert FirstSpace(draft) == j;
  }

  /** After a chosen member and its space, the query is the member's lower-cased name. */
  lemma ChosenQuery(pre: string, member: string)
    requires '@' !in member
    requires forall k :: 0 <= k < |member| ==> !IsSpace(member[k])
    ensures MentionQuery(pre + "@" + member + " ") == Some(Lower(member))
  {
    assert pre + "@" + member + " " == pre + "@" + (member + " ");
    assert '@' !in member + " ";
    MentionQueryAfterLastAt(pre, member + " ");
    assert Lower(member + " ") == Lower(member) + " ";
    TrimTrailingSpace(Lower(member));
  }

  /**
   * Choosing a member closes the list, but the changed draft re-runs the suggestion effect:
   * the query is now the chosen name, so the list opens again and offers that member.
   */
  lemma ChooseReopens(pre: string, word: string, member: string, team: seq<string>, current: Suggestions)
    requires '@' !in word && '@' !in member
    requires forall k :: 0 <= k < |word| ==> !IsSpace(word[k])
    requires forall k :: 0 <= k < |member| ==> !IsSpace(member[k])
    requires member in team
    ensures var draft := InsertSuggestion(pre + "@" + word, member);
      var r := UpdateSuggestions(draft, team, current.(show := false));
      draft == pre + "@" + member + " " && r.show && member in r.members
  {
    InsertReplacesWord(pre, word, [], member);
    assert pre + "@" + word + [] == pre + "@" + word;
    assert pre + "@" + member + " " + [] == pre + "@" + member + " ";
    var draft := pre + "@" + member + " ";
    ChosenQuery(pre, member);
    if Lower(member) != [] {
      IncludesSelf(Lower(member));
      OfferedExactly(draft, team, current.(show := false), member);
    }
  }

  // ---------------------------------------------------------------------------
  // The panel
  // ---------------------------------------------------------------------------

  datatype Note = Note(id: int, text: string, author: string, date: string)

  /** The author every new note gets. */
  const CurrentUser := "Current User"

  /** The panel's state: the notes shown, the draft, the suggestion list, and the team it offers. */
  class NotesPanel {
    var notes: seq<Note>
    var draft: string
    var suggestions: Suggestions
    const team: seq<string>

    constructor (initialNotes: seq<Note>, teamMembers: seq<string>)
      ensures notes == initialNotes && draft == [] && suggestions == Suggestions(false, [])
      ensures team == teamMembers
    {
      notes := initialNotes;
      draft := [];
      suggestions := Suggestions(false, []);
      team := teamMembers;
    }

    /** Typing: the draft becomes `text`, and when that changed it the suggestion effect runs on it. */
    method Edit(text: string)
      modifies this
      ensures draft == text && notes == old(notes)
      ensures text != old(draft) ==> suggestions == UpdateSuggestions(text, team, old(suggestions))
      ensures text == old(draft) ==> suggestions == old(suggestions)
    {
      if text != draft {
        draft := text;
        suggestions := UpdateSuggestions(draft, team, suggestions);
      }
    }

    /**
     * A click on a suggestion: the member is inserted and the list closed; the changed
     * draft then runs the suggestion effect again.
     */
    method ChooseSuggestion(member: string)
      modifies this
      ensures draft == InsertSuggestion(old(draft), member) && notes == old(notes)
      ensures draft != old(draft) ==> suggestions == UpdateSuggestions(draft, team, old(suggestions).(show := false))
      ensures draft == old(draft) ==> suggestions == old(suggestions).(show := false)
    {
      var previous := draft;
      draft := InsertSuggestion(draft, member);
      suggestions := suggestions.(show := false);
      if draft != previous {
        suggestions := UpdateSuggestions(draft, team, suggestions);
      }
    }

    /**
     * `handleAddNote`: a draft that is empty or all whitespace changes nothing; otherwise the
     * trimmed draft is put in front of the notes as a note by the current user, and the
     * cleared draft closes the suggestion list.
     */
    method AddNote(id: int, date: string)
      modifies this
      ensures Trim(old(draft)) == [] ==> notes == old(notes) && draft == old(draft) && suggestions == old(suggestions)
      ensures Trim(old(draft)) != [] ==>
        && notes == [Note(id, Trim(old(draft)), CurrentUser, date)] + old(notes)
        && draft == [] && suggestions == old(suggestions).(show := false)
    {
      var text := Trim(draft);
      if text != [] {
        notes := [Note(id, text, CurrentUser, date)] + notes;
        draft := [];
        suggestions := UpdateSuggestions(draft, team, suggestions);
      }
    }
  }
}

=== FILE: seed.dfy ===
/**
 * The mock data seed: `slugify`, the job, candidate and assessment generators, and the
 * seeding run that clears the tables and bulk-writes 25 jobs, 1000 candidates, 5
 * assessments and every candidate's generated timeline. The random choices are draws
 * passed in by the caller.
 */
module Seed {
  import opened Wrappers
  import opened JsString
  import opened Jobs
  import opened Candidates
  import opened Assessments
  import opened SeedRandom
  import opened SeedWalk
  import Tables

  const NumJobs := 25
  const NumCandidates := 1000
  const NumAssessments := 5

  /** `JOB_STATUSES`. */
  const JobStatuses: seq<Status> := [Active, Archived]

  /** `CANDIDATE_STAGES`. */
  const CandidateStages: seq<Stage> := [Applied, Screen, Tech, Offer, Hired, Rejected]

  /** `SKILLS`. */
  const Skills: seq<string> := ["React", "Node.js", "Tailwind CSS", "SQL", "TypeScript", "Cloud"]

  /** `ALL_QUESTION_TYPES`. */
  const QuestionTypes: seq<QuestionType> := [SingleChoice, MultiChoice, ShortText, LongText, Numeric, FileUploadStub]

  // ---------------------------------------------------------------------------
  // slugify
  // ---------------------------------------------------------------------------

  /** The characters a slug is made of: lower-case ASCII letters, digits, `_` and `-`. */
  predicate SlugChar(c: char) {
    IsLowerAscii(c) || IsDigit(c) || c == '_' || c == '-'
  }

  predicate NoUpper(s: string) {
    forall k :: 0 <= k < |s| ==> !IsUpperAscii(s[k])
  }

  /** `replace(/\s+/g, '-')`: every maximal run of whitespace becomes a single `-`. */
  function DashSpaces(s: string): (r: string)
    ensures forall k :: 0 <= k < |r| ==> !IsSpace(r[k])
    ensures NoUpper(s) ==> NoUpper(r)
    ensures (forall k :: 0 <= k < |s| ==> !IsSpace(s[k])) ==> r == s
    decreases |s|
  {
    if s == [] then []
    else if IsSpace(s[0]) then
      var n := LeadingSpaces(s);
      "-" + DashSpaces(s[n..])
    else
      [s[0]] + DashSpaces(s[1..])
  }

  /** `replace(/[^\w-]+/g, '')`: drops every character that is neither a word character nor `-`. */
  function KeepWordChars(s: string): (r: string)
    ensures forall k :: 0 <= k < |r| ==> IsWordChar(r[k]) || r[k] == '-'
    ensures NoUpper(s) ==> NoUpper(r)
    ensures (forall k :: 0 <= k < |s| ==> IsWordChar(s[k]) || s[k] == '-') ==> r == s
  {
    if s == [] then []
    else (if IsWordChar(s[0]) || s[0] == '-' then [s[0]] else []) + KeepWordChars(s[1..])
  }

  /** `slugify(text)`: lower-cased, trimmed, whitespace runs turned into `-`, other symbols dropped. */
  function Slugify(text: string): (r: string)
    ensures forall k :: 0 <= k < |r| ==> SlugChar(r[k])
  {
    var lowered := Lower(text);
    var trimmed := Trim(lowered);
    TrimKeeps(lowered, c => !IsUpperAscii(c));
    KeepWordChars(DashSpaces(trimmed))
  }

  /** A slug is its own slug. */
  lemma SlugifyIdempotent(text: string)
    ensures Slugify(Slugify(text)) == Slugify(text)
  {
    var s := Slugify(text);
    assert Lower(s) == s by {
      assert forall k :: 0 <= k < |s| ==> LowerChar(s[k]) == s[k];
    }
    TrimNoSpace(s);
  }

  /**
   * A text followed by `-` and a decimal number determines both: the last `-` is the one
   * before the number, since the number has no `-` in it.
   */
  lemma DashSplit(x1: string, a: nat, x2: string, b: nat)
    ensures x1 + "-" + Decimal(a) == x2 + "-" + Decimal(b) ==> x1 == x2 && a == b
  {
    var u := x1 + "-" + Decimal(a);
    if u == x2 + "-" + Decimal(b) {
      LastDashBeforeDigits(x1, Decimal(a));
      LastDashBeforeDigits(x2, Decimal(b));
      assert x1 == u[..|x1|] && x2 == u[..|x2|];
      assert Decimal(a) == u[|x1| + 1..] && Decimal(b) == u[|x2| + 1..];
      DecimalValue(a);
      DecimalValue(b);
    }
  }

  lemma LastDashBeforeDigits(x: string, d: string)
    requires AllDigits(d)
    ensures LastIndexOf(x + "-" + d, '-') == |x|
  {
    var u := x + "-" + d;
    assert u[|x|] == '-';
    assert forall k :: |x| < k < |u| ==> u[k] == d[k - |x| - 1];
  }

  // ---------------------------------------------------------------------------
  // Jobs
  // ---------------------------------------------------------------------------

  /** The draws `createJob` makes: level, side, status, tag count, one per tag, and age in days. */
  datatype JobDraws = JobDraws(level: nat, side: nat, status: nat, tagCount: nat, tag: nat -> nat, daysAgo: nat)

  function JobTitle(level: nat, side: string): string {
    "Software Engineer L" + Decimal(level) + " - " + side + "-End"
  }

  /** The slug of a job: the slug of its title followed by `-` and its id. */
  function JobSlug(title: string, id: nat): string
  {
    Slugify(title) + "-" + Decimal(id)
  }

  /** The tags of a job: one to four skills, each drawn independently (so they may repeat). */
  function JobTags(d: JobDraws): (tags: seq<string>)
    ensures 1 <= |tags| <= 4 && forall i :: 0 <= i < |tags| ==> tags[i] in Skills
  {
    DrawSkills(d.tag, Random(d.tagCount, 1, 4))
  }

  /** `Array.from({ length: n }, () => randomItem(SKILLS))`, the i-th skill drawn by `tag(i)`. */
  function DrawSkills(tag: nat -> nat, n: nat): (r: seq<string>)
    ensures |r| == n && forall i :: 0 <= i < n ==> r[i] in Skills
  {
    if n == 0 then [] else DrawSkills(tag, n - 1) + [RandomItem(tag(n - 1), Skills)]
  }

  /** A creation time between 90 days and one day before `now`. */
  function CreatedAt(d: JobDraws, now: int): (t: int)
    ensures now - Days(90) <= t <= now - Days(1)
  {
    now - Days(Random(d.daysAgo, 1, 90))
  }

  /** `createJob(id, order)`, created `now`. */
  function CreateJob(id: nat, order: int, d: JobDraws, now: int): (j: Job)
    ensures j.id == id && j.order == order && j.slug == JobSlug(j.title, id)
    ensures 1 <= |j.tags| <= 4 && forall i :: 0 <= i < |j.tags| ==> j.tags[i] in Skills
    ensures now - Days(90) <= j.createdAt <= now - Days(1)
  {
    var title := JobTitle(Random(d.level, 1, 5) as nat, RandomItem(d.side, ["Front", "Back", "Full"]));
    Job(id, JobSlug(title, id), title, RandomItem(d.status, JobStatuses), JobTags(d), order, CreatedAt(d, now))
  }

  /** `Array.from({ length: n }, (_, i) => createJob(i + 1, i + 1))`, by primary key. */
  function SeedJobRows(draws: seq<JobDraws>, now: int): map<int, Job> {
    Tables.BulkAdd(draws, (k: nat, d: JobDraws) => CreateJob(k, k, d, now))
  }

  /** The seeded jobs have ids and orders 1..n, so their orders are dense, and their slugs are distinct. */
  lemma SeededJobs(draws: seq<JobDraws>, now: int)
    ensures var m := SeedJobRows(draws, now);
      && |m| == |draws| && (forall k :: k in m <==> 1 <= k <= |draws|)
      && (forall k :: k in m ==> m[k].id == k && m[k].order == k)
      && Dense(m) && SlugsUnique(m)
  {
    var m := SeedJobRows(draws, now);
    forall k | k in m ensures 1 <= k <= |m| && m[k].id == k && m[k].order == k && m[k].slug == JobSlug(m[k].title, k) {
      assert m[k] == CreateJob(k, k, draws[k - 1], now);
    }
    DenseWhenOrderIsKey(m);
    SlugsUniqueWhenSuffixed(m, k => if k in m then Slugify(m[k].title) else "");
  }

  /** A table whose every row has its key as its order, and whose keys lie in 1..size, is dense. */
  lemma DenseWhenOrderIsKey(m: map<int, Job>)
    requires forall k :: k in m ==> 1 <= k <= |m| && m[k].order == k
    ensures Dense(m)
  {
    assert forall k :: k in m ==> 1 <= m[k].order <= |m|;
    assert forall k1, k2 :: k1 in m && k2 in m && k1 != k2 ==> m[k1].order != m[k2].order;
  }

  /** Slugs made of some prefix, `-` and the row's own key are distinct. */
  lemma SlugsUniqueWhenSuffixed(m: map<int, Job>, prefix: int -> string)
    requires forall k :: k in m ==> k >= 0 && m[k].slug == prefix(k) + "-" + Decimal(k)
    ensures SlugsUnique(m)
  {
    forall k1: int, k2: int | k1 in m && k2 in m && k1 != k2 ensures m[k1].slug != m[k2].slug {
      DashSplit(prefix(k1), k1, prefix(k2), k2);
    }
  }

  // ---------------------------------------------------------------------------
  // Candidates
  // ---------------------------------------------------------------------------

  /**
   * The draws for one candidate: the stage and the job, then for the timeline the start
   * time and, step by step, the choice of the next stage and the gap in days.
   */
  datatype CandidateDraws = CandidateDraws(stage: nat, job: nat, start: nat, pick: nat -> nat, gap: nat -> nat)

  function CandidateEmail(id: nat): string {
    "candidate" + Decimal(id) + "@talentflow.com"
  }

  /** Distinct ids give distinct emails. */
  lemma CandidateEmailInjective(a: nat, b: nat)
    ensures CandidateEmail(a) == CandidateEmail(b) ==> a == b
  {
    var u := CandidateEmail(a);
    if u == CandidateEmail(b) {
      var n := |Decimal(a)|;
      assert Decimal(a) == u[9..9 + n];
      assert Decimal(b) == u[9..9 + n];
      DecimalValue(a);
      DecimalValue(b);
    }
  }

  /** `createCandidate(id)`. */
  function CreateCandidate(id: nat, d: CandidateDraws): (c: Candidate)
    ensures c.id == id && c.email == CandidateEmail(id)
    ensures 1 <= c.jobId <= NumJobs
  {
    Candidate(id, "Candidate " + Decimal(id), CandidateEmail(id), RandomItem(d.stage, CandidateStages), Random(d.job, 1, NumJobs))
  }

  /** `Array.from({ length: n }, (_, i) => createCandidate(i + 1))`, by primary key. */
  function SeedCandidateRows(draws: seq<CandidateDraws>): map<int, Candidate> {
    Tables.BulkAdd(draws, (k: nat, d: CandidateDraws) => CreateCandidate(k, d))
  }

  /** The seeded candidates have ids 1..n and pairwise distinct emails, as the unique email index demands. */
  lemma SeededCandidates(draws: seq<CandidateDraws>)
    ensures var m := SeedCandidateRows(draws);
      && |m| == |draws| && (forall k :: k in m <==> 1 <= k <= |draws|)
      && (forall k :: k in m ==> m[k].id == k && m[k].email == CandidateEmail(k) && 1 <= m[k].jobId <= NumJobs)
      && EmailsUnique(m)
  {
    var m := SeedCandidateRows(draws);
    forall k | k in m ensures m[k].id == k && m[k].email == CandidateEmail(k) && 1 <= m[k].jobId <= NumJobs {
      assert m[k] == CreateCandidate(k, draws[k - 1]);
    }
    forall k1: int, k2: int | k1 in m && k2 in m && k1 != k2 ensures m[k1].email != m[k2].email {
      CandidateEmailInjective(k1, k2);
    }
  }

  /** When a seeded candidate's history starts: a moment in the 90 days up to `now`. */
  function StartTime(d: CandidateDraws, now: int): (t: int)
    ensures now - Days(90) <= t <= now
  {
    Random(d.start, now - Days(90), now)
  }

  /** The history generated for candidate `id`. */
  function CandidateHistory(id: nat, d: CandidateDraws, now: int, rule: NextRule): seq<NewEntry> {
    Walk(id, RandomItem(d.stage, CandidateStages), StartTime(d, now), d.pick, d.gap, rule)
  }

  /** `mockCandidates.flatMap(...)`: the histories of candidates 1..n, one after the other. */
  function SeedTimeline(draws: seq<CandidateDraws>, now: int, rule: NextRule): seq<NewEntry> {
    if draws == [] then []
    else SeedTimeline(draws[..|draws| - 1], now, rule) + CandidateHistory(|draws|, draws[|draws| - 1], now, rule)
  }

  /** Every entry names a candidate in `1..n`. */
  predicate NamesCandidates(t: seq<NewEntry>, n: int) {
    forall i :: 0 <= i < |t| ==> 1 <= t[i].candidateId <= n
  }

  /** The seeded timeline holds one to five entries per candidate, each naming one of the candidates 1..n. */
  lemma {:induction false} SeedTimelineShape(draws: seq<CandidateDraws>, now: int, rule: NextRule)
    ensures var t := SeedTimeline(draws, now, rule);
      |draws| <= |t| <= 5 * |draws| && NamesCandidates(t, |draws|)
  {
    if draws != [] {
      var n := |draws|;
      SeedTimelineShape(draws[..n - 1], now, rule);
      HistoryShape(n, draws[n - 1], now, rule);
      var a: seq<NewEntry>, h: seq<NewEntry> := SeedTimeline(draws[..n - 1], now, rule), CandidateHistory(n, draws[n - 1], now, rule);
      assert SeedTimeline(draws, now, rule) == a + h;
      forall i | 0 <= i < |a + h| ensures 1 <= (a + h)[i].candidateId <= n {
        if i < |a| {
          assert (a + h)[i] == a[i];
        } else {
          assert (a + h)[i] == h[i - |a|];
        }
      }
    }
  }

  lemma HistoryShape(id: nat, d: CandidateDraws, now: int, rule: NextRule)
    requires id >= 1
    ensures var h := CandidateHistory(id, d, now, rule);
      1 <= |h| <= 5 && NamesCandidates(h, id)
  {
    WalkShape(id, RandomItem(d.stage, CandidateStages), StartTime(d, now), d.pick, d.gap, rule);
  }

  /**
   * The last generated entry of a seeded candidate names the candidate's stage under the
   * `Reaching` rule; under the seed's own rule only when that stage is not "rejected".
   */
  lemma SeededHistoryEndsAtStage(id: nat, d: CandidateDraws, now: int, rule: NextRule)
    ensures var h := CandidateHistory(id, d, now, rule);
      var c := CreateCandidate(id, d);
      (rule == Reaching || c.stage != Rejected) ==> h[|h| - 1].details.stage == c.stage
  {
    WalkEndsAtTarget(id, RandomItem(d.stage, CandidateStages), StartTime(d, now), d.pick, d.gap, rule);
  }

  // ---------------------------------------------------------------------------
  // Assessments
  // ---------------------------------------------------------------------------

  /** The draws `createAssessment` makes: the number of sections, then per section and question. */
  datatype AssessmentDraws = AssessmentDraws(sections: nat, questions: nat -> nat, qtype: (nat, nat) -> nat, skill: (nat, nat) -> nat)

  function SectionId(s: nat): string {
    "sec-" + Decimal(s + 1)
  }

  function SectionTitle(s: nat): string {
    var names := ["Technical", "Aptitude", "Behavioral", "Final"];
    "Section " + Decimal(s + 1) + ": " + (if s < |names| then names[s] else "Misc")
  }

  /** The id of question `q` of section `s`, both counted from 0. */
  function QuestionId(s: nat, q: nat): string {
    "q-" + Decimal(s + 1) + "-" + Decimal(q + 1)
  }

  /** The id the conditional questions of section `s` depend on, as the template writes it. */
  function ConditionTarget(s: nat): (id: string)
    ensures id == QuestionId(s, 0)
  {
    assert Decimal(1) == "1";
    "q-" + Decimal(s + 1) + "-1"
  }

  /** Question ids name their position: distinct positions have distinct ids. */
  lemma QuestionIdInjective(s1: nat, q1: nat, s2: nat, q2: nat)
    ensures QuestionId(s1, q1) == QuestionId(s2, q2) <==> s1 == s2 && q1 == q2
  {
    var x1 := "q-" + Decimal(s1 + 1);
    var x2 := "q-" + Decimal(s2 + 1);
    DashSplit(x1, q1 + 1, x2, q2 + 1);
    if x1 == x2 {
      assert Decimal(s1 + 1) == x1[2..] && Decimal(s2 + 1) == x2[2..];
      DecimalValue(s1 + 1);
      DecimalValue(s2 + 1);
    }
  }

  /** The first question of the first section is the one the preview answers "Yes". */
  lemma FirstQuestionIsFirst()
    ensures QuestionId(0, 0) == FirstQuestionId
  {
    assert Decimal(1) == "1";
  }

  /** One generated question: conditional every third question, options for choices, a range for numbers. */
  function CreateQuestion(s: nat, q: nat, t: QuestionType, skill: string): Question {
    Question(
      QuestionId(s, q), t,
      "Q" + Decimal(q + 1) + ": How would you approach " + skill + " problem in a " + TypeName(t) + " format?",
      true,
      if q % 3 == 0 then Some(Conditional(ConditionTarget(s), "Yes")) else None,
      if t == SingleChoice || t == MultiChoice then Some(["Yes", "No", "Maybe"]) else None,
      if t == Numeric then Some(Range(1, 10)) else None)
  }

  /** The fields of one generated question, as the rules of the template give them. */
  lemma QuestionFields(s: nat, q: nat, t: QuestionType, skill: string)
    ensures var qu := CreateQuestion(s, q, t, skill);
      && qu.required && qu.id == QuestionId(s, q) && qu.qtype == t
      && (qu.conditional.Some? <==> q % 3 == 0)
      && (qu.conditional.Some? ==> qu.conditional.value == Conditional(QuestionId(s, 0), "Yes"))
      && (qu.options.Some? <==> t == SingleChoice || t == MultiChoice)
      && (qu.options.Some? ==> qu.options.value == ["Yes", "No", "Maybe"])
      && (qu.range.Some? <==> t == Numeric)
      && (qu.range.Some? ==> qu.range.value == Range(1, 10))
  {
  }

  /** Question `q` of section `s`, with its drawn type and skill. */
  function SeededQuestion(s: nat, q: nat, d: AssessmentDraws): Question {
    CreateQuestion(s, q, RandomItem(d.qtype(s, q), QuestionTypes), RandomItem(d.skill(s, q), Skills))
  }

  /** `createSection`: 8 to 12 questions, numbered from 1 within the section. */
  function CreateSection(s: nat, d: AssessmentDraws): (sec: Section)
    ensures sec.id == SectionId(s) && 8 <= |sec.questions| <= 12
    ensures forall q :: 0 <= q < |sec.questions| ==> sec.questions[q] == SeededQuestion(s, q, d)
  {
    Section(SectionId(s), SectionTitle(s),
      seq(Random(d.questions(s), 8, 12), q requires q >= 0 => SeededQuestion(s, q, d)))
  }

  /** `createAssessment(jobId)`: 2 to 4 sections of 8 to 12 questions. */
  function CreateAssessment(jobId: int, d: AssessmentDraws): (a: Assessment)
    ensures a.jobId == jobId && 2 <= |a.sections| <= 4
    ensures forall s :: 0 <= s < |a.sections| ==> a.sections[s] == CreateSection(s, d)
  {
    Assessment(jobId, seq(Random(d.sections, 2, 4), s requires s >= 0 => CreateSection(s, d)))
  }

  /**
   * In a seeded assessment every question is required; exactly the questions at positions
   * 0, 3, 6, ... of a section are conditional, each on the section's first question being
   * "Yes"; exactly the choice questions have the options Yes/No/Maybe, and exactly the
   * numeric ones the range 1..10.
   */
  lemma SeededQuestionRules(jobId: int, d: AssessmentDraws, s: nat, q: nat)
    requires s < |CreateAssessment(jobId, d).sections|
    requires q < |CreateAssessment(jobId, d).sections[s].questions|
    ensures var sec := CreateAssessment(jobId, d).sections[s];
      var qu := sec.questions[q];
      && qu.required
      && qu.id == QuestionId(s, q)
      && (qu.conditional.Some? <==> q % 3 == 0)
      && (qu.conditional.Some? ==> qu.conditional.value == Conditional(sec.questions[0].id, "Yes"))
      && (qu.options.Some? <==> qu.qtype == SingleChoice || qu.qtype == MultiChoice)
      && (qu.options.Some? ==> qu.options.value == ["Yes", "No", "Maybe"])
      && (qu.range.Some? <==> qu.qtype == Numeric)
      && (qu.range.Some? ==> qu.range.value == Range(1, 10))
  {
    var sec := CreateAssessment(jobId, d).sections[s];
    assert sec == CreateSection(s, d);
    assert sec.questions[q] == SeededQuestion(s, q, d);
    assert sec.questions[0] == SeededQuestion(s, 0, d);
    QuestionFields(s, q, RandomItem(d.qtype(s, q), QuestionTypes), RandomItem(d.skill(s, q), Skills));
    QuestionFields(s, 0, RandomItem(d.qtype(s, 0), QuestionTypes), RandomItem(d.skill(s, 0), Skills));
  }

  /** The id of a question of a seeded assessment is the one its position gives. */
  lemma SeededQuestionId(jobId: int, d: AssessmentDraws, s: nat, q: nat)
    requires s < |CreateAssessment(jobId, d).sections| && q < |CreateAssessment(jobId, d).sections[s].questions|
    ensures CreateAssessment(jobId, d).sections[s].questions[q].id == QuestionId(s, q)
  {
    var sec := CreateAssessment(jobId, d).sections[s];
    assert sec == CreateSection(s, d);
    assert sec.questions[q] == SeededQuestion(s, q, d);
  }

  /** No two questions of a seeded assessment share an id. */
  lemma SeededQuestionIdsDistinct(jobId: int, d: AssessmentDraws, s1: nat, q1: nat, s2: nat, q2: nat)
    requires s1 < |CreateAssessment(jobId, d).sections| && q1 < |CreateAssessment(jobId, d).sections[s1].questions|
    requires s2 < |CreateAssessment(jobId, d).sections| && q2 < |CreateAssessment(jobId, d).sections[s2].questions|
    requires s1 != s2 || q1 != q2
    ensures CreateAssessment(jobId, d).sections[s1].questions[q1].id != CreateAssessment(jobId, d).sections[s2].questions[q2].id
  {
    SeededQuestionId(jobId, d, s1, q1);
    SeededQuestionId(jobId, d, s2, q2);
    QuestionIdInjective(s1, q1, s2, q2);
  }

  /**
   * With the preview's initial responses, a question of a seeded assessment is shown
   * exactly when it is unconditional or lies in the first section: the first question of
   * every other section depends on itself, has the empty response, and so hides itself and
   * every third question after it.
   */
  lemma SeededVisibility(jobId: int, d: AssessmentDraws, responses: Responses, s: nat, q: nat)
    requires responses.Keys == Ids(AllQuestions(CreateAssessment(jobId, d).sections))
    requires forall id :: id in responses ==> responses[id] == DefaultResponse(id)
    requires s < |CreateAssessment(jobId, d).sections| && q < |CreateAssessment(jobId, d).sections[s].questions|
    ensures Visible(CreateAssessment(jobId, d).sections[s].questions[q], responses) <==> q % 3 != 0 || s == 0
  {
    var a := CreateAssessment(jobId, d);
    SeededQuestionRules(jobId, d, s, q);
    if q % 3 == 0 {
      var target := QuestionId(s, 0);
      SeededQuestionId(jobId, d, s, 0);
      AllQuestionsHas(a.sections, s, 0);
      assert target in responses;
      FirstQuestionIsFirst();
      QuestionIdInjective(s, 0, 0, 0);
    }
  }

  // ---------------------------------------------------------------------------
  // Seeding the database
  // ---------------------------------------------------------------------------

  /** `Array.from({ length: 5 }, (_, i) => createAssessment(i + 1))`. */
  function SeedAssessments(draws: seq<AssessmentDraws>): (r: seq<Assessment>)
    ensures |r| == |draws|
    ensures forall i :: 0 <= i < |r| ==> r[i] == CreateAssessment(i + 1, draws[i])
  {
    seq(|draws|, i requires 0 <= i < |draws| => CreateAssessment(i + 1, draws[i]))
  }

  /** The loop of `seedDatabase` that generates every candidate's history, in id order. */
  method GenerateSeedTimeline(draws: seq<CandidateDraws>, now: int, rule: NextRule) returns (entries: seq<NewEntry>)
    ensures entries == SeedTimeline(draws, now, rule)
  {
    entries := [];
    var i := 0;
    while i < |draws|
      invariant 0 <= i <= |draws|
      invariant entries == SeedTimeline(draws[..i], now, rule)
    {
      var d := draws[i];
      var history := GenerateTimeline(i + 1, RandomItem(d.stage, CandidateStages), StartTime(d, now), d.pick, d.gap, rule);
      assert draws[..i + 1][..i] == draws[..i];
      entries := entries + history;
      i := i + 1;
    }
    assert draws[..i] == draws;
  }

  /** Clears the jobs table and bulk-writes the seeded jobs; the key generator moves past them. */
  method SeedJobsTable(jobs: JobTable, draws: seq<JobDraws>, now: int)
    requires jobs.Valid()
    modifies jobs
    ensures jobs.Valid() && jobs.jobs == SeedJobRows(draws, now)
    ensures jobs.nextId >= |draws| + 1
  {
    var rows := SeedJobRows(draws, now);
    SeededJobs(draws, now);
    jobs.Replace(rows, |draws| + 1);
  }

  /** Clears the candidates table and bulk-writes the seeded candidates, with an empty timeline. */
  method SeedCandidatesTable(store: CandidateStore, draws: seq<CandidateDraws>)
    requires store.Valid()
    modifies store
    ensures store.Valid() && store.candidates == SeedCandidateRows(draws)
    ensures store.timeline == [] && store.nextEntryId == old(store.nextEntryId)
    ensures store.nextId >= |draws| + 1
  {
    var rows := SeedCandidateRows(draws);
    SeededCandidates(draws);
    store.Replace(rows, |draws| + 1);
  }

  /**
   * `seedDatabase()`: clears the tables, bulk-writes the jobs and the candidates under ids
   * 1..n, builds the assessments, then generates every candidate's history in id order and
   * bulk-writes it to the timeline, whose ids continue from the key generator.
   */
  method SeedDatabase(jobs: JobTable, store: CandidateStore,
                      jobDraws: seq<JobDraws>, candidateDraws: seq<CandidateDraws>,
                      assessmentDraws: seq<AssessmentDraws>, now: int, rule: NextRule)
    returns (assessments: seq<Assessment>)
    requires jobs.Valid() && store.Valid()
    requires |jobDraws| == NumJobs && |candidateDraws| == NumCandidates && |assessmentDraws| == NumAssessments
    modifies jobs, store
    ensures jobs.Valid() && jobs.jobs == SeedJobRows(jobDraws, now)
    ensures store.Valid() && store.candidates == SeedCandidateRows(candidateDraws)
    ensures store.timeline == Numbered(SeedTimeline(candidateDraws, now, rule), old(store.nextEntryId))
    ensures assessments == SeedAssessments(assessmentDraws)
  {
    SeedJobsTable(jobs, jobDraws, now);
    SeedCandidatesTable(store, candidateDraws);
    assessments := SeedAssessments(assessmentDraws);
    var entries := GenerateSeedTimeline(candidateDraws, now, rule);
    store.AddEntries(entries);
  }
}

=== FILE: seed_random.dfy ===
/**
 * The seed's random helpers with the randomness taken out: each call to `Math.random()`
 * becomes a draw `d` passed in by the caller, so every value the seed can produce is the
 * result of some choice of draws.
 */
module SeedRandom {

  /** `n * 24 * 60 * 60 * 1000`: a number of days in milliseconds. */
  function Days(n: int): int {
    n * 86_400_000
  }

  /** `random(min, max)`: an integer in `[min, max]`, chosen by the draw `d` (taken modulo the range's size). */
  function Random(d: nat, min: int, max: int): (r: int)
    requires min <= max
    ensures min <= r <= max
    decreases d
  {
    if d <= max - min then min + d else Random(d - (max - min + 1), min, max)
  }

  /** Every integer of the range is produced by some draw. */
  lemma RandomCovers(min: int, max: int, r: int)
    requires min <= r <= max
    ensures Random((r - min) as nat, min, max) == r
  {
  }

  /** `randomItem(arr)`: an element of a non-empty list, chosen by the draw `d`. */
  function RandomItem<T>(d: nat, arr: seq<T>): (r: T)
    requires arr != []
    ensures r in arr
  {
    arr[Random(d, 0, |arr| - 1)]
  }
}

=== FILE: seed_walk.dfy ===
/**
 * The seed's timeline walk: starting from "applied", a candidate's history moves along the
 * stage-transition graph towards the candidate's stage, one step a few days after the
 * previous one, never entering a stage that lies past the candidate's stage in the list of
 * stages.
 */
module SeedWalk {
  import opened Candidates
  import opened SeedRandom
  import opened Wrappers

  /** `CANDIDATE_STAGES.indexOf(s)`. */
  function StageIndex(s: Stage): nat {
    match s
    case Applied => 0
    case Screen => 1
    case Tech => 2
    case Offer => 3
    case Hired => 4
    case Rejected => 5
  }

  /** The most steps a walk can still take from a stage. */
  function Height(s: Stage): nat {
    match s
    case Applied => 4
    case Screen => 3
    case Tech => 2
    case Offer => 1
    case Hired => 0
    case Rejected => 0
  }

  /** The stages with no way out. */
  predicate Terminal(s: Stage) {
    s == Hired || s == Rejected
  }

  /** `STAGE_TRANSITIONS`: the stages each stage can move to; only the terminal stages have none. */
  function Transitions(s: Stage): seq<Stage> {
    match s
    case Applied => [Screen]
    case Screen => [Tech, Rejected]
    case Tech => [Offer, Rejected]
    case Offer => [Hired, Rejected]
    case Hired => []
    case Rejected => []
  }

  /** Every edge leads further down the list of stages and closer to an end. */
  lemma Forward(s: Stage, t: Stage)
    requires t in Transitions(s)
    ensures StageIndex(t) > StageIndex(s) && Height(t) < Height(s)
  {
  }

  /**
   * Which next stages the walk may choose. `IndexBound` is the filter the seed applies:
   * any stage not past the target in the list. `Reaching` also drops a stage that has no
   * way out unless it is the target, so that the walk cannot stop short of it.
   */
  datatype NextRule = IndexBound | Reaching

  predicate Allowed(s: Stage, target: Stage, rule: NextRule) {
    StageIndex(s) <= StageIndex(target) && (rule == IndexBound || s == target || !Terminal(s))
  }

  /** `stages.filter(...)` by the rule, in the list's order. */
  function KeepAllowed(stages: seq<Stage>, target: Stage, rule: NextRule): (r: seq<Stage>)
    ensures forall t :: t in r <==> t in stages && Allowed(t, target, rule)
    ensures |r| <= |stages|
  {
    if stages == [] then []
    else (if Allowed(stages[0], target, rule) then [stages[0]] else []) + KeepAllowed(stages[1..], target, rule)
  }

  /** `STAGE_TRANSITIONS[current].filter(...)`: the allowed successors, in the table's order. */
  function Possible(current: Stage, target: Stage, rule: NextRule): (r: seq<Stage>)
    ensures forall t :: t in r <==> t in Transitions(current) && Allowed(t, target, rule)
  {
    KeepAllowed(Transitions(current), target, rule)
  }

  /** `b` is 1 to 10 whole days after `a`. */
  predicate DaysLater(a: int, b: int) {
    a + Days(1) <= b <= a + Days(10)
  }

  /**
   * One turn of the loop from `current` at time `time`: none when the target is reached or
   * no successor is allowed; otherwise the `k`-th draw `pick(k)` chooses the next stage and
   * `gap(k)` the number of days (1 to 10) the clock moves on.
   */
  function NextStep(cid: int, current: Stage, target: Stage, time: int, k: nat,
                    pick: nat -> nat, gap: nat -> nat, rule: NextRule): (e: Option<NewEntry>)
    ensures e.None? <==> current == target || Possible(current, target, rule) == []
    ensures e.Some? ==>
      && e.value.candidateId == cid && e.value.details.MovedTo?
      && e.value.details.stage in Possible(current, target, rule)
      && e.value.details.stage in Transitions(current) && Allowed(e.value.details.stage, target, rule)
      && DaysLater(time, e.value.timestamp)
  {
    if current == target then None
    else
      var options := Possible(current, target, rule);
      if options == [] then None
      else Some(NewEntry(cid, MovedTo(RandomItem(pick(k), options)), time + Days(Random(gap(k), 1, 10))))
  }

  /** The steps of the walk from `current`: the loop's turns until it stops. */
  function Steps(cid: int, current: Stage, target: Stage, time: int, k: nat,
                 pick: nat -> nat, gap: nat -> nat, rule: NextRule): (r: seq<NewEntry>)
    ensures |r| <= Height(current)
    decreases 5 - StageIndex(current)
  {
    match NextStep(cid, current, target, time, k, pick, gap, rule)
    case None => []
    case Some(e) =>
      Forward(current, e.details.stage);
      [e] + Steps(cid, e.details.stage, target, e.timestamp, k + 1, pick, gap, rule)
  }

  /** One turn of the loop followed by the rest of the walk. */
  lemma StepsCons(cid: int, current: Stage, target: Stage, time: int, k: nat,
                  pick: nat -> nat, gap: nat -> nat, rule: NextRule)
    requires NextStep(cid, current, target, time, k, pick, gap, rule).Some?
    ensures var e := NextStep(cid, current, target, time, k, pick, gap, rule).value;
      && StageIndex(e.details.stage) > StageIndex(current)
      && Steps(cid, current, target, time, k, pick, gap, rule)
         == [e] + Steps(cid, e.details.stage, target, e.timestamp, k + 1, pick, gap, rule)
  {
    Forward(current, NextStep(cid, current, target, time, k, pick, gap, rule).value.details.stage);
  }

  /** Every step is a "Moved to" entry of the candidate, to a stage not past the target. */
  lemma {:induction false} StepsMoves(cid: int, current: Stage, target: Stage, time: int, k: nat,
                                      pick: nat -> nat, gap: nat -> nat, rule: NextRule)
    ensures var r := Steps(cid, current, target, time, k, pick, gap, rule);
      forall i :: 0 <= i < |r| ==>
        r[i].candidateId == cid && r[i].details.MovedTo? && Allowed(r[i].details.stage, target, rule)
    decreases 5 - StageIndex(current)
  {
    var step := NextStep(cid, current, target, time, k, pick, gap, rule);
    if step.Some? {
      var e := step.value;
      StepsCons(cid, current, target, time, k, pick, gap, rule);
      var rest := Steps(cid, e.details.stage, target, e.timestamp, k + 1, pick, gap, rule);
      StepsMoves(cid, e.details.stage, target, e.timestamp, k + 1, pick, gap, rule);
      var r := Steps(cid, current, target, time, k, pick, gap, rule);
      assert forall i :: 0 < i < |r| ==> r[i] == rest[i - 1];
    }
  }

  /**
   * The first step follows an edge from `current`, and each later one an edge from the
   * previous step's stage; each comes 1 to 10 days after the one before.
   */
  lemma {:induction false} StepsChain(cid: int, current: Stage, target: Stage, time: int, k: nat,
                                      pick: nat -> nat, gap: nat -> nat, rule: NextRule)
    ensures var r := Steps(cid, current, target, time, k, pick, gap, rule);
      && (r != [] ==> r[0].details.stage in Transitions(current) && DaysLater(time, r[0].timestamp))
      && (forall i :: 0 < i < |r| ==>
            r[i].details.stage in Transitions(r[i - 1].details.stage) && DaysLater(r[i - 1].timestamp, r[i].timestamp))
    decreases 5 - StageIndex(current)
  {
    var step := NextStep(cid, current, target, time, k, pick, gap, rule);
    if step.Some? {
      var e := step.value;
      StepsCons(cid, current, target, time, k, pick, gap, rule);
      var rest := Steps(cid, e.details.stage, target, e.timestamp, k + 1, pick, gap, rule);
      StepsChain(cid, e.details.stage, target, e.timestamp, k + 1, pick, gap, rule);
      var r := Steps(cid, current, target, time, k, pick, gap, rule);
      assert forall i :: 0 < i < |r| ==> r[i] == rest[i - 1];
    }
  }

  /** A candidate's seeded history: "Application submitted. Stage: applied" at `start`, then the steps. */
  function Walk(cid: int, target: Stage, start: int, pick: nat -> nat, gap: nat -> nat, rule: NextRule): seq<NewEntry> {
    [NewEntry(cid, Submitted(Applied), start)] + Steps(cid, Applied, target, start, 0, pick, gap, rule)
  }

  /**
   * A seeded history has one to five entries: the submission at `start`, then "Moved to"
   * entries along edges of the transition graph, each 1 to 10 days after the one before,
   * none past the candidate's stage.
   */
  lemma WalkShape(cid: int, target: Stage, start: int, pick: nat -> nat, gap: nat -> nat, rule: NextRule)
    ensures var w := Walk(cid, target, start, pick, gap, rule);
      && 1 <= |w| <= 5
      && w[0] == NewEntry(cid, Submitted(Applied), start)
      && (forall i :: 0 <= i < |w| ==> w[i].candidateId == cid && StageIndex(w[i].details.stage) <= StageIndex(target))
      && (forall i :: 0 < i < |w| ==>
            && w[i].details.MovedTo?
            && w[i].details.stage in Transitions(w[i - 1].details.stage)
            && DaysLater(w[i - 1].timestamp, w[i].timestamp))
  {
    var steps := Steps(cid, Applied, target, start, 0, pick, gap, rule);
    StepsMoves(cid, Applied, target, start, 0, pick, gap, rule);
    StepsChain(cid, Applied, target, start, 0, pick, gap, rule);
    var w := Walk(cid, target, start, pick, gap, rule);
    forall i | 0 <= i < |w|
      ensures w[i].candidateId == cid && StageIndex(w[i].details.stage) <= StageIndex(target)
    {
      if i > 0 {
        assert w[i] == steps[i - 1];
      }
    }
    forall i | 0 < i < |w|
      ensures w[i].details.MovedTo? && w[i].details.stage in Transitions(w[i - 1].details.stage)
      ensures DaysLater(w[i - 1].timestamp, w[i].timestamp)
    {
      assert w[i] == steps[i - 1];
      if i > 1 {
        assert w[i - 1] == steps[i - 2];
      }
    }
  }

  /**
   * The generation loop: the history starts with the submission entry and grows by one
   * "Moved to" entry per step until the candidate's stage is reached or no successor is
   * allowed.
   */
  method GenerateTimeline(cid: int, target: Stage, start: int, pick: nat -> nat, gap: nat -> nat, rule: NextRule)
    returns (entries: seq<NewEntry>)
    ensures entries == Walk(cid, target, start, pick, gap, rule)
  {
    var current := Applied;
    var time := start;
    var k := 0;
    entries := [NewEntry(cid, Submitted(Applied), start)];
    while current != target
      invariant entries + Steps(cid, current, target, time, k, pick, gap, rule) == Walk(cid, target, start, pick, gap, rule)
      decreases 5 - StageIndex(current)
    {
      var options := Possible(current, target, rule);
      if |options| == 0 {
        break;
      }
      var next := RandomItem(pick(k), options);
      var step := NewEntry(cid, MovedTo(next), time + Days(Random(gap(k), 1, 10)));
      assert NextStep(cid, current, target, time, k, pick, gap, rule) == Some(step);
      StepsCons(cid, current, target, time, k, pick, gap, rule);
      entries := entries + [step];
      time := step.timestamp;
      current := next;
      k := k + 1;
    }
  }

  // ---------------------------------------------------------------------------
  // Where the walk ends
  // ---------------------------------------------------------------------------

  /** The stage a walk from `current` ends at. */
  function End(current: Stage, steps: seq<NewEntry>): Stage {
    if steps == [] then current else steps[|steps| - 1].details.stage
  }

  /** The target is still ahead and can be approached under the rule. */
  predicate Live(current: Stage, target: Stage, rule: NextRule) {
    current == target
    || (StageIndex(current) < StageIndex(target) && (rule == IndexBound || !Terminal(current)))
  }

  /** From a live stage short of the target some successor is allowed. */
  lemma LiveHasStep(current: Stage, target: Stage, rule: NextRule)
    requires Live(current, target, rule) && current != target
    requires !(rule == IndexBound && target == Rejected && current == Hired)
    ensures Possible(current, target, rule) != []
  {
    match current
    case Applied => assert Screen in Possible(current, target, rule);
    case Screen => assert Tech in Possible(current, target, rule);
    case Tech => assert Offer in Possible(current, target, rule);
    case Offer => assert target in Possible(current, target, rule);
    case Hired =>
    case Rejected =>
  }

  /** Every allowed successor of a live stage is live. */
  lemma LiveNext(current: Stage, target: Stage, rule: NextRule, next: Stage)
    requires Live(current, target, rule)
    requires next in Possible(current, target, rule)
    ensures Live(next, target, rule)
  {
  }

  /** The end of a walk that takes the entry `e` first is the end of the rest. */
  lemma EndCons(current: Stage, e: NewEntry, rest: seq<NewEntry>)
    ensures End(current, [e] + rest) == End(e.details.stage, rest)
  {
  }

  /**
   * A walk from a live stage ends at the target, except that under the seed's own filter a
   * walk towards "rejected" can stop at "hired", a stage with no way out.
   */
  lemma {:induction false} StepsEnd(cid: int, current: Stage, target: Stage, time: int, k: nat,
                                    pick: nat -> nat, gap: nat -> nat, rule: NextRule)
    requires Live(current, target, rule)
    ensures var e := End(current, Steps(cid, current, target, time, k, pick, gap, rule));
      e == target || (rule == IndexBound && target == Rejected && e == Hired)
    decreases 5 - StageIndex(current)
  {
    if current != target && !(rule == IndexBound && target == Rejected && current == Hired) {
      LiveHasStep(current, target, rule);
      var e := NextStep(cid, current, target, time, k, pick, gap, rule).value;
      LiveNext(current, target, rule, e.details.stage);
      StepsCons(cid, current, target, time, k, pick, gap, rule);
      var rest := Steps(cid, e.details.stage, target, e.timestamp, k + 1, pick, gap, rule);
      StepsEnd(cid, e.details.stage, target, e.timestamp, k + 1, pick, gap, rule);
      EndCons(current, e, rest);
    }
  }

  /**
   * The last entry of a seeded history names the candidate's stage whenever the target is
   * not "rejected", and always under the `Reaching` rule.
   */
  lemma WalkEndsAtTarget(cid: int, target: Stage, start: int, pick: nat -> nat, gap: nat -> nat, rule: NextRule)
    ensures var w := Walk(cid, target, start, pick, gap, rule);
      var last := w[|w| - 1].details.stage;
      && (rule == Reaching || target != Rejected ==> last == target)
      && (last == target || (rule == IndexBound && target == Rejected && last == Hired))
  {
    var steps := Steps(cid, Applied, target, start, 0, pick, gap, rule);
    StepsEnd(cid, Applied, target, start, 0, pick, gap, rule);
    LastStage(NewEntry(cid, Submitted(Applied), start), steps);
  }

  /** The last entry of a history names the stage its steps end at. */
  lemma LastStage(first: NewEntry, steps: seq<NewEntry>)
    ensures ([first] + steps)[|steps|].details.stage == End(first.details.stage, steps)
  {
  }

  /** The draw that always takes the first option, or the shortest gap. */
  function FirstDraw(k: nat): nat {
    0
  }

  /**
   * Under the seed's filter, a candidate whose stage is "rejected" can get a history whose
   * last entry is "Moved to hired": always taking the first option leads
   * applied, screen, tech, offer, hired, and "hired" has no successor.
   */
  lemma AsWrittenRejectedEndsHired(cid: int, start: int, gap: nat -> nat)
    ensures var w := Walk(cid, Rejected, start, FirstDraw, gap, IndexBound);
      |w| == 5 && w[4].details == MovedTo(Hired)
  {
    FirstOptionsReachHired(cid, Applied, start, 0, gap);
  }

  /** Towards "rejected" under the seed's filter, first options from a stage short of the end lead on to "hired". */
  lemma {:induction false} FirstOptionsReachHired(cid: int, current: Stage, time: int, k: nat, gap: nat -> nat)
    requires !Terminal(current)
    ensures var r := Steps(cid, current, Rejected, time, k, FirstDraw, gap, IndexBound);
      |r| == Height(current) && r[|r| - 1].details == MovedTo(Hired)
    decreases Height(current)
  {
    FirstOption(cid, current, time, k, gap);
    var e := NextStep(cid, current, Rejected, time, k, FirstDraw, gap, IndexBound).value;
    StepsCons(cid, current, Rejected, time, k, FirstDraw, gap, IndexBound);
    var rest := Steps(cid, e.details.stage, Rejected, e.timestamp, k + 1, FirstDraw, gap, IndexBound);
    if current != Offer {
      FirstOptionsReachHired(cid, e.details.stage, e.timestamp, k + 1, gap);
      LastCons(e, rest);
    } else {
      assert rest == [];
    }
  }

  /** Towards "rejected" under the seed's filter, the first draw takes the first edge of the table. */
  lemma FirstOption(cid: int, current: Stage, time: int, k: nat, gap: nat -> nat)
    requires !Terminal(current)
    ensures var e := NextStep(cid, current, Rejected, time, k, FirstDraw, gap, IndexBound);
      e.Some? && e.value.details.stage == Transitions(current)[0]
      && Height(e.value.details.stage) + 1 == Height(current)
  {
    var options := Possible(current, Rejected, IndexBound);
    assert options == Transitions(current);
    assert RandomItem(FirstDraw(k), options) == options[0];
  }

  /** The last element of `[e] + rest` is the last of `rest` when there is one. */
  lemma LastCons<T>(e: T, rest: seq<T>)
    requires rest != []
    ensures ([e] + rest)[|rest|] == rest[|rest| - 1]
  {
  }
}

=== FILE: tables.dfy ===
/**
 * The generic table-store behaviour the data layer depends on: the primary-key order in
 * which a table's rows come back, `Array.prototype.filter`, and the stable sorts behind
 * an index ordering (`orderBy`) or `sortBy`, stated as a sort on a (key, id) rank.
 */
module Tables {

  // ---------------------------------------------------------------------------
  // Primary-key order
  // ---------------------------------------------------------------------------

  /** The keys of `m` in `[lo, hi)`, ascending. */
  function KeysInRange<T>(m: map<int, T>, lo: int, hi: int): (ks: seq<int>)
    ensures forall i :: 0 <= i < |ks| ==> ks[i] in m && lo <= ks[i] < hi
    ensures forall k :: k in m && lo <= k < hi ==> k in ks
    decreases hi - lo
  {
    if lo >= hi then []
    else
      var rest := KeysInRange(m, lo + 1, hi);
      if lo in m then [lo] + rest else rest
  }

  /** Each element is smaller than every later one. */
  predicate StrictlyAscending(s: seq<int>) {
    forall i, j :: 0 <= i < j < |s| ==> s[i] < s[j]
  }

  /** A smaller element put in front of an ascending sequence keeps it ascending. */
  lemma ConsAscending(x: int, rest: seq<int>)
    requires StrictlyAscending(rest)
    requires forall i :: 0 <= i < |rest| ==> x < rest[i]
    ensures StrictlyAscending([x] + rest)
  {
    var s := [x] + rest;
    forall i, j | 0 <= i < j < |s| ensures s[i] < s[j] {
      assert s[j] == rest[j - 1];
      if i > 0 {
        assert s[i] == rest[i - 1];
      }
    }
  }

  /** The keys come in ascending order, each once. */
  lemma {:induction false} KeysAscending<T>(m: map<int, T>, lo: int, hi: int)
    ensures StrictlyAscending(KeysInRange(m, lo, hi))
    decreases hi - lo
  {
    if lo < hi {
      KeysAscending(m, lo + 1, hi);
      if lo in m {
        ConsAscending(lo, KeysInRange(m, lo + 1, hi));
      }
    }
  }

  /** The rows of a table whose keys lie in `[lo, hi)`, in primary-key order (`toArray`). */
  function Rows<T>(m: map<int, T>, lo: int, hi: int): (rows: seq<T>)
    ensures |rows| == |KeysInRange(m, lo, hi)|
    ensures forall i :: 0 <= i < |rows| ==> rows[i] == m[KeysInRange(m, lo, hi)[i]]
  {
    var ks := KeysInRange(m, lo, hi);
    seq(|ks|, i requires 0 <= i < |ks| => m[ks[i]])
  }

  /** Every row of the table is listed, and nothing else is. */
  lemma RowsComplete<T>(m: map<int, T>, lo: int, hi: int)
    requires forall k :: k in m ==> lo <= k < hi
    ensures forall k :: k in m ==> m[k] in Rows(m, lo, hi)
    ensures forall x :: x in Rows(m, lo, hi) ==> x in m.Values
  {
    var ks := KeysInRange(m, lo, hi);
    var rows := Rows(m, lo, hi);
    forall k | k in m ensures m[k] in rows {
      var i :| 0 <= i < |ks| && ks[i] == k;
      assert rows[i] == m[k];
    }
    forall x | x in rows ensures x in m.Values {
      var i :| 0 <= i < |rows| && rows[i] == x;
      assert m[ks[i]] == x;
    }
  }

  /**
   * `bulkAdd` of `Array.from({ length: n }, (_, i) => make(i + 1, ...))` into an empty
   * table: the row built for draw i is stored under key i + 1.
   */
  function BulkAdd<D, T>(draws: seq<D>, make: (nat, D) -> T): (m: map<int, T>)
    ensures forall k :: k in m <==> 1 <= k <= |draws|
    ensures forall k :: k in m ==> m[k] == make(k, draws[k - 1])
    ensures |m| == |draws|
  {
    if draws == [] then map[]
    else
      var n := |draws|;
      BulkAdd(draws[..n - 1], make)[n := make(n, draws[n - 1])]
  }

  // ---------------------------------------------------------------------------
  // Filtering
  // ---------------------------------------------------------------------------

  /** `s.filter(p)`: keeps exactly the elements satisfying `p`, each as often as it occurs. */
  function Filter<T(!new)>(s: seq<T>, p: T -> bool): (r: seq<T>)
    ensures forall x :: multiset(r)[x] == if p(x) then multiset(s)[x] else 0
    ensures forall i :: 0 <= i < |r| ==> p(r[i])
    ensures |r| <= |s|
  {
    if s == [] then []
    else
      var rest := Filter(s[1..], p);
      assert s == [s[0]] + s[1..];
      if p(s[0]) then [s[0]] + rest else rest
  }

  lemma {:induction false} FilterAll<T(!new)>(s: seq<T>, p: T -> bool)
    requires forall i :: 0 <= i < |s| ==> p(s[i])
    ensures Filter(s, p) == s
  {
    if s != [] {
      FilterAll(s[1..], p);
    }
  }

  lemma {:induction false} FilterNone<T(!new)>(s: seq<T>, p: T -> bool)
    requires forall i :: 0 <= i < |s| ==> !p(s[i])
    ensures Filter(s, p) == []
  {
    if s != [] {
      FilterNone(s[1..], p);
    }
  }

  /** Filtering twice is filtering once by the conjunction. */
  lemma {:induction false} FilterFilter<T(!new)>(s: seq<T>, p: T -> bool, q: T -> bool, pq: T -> bool)
    requires forall x :: pq(x) == (p(x) && q(x))
    ensures Filter(Filter(s, p), q) == Filter(s, pq)
  {
    if s != [] {
      FilterFilter(s[1..], p, q, pq);
    }
  }

  /** The filter's recursion alone, without its contract, for reasoning about its shape. */
  function Kept<T>(s: seq<T>, p: T -> bool): seq<T> {
    if s == [] then [] else (if p(s[0]) then [s[0]] else []) + Kept(s[1..], p)
  }

  lemma {:induction false} FilterIsKept<T(!new)>(s: seq<T>, p: T -> bool)
    ensures Filter(s, p) == Kept(s, p)
  {
    if s != [] {
      FilterIsKept(s[1..], p);
    }
  }

  lemma {:induction false} KeptAppend<T>(s: seq<T>, t: seq<T>, p: T -> bool)
    ensures Kept(s + t, p) == Kept(s, p) + Kept(t, p)
  {
    if s == [] {
      assert s + t == t;
    } else {
      var st := s + t;
      assert st[0] == s[0] && st[1..] == s[1..] + t;
      KeptAppend(s[1..], t, p);
      var head := if p(s[0]) then [s[0]] else [];
      assert Kept(st, p) == head + (Kept(s[1..], p) + Kept(t, p));
      assert Kept(s, p) == head + Kept(s[1..], p);
    }
  }

  /** Filtering distributes over concatenation: what is appended is filtered on its own. */
  lemma FilterAppend<T(!new)>(s: seq<T>, t: seq<T>, p: T -> bool)
    ensures Filter(s + t, p) == Filter(s, p) + Filter(t, p)
  {
    FilterIsKept(s + t, p);
    FilterIsKept(s, p);
    FilterIsKept(t, p);
    KeptAppend(s, t, p);
  }

  // ---------------------------------------------------------------------------
  // Sorting by a rank
  // ---------------------------------------------------------------------------

  /** Lexicographic order on (key, tie-breaker) pairs. */
  predicate LexLe(a: (int, int), b: (int, int)) {
    a.0 < b.0 || (a.0 == b.0 && a.1 <= b.1)
  }

  predicate SortedBy<T>(s: seq<T>, rank: T -> (int, int)) {
    forall i, j :: 0 <= i < j < |s| ==> LexLe(rank(s[i]), rank(s[j]))
  }

  /** Sortedness survives filtering: a filter keeps the relative order of what it keeps. */
  lemma {:induction false} FilterSorted<T(!new)>(s: seq<T>, p: T -> bool, rank: T -> (int, int))
    requires SortedBy(s, rank)
    ensures SortedBy(Filter(s, p), rank)
  {
    if s != [] {
      FilterSorted(s[1..], p, rank);
      var rest := Filter(s[1..], p);
      if p(s[0]) {
        forall j | 0 <= j < |rest| ensures LexLe(rank(s[0]), rank(rest[j])) {
          assert rest[j] in multiset(rest);
          assert rest[j] in multiset(s[1..]);
          var k :| 0 <= k < |s[1..]| && s[1..][k] == rest[j];
          assert s[k + 1] == rest[j];
        }
      }
    }
  }

  /** Sequences with the same multiset have the same members. */
  lemma SameMembers<T>(a: seq<T>, b: seq<T>)
    requires multiset(a) == multiset(b)
    ensures forall x :: x in a <==> x in b
  {
    forall x ensures x in a <==> x in b {
      assert x in a <==> x in multiset(a);
    }
  }

  /** Everything in a contiguous window of a sequence is in the sequence. */
  lemma WindowMembers<T>(s: seq<T>, lo: int, hi: int)
    requires 0 <= lo <= hi <= |s|
    ensures forall x :: x in s[lo..hi] ==> x in s
  {
    forall x | x in s[lo..hi] ensures x in s {
      var i :| 0 <= i < hi - lo && s[lo..hi][i] == x;
      assert s[lo + i] == x;
    }
  }

  /** A contiguous window of a sorted sequence is sorted. */
  lemma SortedWindow<T>(s: seq<T>, lo: int, hi: int, rank: T -> (int, int))
    requires 0 <= lo <= hi <= |s| && SortedBy(s, rank)
    ensures SortedBy(s[lo..hi], rank)
  {
    assert forall i :: 0 <= i < hi - lo ==> s[lo..hi][i] == s[lo + i];
  }

  /** Inserts `x` before the first element that does not rank below it. */
  function Insert<T>(x: T, s: seq<T>, rank: T -> (int, int)): (r: seq<T>)
    requires SortedBy(s, rank)
    ensures SortedBy(r, rank)
    ensures multiset(r) == multiset(s) + multiset{x}
  {
    if s == [] then [x]
    else if LexLe(rank(x), rank(s[0])) then [x] + s
    else
      var rest := Insert(x, s[1..], rank);
      assert s == [s[0]] + s[1..];
      assert forall y :: y in multiset(rest) ==> y == x || y in multiset(s[1..]);
      assert forall j :: 0 <= j < |rest| ==> LexLe(rank(s[0]), rank(rest[j])) by {
        forall j | 0 <= j < |rest| ensures LexLe(rank(s[0]), rank(rest[j])) {
          assert rest[j] in multiset(rest);
          if rest[j] != x {
            var k :| 0 <= k < |s[1..]| && s[1..][k] == rest[j];
            assert s[k + 1] == rest[j];
          }
        }
      }
      [s[0]] + rest
  }

  /** A stable insertion sort by `rank`: sorted, and a permutation of its input. */
  function SortBy<T>(s: seq<T>, rank: T -> (int, int)): (r: seq<T>)
    ensures SortedBy(r, rank)
    ensures multiset(r) == multiset(s)
  {
    if s == [] then []
    else
      assert s == [s[0]] + s[1..];
      Insert(s[0], SortBy(s[1..], rank), rank)
  }
}

=== FILE: wrappers.dfy ===
/** Optional values shared by every module of the model. */
module Wrappers {

  /** A value that may be absent: a missing record, an unset query parameter, an optional field. */
  datatype Option<+T> = None | Some(value: T) {
    function GetOr(default: T): T {
      match this
      case Some(v) => v
      case None => default
    }
  }
}
